=== FILE: README.md ===
# seo-web-fe core, modelled in Dafny

This project models the synchronous logic inside the components of the
seo-web-fe admin app. The app is a mock-data single-page front end for
managing websites, and the content published to them. The model covers
these parts:

- **List views.** The content table and the website table each have:
  - a search AND-ed with selects that use the sentinel `"all"`;
  - a selection array with select-all and a per-row toggle;
  - the header checkbox and bulk actions;
  - the content table's filter chips and the website table's option lists.

  The template list and the image library have simpler filters.
- **Website-connection forms.** There are three forms:
  - the three-step "add website" wizard, with validation, step guard, connection test, endpoint effect, tag list and save payload;
  - the six-platform single-page form;
  - the WordPress-only form.
- **Text transforms.** These are the editor's slug, word count and reading time, and the rewriter's sentence normalisation, history and word counter.
- **Collection operations.** These are the category manager (rename and guarded delete), the spreadsheet import dialog, the publishing queue's status columns, and the month grid of the publishing schedule.
- **Classifiers.** These map a health value, a feed state, a platform or a response time to an icon, colour, label or badge. Each has its fallback for values outside the declared ones.

Each component is one module. The modules share these definitions:

| module | holds |
|---|---|
| `Seqs` | stable filter, subsequence, remove-all and dedup |
| `Text` | ASCII lower-casing, substring search, ECMAScript whitespace trimming, split/join, replace-first |
| `WebsiteTypes` | the record types and enumerations of the website data |
| `Connector` | the partial website record the forms save, the group table, and the one-slash strip |
| `Selection` | the selection array both list views keep |

The model follows these conventions:

- A handler's state change is a pure function from the old state to the new one.
- `window.confirm` is a boolean parameter.
- A clock reading is an integer parameter.
- The spreadsheet parser's outcome is an `Option` parameter. `None` stands for the rejected promise.
- The origin of `new URL(url)` is an `Option` parameter. `None` stands for the constructor throwing.

Select values and stored health and status strings stay strings. So the model can state what the code does with a value outside the declared set.

## Model

| member | source | states |
|---|---|---|
| Selection.Toggle | client/src/components/content/ContentTable.tsx:131-137 | Checking appends the id at the end, even when it is already selected, so duplicates arise. Unchecking removes every copy of the id and keeps the other ids with their multiplicities, in order. |
| Selection.CheckThenUncheck | client/src/components/websites/WebsiteTable.tsx:111-117 | Checking then unchecking a row equals just unchecking it; for an unselected id it restores the original selection. |
| Selection.HeaderCheckedWithNothingVisibleSelected | client/src/components/content/ContentTable.tsx:428 | The length comparison shows the header checked although none of the visible rows is selected. |
| Selection.HeaderNeverCheckedWhenEmpty | client/src/components/websites/WebsiteTable.tsx:223 | The header checkbox is never checked over an empty visible list. |
| Selection.HeaderCheckedWhenConsistent | client/src/components/websites/WebsiteTable.tsx:223 | Assume the selection is duplicate-free and holds only visible ids, and the visible ids are distinct. Then the length test is checked exactly when every visible row is selected. |
| ContentTable.WithDim | client/src/components/content/ContentTable.tsx:116-121 | Setting one select changes that dimension only; the search and the other three keep their values. |
| ContentTable.KeepMeansShown | client/src/components/content/ContentTable.tsx:178-195 | The callback with early returns keeps a row exactly when its title matches and every non-"all" select equals the row's field. |
| ContentTable.Visible | client/src/components/content/ContentTable.tsx:178-195 | The shown rows are an order-preserving subsequence of the contents. A row is shown iff its title contains the search case-insensitively, and each select is "all" or equals the row's field. |
| ContentTable.UnfilteredShowsEverything | client/src/components/content/ContentTable.tsx:178-195 | With an empty search and all four selects on "all", the whole list is shown in order. |
| ContentTable.NarrowingNeverGrows | client/src/components/content/ContentTable.tsx:182-193 | Moving a select from "all" to a value shows a subsequence of the rows shown before, never more. |
| ContentTable.SelectAll | client/src/components/content/ContentTable.tsx:123-129 | Checking selects the id of every content in list order, including rows the filters hide. Unchecking empties the selection. |
| ContentTable.SelectAllUnderFilterLeavesHeaderUnchecked | client/src/components/content/ContentTable.tsx:123-129 | When a filter hides some row, the header stays unchecked right after select-all. |
| ContentTable.BulkDelete | client/src/components/content/ContentTable.tsx:158-165 | An empty selection or a declined confirmation changes nothing. A confirmed delete requests the selected ids and clears the selection. |
| ContentTable.BulkStatusChange | client/src/components/content/ContentTable.tsx:167-171 | An empty selection changes nothing. Otherwise the selected ids are requested with the new status and the selection is cleared. |
| ContentTable.BulkRequestClearsSelection | client/src/components/content/ContentTable.tsx:158-171 | A bulk handler that made a request always leaves nothing selected; a delete without a request keeps the selection. |
| ContentTable.BulkRequestHidesBar | client/src/components/content/ContentTable.tsx:158-217 | The bulk bar (shown iff something is selected) is up whenever a bulk request is made. A delete makes a request iff the bar is up and the user confirms; a status change iff the bar is up. After a request the bar is gone, and a status change never leaves it up. |
| ContentTable.ExportTarget | client/src/components/content/ContentTable.tsx:173-175 | The export covers the selected ids when there are any, and everything exactly when nothing is selected. |
| ContentTable.ActiveChips | client/src/components/content/ContentTable.tsx:326-388 | A chip is present for the search iff it is non-empty and for a dimension iff its select is off "all"; no chip appears twice. The chips are a subsequence of `AllChips`, so they appear in the bar's order: search, then status, type, source and language. |
| ContentTable.ChipBarShownIffFiltered | client/src/components/content/ContentTable.tsx:326 | The chip bar appears exactly when some input is off its default. |
| ContentTable.ClearChip | client/src/components/content/ContentTable.tsx:330-388 | A chip's × resets only its own input: the search to "" or its select to "all". |
| ContentTable.ClearChipRemovesOnlyThatChip | client/src/components/content/ContentTable.tsx:330-388 | After removing a chip, the bar holds exactly the other chips it held before. |
| ContentTable.ClearAll | client/src/components/content/ContentTable.tsx:390-399 | "Clear all" resets all five inputs, and then no chip is shown. |
| ContentTable.FilteredOutNote | client/src/components/content/ContentTable.tsx:413-419 | The "filtered out" note appears iff some row is hidden. It then counts the hidden rows, so it and the visible count add up to the total. |
| WebsiteTable.KeepMeansShown | client/src/components/websites/WebsiteTable.tsx:93-101 | The four AND-ed flags keep a website iff its name or URL contains the term (an empty term always matches) and group, platform and status each are "all" or equal. |
| WebsiteTable.Visible | client/src/components/websites/WebsiteTable.tsx:93-101 | The visible websites are an order-preserving subsequence, holding exactly those that pass the filters. |
| WebsiteTable.UnfilteredShowsEverything | client/src/components/websites/WebsiteTable.tsx:93-101 | Default filters show every website in order. |
| WebsiteTable.NarrowingNeverGrows | client/src/components/websites/WebsiteTable.tsx:96-98 | Setting a select away from "all" shows a subsequence of what was shown. |
| WebsiteTable.SelectAll | client/src/components/websites/WebsiteTable.tsx:103-109 | Checking selects exactly the visible ids in visible order; unchecking empties the selection. |
| WebsiteTable.SelectAllChecksHeader | client/src/components/websites/WebsiteTable.tsx:103-109 | After select-all the header is checked exactly when some website is visible. |
| WebsiteTable.EmptyMessageIffNoneShown | client/src/components/websites/WebsiteTable.tsx:343-345 | The "nothing matches" message appears iff no website passes the filters. |
| WebsiteTable.Bulk | client/src/components/websites/WebsiteTable.tsx:190-210 | A menu entry hands its action string and the unchanged selection to the parent, if a handler is given. The table never clears the selection. |
| WebsiteTable.BulkActionNamesDistinct | client/src/components/websites/WebsiteTable.tsx:190-210 | The six action strings are pairwise different. |
| WebsiteTable.BulkKeepsBar | client/src/components/websites/WebsiteTable.tsx:178-210 | The bulk bar, shown iff something is selected, stays as it was after a bulk action. The parent gets a non-empty id list exactly when the bar was shown. |
| WebsiteTable.PlatformOptions | client/src/components/websites/WebsiteTable.tsx:120 | The platform options are duplicate-free and are exactly the platforms present in the data. |
| WebsiteTable.GroupOptionsAsWritten | client/src/components/websites/WebsiteTable.tsx:119 | As written, every website contributes its own group entry, because a set of fresh objects never merges two of them. |
| WebsiteTable.GroupOptionsAsWrittenRepeat | client/src/components/websites/WebsiteTable.tsx:119 | Two websites of the same group give a repeated group option. |
| WebsiteTable.GroupOptions | client/src/components/websites/WebsiteTable.tsx:119 | The intended group options have one entry per group id present, with no repeated id. They are a subsequence of the as-written list. |
| WebsiteTable.GroupOptionsAgreeWhenGroupsDistinct | client/src/components/websites/WebsiteTable.tsx:119 | When no two websites share a group, the intended and the as-written options coincide. |
| WebsiteTable.PlatformBadge | client/src/components/websites/WebsiteTable.tsx:77-91 | The four known platforms get their fixed label and variant. Any other string that is not an object prototype key, such as "constructor", is its own label with the secondary variant. |
| WebsiteTable.KnownBadgesDistinct | client/src/components/websites/WebsiteTable.tsx:78-83 | The four known platforms carry four different labels. |
| WebsiteTable.StatusDot | client/src/components/websites/WebsiteTable.tsx:64-75 | Each declared health value has its own dot colour; exactly the undeclared values get grey. |
| AddWebsite.InitialForm | client/src/components/websites/AddWebsiteModal.tsx:59-85 | The initial form has a value for every text field and every switch. |
| AddWebsite.Open | client/src/components/websites/AddWebsiteModal.tsx:59-85 | The wizard opens on step 1 with an idle test. Name, URL, group and platform come from the edited website; otherwise they are empty, empty, empty and "wordpress". The tags are "seo" and "marketing". |
| AddWebsite.Update | client/src/components/websites/AddWebsiteModal.tsx:88-93 | Only the named field changes. Only that field's error is cleared, to "", and only if it had one. Step and test status stay. |
| AddWebsite.SyncEndpoint | client/src/components/websites/AddWebsiteModal.tsx:118-123 | For WordPress with a non-empty URL, the endpoint becomes the URL less one trailing slash, plus "/wp-json/". Every other field is kept. Otherwise nothing changes. |
| AddWebsite.SyncEndpointIdempotent | client/src/components/websites/AddWebsiteModal.tsx:118-123 | A second run of the endpoint effect changes nothing. |
| AddWebsite.Edit | client/src/components/websites/AddWebsiteModal.tsx:88-93 | A user edit updates the field. The endpoint effect runs only after an actual change of the URL or the platform. |
| AddWebsite.HttpUrlIsNotBlank | client/src/components/websites/AddWebsiteModal.tsx:104-108 | A URL the scheme pattern accepts is never blank, so the two URL checks are consistent. |
| AddWebsite.ValidateStep1 | client/src/components/websites/AddWebsiteModal.tsx:95-112 | Validation passes iff the name is non-blank with untrimmed length 2 to 200, and the URL is non-blank and matches `^https?://.+`. Only failing fields get an entry. A blank or one-character name gets the "at least 2 characters" message, a longer-than-200 one the "at most 200" message. A blank URL gets the "required" message, a non-blank one without the scheme the "must start with http:// or https://" message. |
| AddWebsite.Next | client/src/components/websites/AddWebsiteModal.tsx:148-158 | The wizard advances from 1 only when step 1 validates and from 2 only after a successful test, and never from 3. The step stays within 1 to 3. |
| AddWebsite.Back | client/src/components/websites/AddWebsiteModal.tsx:160-164 | The step goes back one, but never below 1. |
| AddWebsite.BackUndoesNext | client/src/components/websites/AddWebsiteModal.tsx:148-164 | Back after a successful Next returns to the same step with the same form. |
| AddWebsite.EnabledNextAdvancesFromStep2 | client/src/components/websites/AddWebsiteModal.tsx:744 | On step 2 an enabled "next" button always reaches step 3. |
| AddWebsite.TestOutcome | client/src/components/websites/AddWebsiteModal.tsx:132-145 | For WordPress the test fails on an empty username or password, or on admin/wrong, and succeeds otherwise. Every other platform succeeds. |
| AddWebsite.StartTest | client/src/components/websites/AddWebsiteModal.tsx:126 | Pressing "test" only moves the status to testing. |
| AddWebsite.FinishTest | client/src/components/websites/AddWebsiteModal.tsx:141-145 | The test ends with the verdict and changes nothing else. |
| AddWebsite.TestThenNext | client/src/components/websites/AddWebsiteModal.tsx:125-158 | On step 2, test-then-next reaches step 3 exactly when the verdict is a success. |
| AddWebsite.AddTag | client/src/components/websites/AddWebsiteModal.tsx:212-216 | An empty or present tag is ignored. Otherwise it is appended. The list never gains a duplicate. |
| AddWebsite.RemoveTag | client/src/components/websites/AddWebsiteModal.tsx:218-220 | Exactly index i is removed and the rest keep their order; an index outside the list removes nothing. |
| AddWebsite.RemoveTagKeepsNoDups | client/src/components/websites/AddWebsiteModal.tsx:218-220 | Removing a tag keeps the list duplicate-free. |
| AddWebsite.RemoveUndoesAdd | client/src/components/websites/AddWebsiteModal.tsx:212-220 | Adding a new tag and removing it by its index gives back the list. |
| AddWebsite.TypeTag | client/src/components/websites/AddWebsiteModal.tsx:655 | Enter in the tag input adds the trimmed text and leaves every text field alone. |
| AddWebsite.SavePayload | client/src/components/websites/AddWebsiteModal.tsx:172-202 | The saved site is always active and healthy. Both SEO switches follow auto_seo. The "success" event is subscribed iff its notification is on. |
| AddWebsite.DefaultPayload | client/src/components/websites/AddWebsiteModal.tsx:59-85 | An untouched fresh wizard saves WordPress with app-password auth, publishing directly, tagged "seo" and "marketing". |
| SimpleWebsite.ConfigEndpointKinds | client/src/components/websites/SimpleWebsiteModal.tsx:39-64 | WordPress, Joomla and Drupal configure site paths; Blogger and Medium absolute https URLs; the custom API nothing. |
| SimpleWebsite.Open | client/src/components/websites/SimpleWebsiteModal.tsx:73-81 | The form opens with the edited website's name, URL, group, endpoint, username and password ("" where missing), but the platform is always WordPress and the test idle. Without a website every field is empty. |
| SimpleWebsite.UrlChange | client/src/components/websites/SimpleWebsiteModal.tsx:87-100 | For a non-empty URL and a non-custom platform, the endpoint is derived: stripped URL plus a path, or an absolute endpoint as is. Otherwise only the URL changes. |
| SimpleWebsite.PlatformChange | client/src/components/websites/SimpleWebsiteModal.tsx:102-118 | Custom clears the endpoint. A URL and a path give their concatenation; otherwise the configured endpoint is used. The test resets to idle. |
| SimpleWebsite.UrlAndPlatformCommute | client/src/components/websites/SimpleWebsiteModal.tsx:87-118 | For a non-empty URL, typing the URL and choosing a platform give the same state in either order. |
| SimpleWebsite.SetField | client/src/components/websites/SimpleWebsiteModal.tsx:210-346 | The name, group, username and password inputs write their own field and nothing else. The endpoint input does so only on the custom platform; elsewhere it is disabled and typing changes nothing. |
| SimpleWebsite.TestOutcome | client/src/components/websites/SimpleWebsiteModal.tsx:127-142 | The test succeeds iff username, password and endpoint are all non-empty; otherwise it fails with the credentials message. |
| SimpleWebsite.FinishTest | client/src/components/websites/SimpleWebsiteModal.tsx:120-143 | The test ends with its verdict and leaves the form alone. |
| SimpleWebsite.CanSaveAfterPassingTest | client/src/components/websites/SimpleWebsiteModal.tsx:182-184 | A complete form always passes the test. With a name and URL, a tested form can be saved iff it is complete. |
| SimpleWebsite.PlatformChangeBlocksSave | client/src/components/websites/SimpleWebsiteModal.tsx:117 | Changing the platform always disables saving until the next test. |
| SimpleWebsite.SavedPlatform | client/src/components/websites/SimpleWebsiteModal.tsx:149 | Medium and Drupal are saved as custom; every platform that is also a website platform keeps its own. |
| SimpleWebsite.Save | client/src/components/websites/SimpleWebsiteModal.tsx:145-180 | The saved record carries the mapped platform and the group's name from the group table ("" if unknown). It uses basic auth with the typed credentials, draft posts without tags, and both SEO switches on. |
| WordPressModal.Open | client/src/components/websites/WordPressModal.tsx:36-43 | The form opens with the edited website's name, URL, group, endpoint, username and password, each "" when missing, or with an empty form; the test is idle. |
| WordPressModal.FallbackEndpoint | client/src/components/websites/WordPressModal.tsx:58 | The fallback endpoint puts exactly one slash between the URL and "wp-json/". |
| WordPressModal.UrlChange | client/src/components/websites/WordPressModal.tsx:49-62 | A non-empty URL always gives an endpoint ending in "/wp-json/": the origin's, or the fallback's when parsing fails. An empty URL leaves the endpoint alone. |
| WordPressModal.SetField | client/src/components/websites/WordPressModal.tsx:64-66 | An input change writes its one field and nothing else. |
| WordPressModal.StartTest | client/src/components/websites/WordPressModal.tsx:68-72 | With a credential or the endpoint missing nothing happens; otherwise the status becomes testing. Either way the test button (line 283) is disabled afterwards. |
| WordPressModal.FinishTest | client/src/components/websites/WordPressModal.tsx:74-86 | The simulated call ends in success and leaves the form unchanged. |
| WordPressModal.TestConnection | client/src/components/websites/WordPressModal.tsx:68-93 | A whole run, from the press to the completion: with a credential or the endpoint missing nothing happens; otherwise the test ends in success. |
| WordPressModal.TestCanBeRepeated | client/src/components/websites/WordPressModal.tsx:283 | While a test runs the button is disabled; after it ends the button is enabled again for a ready form, and a new press starts another test. |
| WordPressModal.SubmitWithoutEndpoint | client/src/components/websites/WordPressModal.tsx:144 | The endpoint is not part of the submit condition: clearing it after a passed test still allows submitting. |
| WordPressModal.TestEnablesSubmit | client/src/components/websites/WordPressModal.tsx:68-93 | A filled-in form that is tested can be submitted. |
| WordPressModal.Reset | client/src/components/websites/WordPressModal.tsx:132-142 | All six fields become empty and the status idle, so neither testing nor submitting is possible. |
| WordPressModal.Submit | client/src/components/websites/WordPressModal.tsx:95-130 | The payload is always WordPress with app-password auth and draft posts, and carries the typed credentials and endpoint. |
| Connector.GroupName | client/src/components/websites/SimpleWebsiteModal.tsx:151 | The name of the first group with the id, or "" when no group has it. |
| Connector.GroupNamesOfTable | client/src/components/websites/WordPressModal.tsx:29-33 | The three built-in group ids resolve to their names; every other id to "". |
| Connector.StripTrailingSlash | client/src/components/websites/AddWebsiteModal.tsx:120 | At most one trailing slash is removed, and putting it back gives the URL. |
| Connector.StripTrailingSlashOnce | client/src/components/websites/SimpleWebsiteModal.tsx:93 | A URL ending in two slashes keeps one. |
| ContentForm.KeepWordsAndSpaces | client/src/components/content/ContentForm.tsx:65 | Exactly the word characters and the space character survive. |
| ContentForm.Hyphenate | client/src/components/content/ContentForm.tsx:66 | No space remains, and every character is a hyphen or comes from the input. |
| ContentForm.HyphenateCollapsesRuns | client/src/components/content/ContentForm.tsx:66 | Where the hyphens go. The result equals a character-by-character reading in which the space opening a run becomes `-`, the rest of the run vanishes, and every other character stays in place. So "ab " gives "ab-". |
| ContentForm.HyphenateNoDoubleHyphen | client/src/components/content/ContentForm.tsx:66 | Without hyphens in the input, the output never has two hyphens in a row. |
| ContentForm.HyphenateKeepsText | client/src/components/content/ContentForm.tsx:66 | With the hyphens deleted, the output equals the input with its spaces deleted. |
| ContentForm.GenerateSlug | client/src/components/content/ContentForm.tsx:62-67 | The slug has no space. It holds only [a-z0-9_-], never two hyphens in a row, and is no longer than the title. Without its hyphens it is the title's kept characters without spaces. It is exactly the lower-cased, filtered title with each space run replaced in place by one hyphen. |
| ContentForm.SlugDropsHyphens | client/src/components/content/ContentForm.tsx:65-66 | Hyphens typed in a title are stripped, so slugging a slug again changes it. |
| ContentForm.WordCount | client/src/components/content/ContentForm.tsx:57 | The editor's word count is at least 1, and exactly 1 for blank content. |
| ContentForm.WordCountCountsGaps | client/src/components/content/ContentForm.tsx:57 | The editor's count is one more than the number of whitespace runs inside the trimmed body. |
| Text.SplitOnSpacesJoin | client/src/components/content/ContentForm.tsx:57 | The pieces of `split(/\s+/)`, joined with single spaces, give the text with every whitespace run collapsed to one space. No piece holds whitespace, so this fixes every piece. |
| Text.SplitOnSpacesCount | client/src/components/content/ContentForm.tsx:57 | `split(/\s+/)` gives one more piece than the text has whitespace runs. |
| ContentForm.ReadingTime | client/src/components/content/ContentForm.tsx:52 | The reading time is the least number of whole minutes covering the words at 200 a minute. |
| ContentForm.Open | client/src/components/content/ContentForm.tsx:34-52 | The editor opens with the stored word count (0 if absent) and the reading time that count gives. |
| ContentForm.ContentChange | client/src/components/content/ContentForm.tsx:55-60 | An edit of the body recounts the words and keeps the reading time consistent with them. |
| ContentForm.TitleChange | client/src/components/content/ContentForm.tsx:69-75 | A title edit sets the slug to the title's slug and keeps the counts. |
| ContentForm.SlugChange | client/src/components/content/ContentForm.tsx:34-49 | Typing in the slug field changes the slug only. |
| ContentForm.TitleEditOverwritesSlug | client/src/components/content/ContentForm.tsx:69-75 | A later title edit discards any slug typed by hand. |
| ContentRewriter.PunctuateCount | client/src/components/content/ContentRewriter.tsx:45-47 | The sentence step keeps one sentence for each non-blank piece and drops the blank ones. |
| ContentRewriter.PunctuateSentences | client/src/components/content/ContentRewriter.tsx:45-47 | Every kept piece is a sentence: trimmed text that is not empty, followed by a single `.`. |
| ContentRewriter.PunctuateFromPieces | client/src/components/content/ContentRewriter.tsx:45-47 | When the pieces hold no `.`, no sentence has a `.` before its last character. |
| ContentRewriter.Sentences | client/src/components/content/ContentRewriter.tsx:45-47 | The k-th sentence is the k-th non-blank `.`-separated segment, trimmed, followed by `.`. So there is one sentence per non-blank segment, and each ends with its only `.` and has no surrounding whitespace. |
| ContentRewriter.PunctuateIsFilterThenMap | client/src/components/content/ContentRewriter.tsx:45-47 | The fused map-then-filter chain equals filtering the non-blank pieces first and then trimming each and adding `.`. |
| ContentRewriter.Normalize | client/src/components/content/ContentRewriter.tsx:45-47 | The normalised body of a blank text is empty. |
| ContentRewriter.NormalizeCountsStops | client/src/components/content/ContentRewriter.tsx:45-47 | The normalised body holds exactly one full stop per non-blank "."-separated segment of the input. |
| ContentRewriter.Rewrite | client/src/components/content/ContentRewriter.tsx:36-58 | A blank original changes nothing. Otherwise one entry goes on top of the history, recording the original and the current options. The output is the introduction, the normalised body and the closing. |
| ContentRewriter.NewestFirst | client/src/components/content/ContentRewriter.tsx:54 | After two rewrites the later one is first and the earlier one second, above the older history. |
| ContentRewriter.WordCount | client/src/components/content/ContentRewriter.tsx:121 | The counter is 0 for blank text. Otherwise it is the number of whitespace-separated tokens, at least 1. |
| ContentRewriter.WordCountCountsWords | client/src/components/content/ContentRewriter.tsx:121 | For non-blank text the count is one more than the number of whitespace runs inside the trimmed text. The counted words, joined by single spaces, spell the trimmed text with each run collapsed. |
| ContentRewriter.WordCountsAgree | client/src/components/content/ContentRewriter.tsx:213 | The editor's count and the rewriter's count agree except on blank text, where they say 1 and 0. |
| ExcelImport.CountsPartition | client/src/components/content/ExcelImport.tsx:114-118 | Every row is valid or invalid, so the two counts add up to the number of rows. |
| ExcelImport.Start | client/src/components/content/ExcelImport.tsx:36-44 | The dialog starts on the upload screen with no file, no rows and zero counts. |
| ExcelImport.SelectFile | client/src/components/content/ExcelImport.tsx:93-102 | An accepted file replaces the current one. A missing or rejected file leaves everything as it was. |
| ExcelImport.CsvOfferedButRejected | client/src/components/content/ExcelImport.tsx:225 | A CSV file, which the picker offers, is rejected when its type does not mention "sheet". |
| ExcelImport.Upload | client/src/components/content/ExcelImport.tsx:104-125 | Without a file nothing happens. A parse failure goes back to the upload screen. A successful read shows the preview with counts matching the rows. |
| ExcelImport.SampleCounts | client/src/components/content/ExcelImport.tsx:50-87 | The stand-in parser's rows count three valid and one invalid. |
| ExcelImport.CanImportIffSomeValid | client/src/components/content/ExcelImport.tsx:311 | After a read, the import button is enabled iff some row is valid. |
| ExcelImport.TagList | client/src/components/content/ExcelImport.tsx:148 | The tags are the comma-separated pieces of the cell, trimmed: one per piece, none containing a comma or surrounding whitespace. |
| ExcelImport.Records | client/src/components/content/ExcelImport.tsx:140-153 | Each record is a draft file-sourced article with its row's title, content and language. Its categories are [category], its tags the trimmed pieces, and its word count the content's length. The id carries the clock reading taken for that row and the row's index, so rows of one import may have different readings. |
| ExcelImport.BeginImport | client/src/components/content/ExcelImport.tsx:127-129 | The import moves to the importing screen with an empty progress bar and keeps the rows and counts. |
| ExcelImport.Import | client/src/components/content/ExcelImport.tsx:127-157 | The import ends on the completion screen and emits the conversion of the valid rows. Progress ends at 100, or at NaN with no valid row. |
| ExcelImport.ImportEmitsTheValidRows | client/src/components/content/ExcelImport.tsx:131-155 | The number of records emitted equals the valid count. Every record comes from a valid row, the ids are distinct, and an enabled import ends at 100. |
| ExcelImport.ImportKeepsOrder | client/src/components/content/ExcelImport.tsx:131-140 | The emitted titles are a subsequence of the sheet's titles, in sheet order. |
| ExcelImport.Reset | client/src/components/content/ExcelImport.tsx:174-184 | Resetting returns to the upload screen with no file, no rows, zero progress and zero counts. |
| ExcelImport.OperationsKeepConsistent | client/src/components/content/ExcelImport.tsx:93-184 | Selecting, reading, importing and resetting all keep the preview counts equal to the counts of the rows held. |
| ExcelImport.SuccessfulRun | client/src/components/content/ExcelImport.tsx:104-157 | Pick, read and import go through upload, preview, importing and complete, and emit the valid rows read. |
| ExcelImport.DisplayTitle | client/src/components/content/ExcelImport.tsx:271-275 | A row is headed by its title, or by a non-empty placeholder when the title is empty. |
| Categories.Start | client/src/components/content/CategoriesManagement.tsx:37-64 | The manager starts with no edit open and distinct category ids. |
| Categories.NameChange | client/src/components/content/CategoriesManagement.tsx:66-71 | Typing a new category name changes only that input. |
| Categories.BeginEdit | client/src/components/content/CategoriesManagement.tsx:73-76 | The edit button opens that row's rename, starting from its current name. |
| Categories.TypeEditingName | client/src/components/content/CategoriesManagement.tsx:119 | Typing in the rename input changes only the name being typed. |
| Categories.Rename | client/src/components/content/CategoriesManagement.tsx:79-85 | Only the entries with the id get the new name. Length, order, ids, flags and post counts are unchanged. |
| Categories.RenameMissingId | client/src/components/content/CategoriesManagement.tsx:79-85 | Renaming an id that is not in the list changes nothing. |
| Categories.RenameTwice | client/src/components/content/CategoriesManagement.tsx:79-85 | A second rename of one id replaces the first. |
| Categories.SaveEdit | client/src/components/content/CategoriesManagement.tsx:78-88 | Saving applies the rename with the typed name, then closes the edit. |
| Categories.CancelEdit | client/src/components/content/CategoriesManagement.tsx:90-93 | Cancelling closes the edit and leaves the list unchanged. |
| Categories.SaveUntouchedEditChangesNothing | client/src/components/content/CategoriesManagement.tsx:73-88 | With unique ids, opening an edit and saving it without typing leaves the list as it was. |
| Categories.RemoveId | client/src/components/content/CategoriesManagement.tsx:103 | Exactly the entries with the id are removed, and the rest keep their order. |
| Categories.Delete | client/src/components/content/CategoriesManagement.tsx:95-104 | A category without posts is deleted without asking; one with posts only when confirmed. Otherwise nothing changes. |
| Categories.DeleteWithoutPostsIgnoresConfirmation | client/src/components/content/CategoriesManagement.tsx:95-104 | The confirmation answer only matters for a category with posts. |
| Categories.DeleteKeepsIdsDistinct | client/src/components/content/CategoriesManagement.tsx:103 | Deleting keeps the ids distinct and never lengthens the list. |
| Categories.Rows | client/src/components/content/CategoriesManagement.tsx:106-150 | Row numbers are index + 1. A row is in edit mode iff its id is the one being edited, and then its edit and delete buttons are hidden. |
| Categories.AtMostOneRowEditing | client/src/components/content/CategoriesManagement.tsx:106-107 | With unique ids at most one row is in edit mode, and none after a cancel. |
| AutoSources.StatusIconOf | client/src/components/content/AutoSources.tsx:102-110 | An inactive feed gets the grey cross, an active one with errors the yellow alert, and any other the green check. |
| AutoSources.StatusLabel | client/src/components/content/AutoSources.tsx:112-116 | The label follows the same precedence: "Không hoạt động", then "Có lỗi", then "Hoạt động". |
| AutoSources.IconAndLabelAgree | client/src/components/content/AutoSources.tsx:102-116 | Icon and label both determine the feed's state, so they always agree. |
| AutoSources.InactiveHidesErrors | client/src/components/content/AutoSources.tsx:113 | An inactive feed reads as switched off even with errors. |
| AutoSources.TypeIconOf | client/src/components/content/AutoSources.tsx:118-129 | "rss" gets the feed icon and "api" the download icon; every other type falls back to the globe. |
| AutoSources.ErrorBadgeVariant | client/src/components/content/AutoSources.tsx:200 | The error badge is destructive iff the error count is positive. |
| AutoSources.ErrorBadgeMatchesStatus | client/src/components/content/AutoSources.tsx:112-116 | For an active feed the badge is destructive exactly when the status reads failing. |
| AutoSources.FrequencyLabelsDistinct | client/src/components/content/AutoSources.tsx:131-135 | The three frequency labels tell the frequencies apart. |
| PublishingQueue.StatusFromName | client/src/components/PublishingQueue.tsx:11 | The four declared status names are recognised, and nothing else. |
| PublishingQueue.Board | client/src/components/PublishingQueue.tsx:26-35 | The board has four columns in the order pending, processing, success, failed. Each holds exactly the items of its status, in input order. |
| PublishingQueue.ColumnsDisjoint | client/src/components/PublishingQueue.tsx:26-31 | No item is in two columns. |
| PublishingQueue.DeclaredItemHasColumn | client/src/components/PublishingQueue.tsx:26-31 | Every item with a declared status is in some column. |
| PublishingQueue.ColumnSizes | client/src/components/PublishingQueue.tsx:26-31 | The column sizes add up to the number of items with a declared status. |
| PublishingQueue.ColumnsCoverAll | client/src/components/PublishingQueue.tsx:11 | When every status is declared, the columns hold all items. |
| PublishingQueue.ColumnBody | client/src/components/PublishingQueue.tsx:50-51 | A column shows the placeholder iff it is empty, and otherwise its items. |
| PublishingQueue.EmptyQueueShowsPlaceholders | client/src/components/PublishingQueue.tsx:50-51 | An empty queue shows a placeholder in every column. |
| ScheduleCalendar.EventsForDay | client/src/components/ScheduleCalendar.tsx:27-29 | The events for a day are exactly those dated on it, in input order. |
| ScheduleCalendar.DayCell | client/src/components/ScheduleCalendar.tsx:59-83 | A day shows the first of its events, at most two. When it has more than two, it shows exactly the first two and the overflow label appears; otherwise no label. Only day 15 is highlighted. |
| ScheduleCalendar.ShownPlusOverflow | client/src/components/ScheduleCalendar.tsx:73-83 | Shown events plus the `+n` count equal the day's events; with two or fewer, all are shown. |
| ScheduleCalendar.Grid | client/src/components/ScheduleCalendar.tsx:22-25 | The grid has four blank cells, then the days 1 to 31 in order. |
| ScheduleCalendar.EachDayOnce | client/src/components/ScheduleCalendar.tsx:24 | Every day from 1 to 31 has exactly one cell. |
| ScheduleCalendar.ShownOnlyOnItsDay | client/src/components/ScheduleCalendar.tsx:59-73 | A shown event is one of the events, sits in its own day's cell, and is dated 1 to 31. |
| ScheduleCalendar.OutOfMonthNeverShown | client/src/components/ScheduleCalendar.tsx:24 | An event dated outside 1 to 31 appears in no cell. |
| HealthMonitoring.StatusColor | client/src/components/websites/HealthMonitoring.tsx:33-44 | Each declared health value has its own colour; exactly the undeclared values get grey. |
| HealthMonitoring.StatusIcon | client/src/components/websites/HealthMonitoring.tsx:46-57 | Each declared health value has its own dot; exactly the undeclared values get ⚫. |
| HealthMonitoring.BadgeVariant | client/src/components/websites/HealthMonitoring.tsx:171-172 | Only "healthy" and "warning" have their own variants; every other value is destructive. |
| HealthMonitoring.StatusLabel | client/src/components/websites/HealthMonitoring.tsx:175-176 | The label is "Healthy", "Warning", or "Critical" for anything else. |
| HealthMonitoring.DeclaredHealthPresentationAgrees | client/src/components/websites/HealthMonitoring.tsx:33-57 | On declared values, icon, colour, label and badge each tell the value apart. |
| HealthMonitoring.UndeclaredHealthReadsCriticalButGrey | client/src/components/websites/HealthMonitoring.tsx:171-176 | An undeclared value is labelled "Critical" but has a grey colour and icon. |
| HealthMonitoring.ResponseClass | client/src/components/websites/HealthMonitoring.tsx:188-191 | Below 500 is green, 500 to 999 yellow, 1000 and above red. |
| HealthMonitoring.ResponseTextOf | client/src/components/websites/HealthMonitoring.tsx:192 | A response time of 0 reads "Timeout"; any other is shown as its milliseconds. |
| HealthMonitoring.TimeoutShownGreen | client/src/components/websites/HealthMonitoring.tsx:188-192 | A timed-out site is shown in the fast colour. |
| HealthMonitoring.ResponseClassMonotone | client/src/components/websites/HealthMonitoring.tsx:188-191 | The response colour never improves as the time grows. |
| HealthMonitoring.ErrorSummary | client/src/components/websites/HealthMonitoring.tsx:217 | The summary lists exactly the websites with failed posts, in order. |
| HealthMonitoring.NoErrorsIffNoFailures | client/src/components/websites/HealthMonitoring.tsx:234 | The "no errors" panel appears iff no website has failed posts. |
| WebsiteGrid.CardColour | client/src/components/websites/WebsiteGrid.tsx:36-47 | Each declared health value has its own card colour; exactly the undeclared values get grey. |
| WebsiteGrid.StatusIcon | client/src/components/websites/WebsiteGrid.tsx:49-60 | Exactly the undeclared values get ⚫, and exactly "healthy" gets 🟢. |
| WebsiteGrid.IconMatchesMonitoring | client/src/components/websites/WebsiteGrid.tsx:49-60 | The grid and the monitoring page show the same icon for every health value. |
| WebsiteGrid.FallbacksAgree | client/src/components/websites/WebsiteGrid.tsx:36-60 | The card colour falls back to grey exactly when the icon falls back to ⚫. |
| WebsiteGrid.Badge | client/src/components/websites/WebsiteGrid.tsx:62-76 | The four known platforms get their fixed badge. Any other string that is not an object prototype key, such as "constructor", is labelled "🔧 " plus the string, in grey. |
| WebsiteGrid.KnownBadgesDistinct | client/src/components/websites/WebsiteGrid.tsx:64-67 | The four known badges have four different labels. |
| WebsiteGrid.FallbackCanMimicKnownLabel | client/src/components/websites/WebsiteGrid.tsx:64-72 | The platform string "WordPress" gets the same label as "wordpress", but in grey. |
| WebsiteGrid.DisplayUrl | client/src/components/websites/WebsiteGrid.tsx:93 | As written: the first "https://" anywhere is removed, then the first "http://" anywhere in the rest. |
| WebsiteGrid.StripScheme | client/src/components/websites/WebsiteGrid.tsx:93 | As intended: a leading "https://" or "http://" is removed, and the scheme plus the result is the URL. |
| WebsiteGrid.StripSchemeKeepsRest | client/src/components/websites/WebsiteGrid.tsx:93 | The intended display keeps everything after the scheme, a suffix of the URL. |
| WebsiteGrid.DisplayUrlAltersQuery | client/src/components/websites/WebsiteGrid.tsx:93 | As written, when a "https://" URL holds a second "http://" with no `h` between the two, the second "http://" is removed as well. The intended display keeps it. |
| WebsiteGrid.DisplayUrlAltersQueryExample | client/src/components/websites/WebsiteGrid.tsx:93 | "https://a?u=http://b" is shown as "a?u=b". |
| WebsiteGrid.ErrorLine | client/src/components/websites/WebsiteGrid.tsx:166 | The error count appears iff failed posts are positive, and then shows that count. |
| WebsiteGrid.ErrorLineMatchesSummary | client/src/components/websites/WebsiteGrid.tsx:166 | A card shows an error line exactly for the sites the monitoring summary lists. |
| Templates.Visible | client/src/components/content/Templates.tsx:94-101 | The shown templates are an order-preserving subsequence. A template is kept iff its name or description matches the search, and the type and category selects are each "all" or equal. |
| Templates.UnfilteredShowsEverything | client/src/components/content/Templates.tsx:94-101 | An empty search with both selects on "all" shows every template in order. |
| Templates.NarrowingNeverGrows | client/src/components/content/Templates.tsx:97-98 | Setting the type or category select away from "all" shows a subsequence of what was shown. |
| Templates.UnknownTypeHidesAll | client/src/components/content/Templates.tsx:97 | A type value that names no template type hides every template. |
| ImagesLibrary.Visible | client/src/components/content/ImagesLibrary.tsx:70-73 | The shown images are an order-preserving subsequence, holding exactly those whose file name or alt text contains the term. |
| ImagesLibrary.EmptyTermShowsEverything | client/src/components/content/ImagesLibrary.tsx:70-73 | An empty term shows every image in order. |
| ImagesLibrary.UsageOf | client/src/components/content/ImagesLibrary.tsx:143 | An image is "unused" iff its use count is not positive, and otherwise shows its count. |
| ImagesLibrary.Render | client/src/components/content/ImagesLibrary.tsx:116-170 | Both views render one entry per filtered image, in order, each with its usage. Cards appear exactly in grid view. |
| ImagesLibrary.ViewModeDoesNotFilter | client/src/components/content/ImagesLibrary.tsx:116-157 | Grid and list views show the same filtered images in the same order. |
| WebsiteTypes.PlatformFromName | client/src/types/website.ts:8 | Exactly the four platform names are recognised, each as its own platform. |
| WebsiteTypes.SiteStatusFromName | client/src/types/website.ts:10 | Exactly the three status names are recognised. |
| WebsiteTypes.HealthFromName | client/src/types/website.ts:11 | Exactly the three health names are recognised. |
| WebsiteTypes.AuthTypeFromName | client/src/types/website.ts:26 | Exactly the three authentication names are recognised. |
| WebsiteTypes.PostStatusFromName | client/src/types/website.ts:36 | Exactly the three post-status names are recognised. |

## Left out

- Rendering, styling, dialogs and icon components are not modelled. Only the state and the values derived from it are.
- The `setTimeout`/`async` delays and the `isSaving`/`isRewriting` flags are collapsed. Each handler goes straight to its final state. The test status's intermediate "testing" value is kept in all three website forms, where the buttons read it: `AddWebsite.StartTest`, `SimpleWebsite.StartTest` and `WordPressModal.StartTest`.
- `window.confirm` is a boolean parameter, and `alert` calls have no effect on state.
- The origin of `new URL(url)` is a parameter, since URL parsing is a foreign call.
- `toLowerCase` is ASCII case folding only. Unicode case mappings (including U+0130 and U+212A) are not modelled.
- String lengths count code points, not UTF-16 units. So the 2 to 200 name bounds, the slug length and the imported word count differ from JavaScript on astral characters.
- Floating-point values are not modelled: the health percentages and `toFixed`, fractional uptimes, and the statistics cards' success rates.
- The spreadsheet import's progress ramp is left out. Progress is only observed where a handler ends.
- `Math.random` SEO scores and `Date` creation dates are left out. `Date.now` readings become parameters: one integer per rewrite, and a clock function giving one reading per imported row. The textual form of the import ids is not modelled.
- The spreadsheet parser is a stand-in that returns fixed rows. Its outcome is a parameter, and the fixed rows are the constant `ExcelImport.SampleRows`.
- The template download builds a Blob and clicks an anchor. It is browser I/O and is not modelled.
- The content form's other fields are plain state with no logic. These are excerpt, keyword, meta fields, categories, tags, language, type, source URL, status and publish date.
- The "add website" wizard's own group list is not modelled. It has no behaviour.
- A platform or select value that names an object prototype key, such as "constructor", "toString" or "__proto__", is not modelled. For such a value, the platform lookups in `WebsiteGrid.tsx:70`, `WebsiteTable.tsx:85` and `SimpleWebsiteModal.tsx:91,105,186` return a built-in rather than an entry or the fallback.
- WebsiteTable.PlatformBadge: gives the secondary fallback for every unknown string. The component returns the built-in instead for an object prototype key.
- WebsiteGrid.Badge: gives the grey "🔧 " fallback for every unknown string. The component returns the built-in instead for an object prototype key.
- AddWebsite.Update: requires that the value has the kind the field holds. The component's untyped setter would also store a value of the wrong kind.
- The category manager's "add" button has no handler, so adding a category is not an operation. `Categories.NameChange` only stores the typed name.
- WebsiteGrid.StatusIcon: its own contract names only the ⚫ and 🟢 cases. The full mapping is stated by `WebsiteGrid.IconMatchesMonitoring`, which equates it with `HealthMonitoring.StatusIcon`.
- ContentRewriter.Normalize: its own contract covers only blank text. The body's sentence structure is stated by `ContentRewriter.Sentences`, whose sentences it joins with single spaces, and its full stops are counted by `ContentRewriter.NormalizeCountsStops`.
- ContentForm.WordCount: its own contract states only the count's bounds. The count itself is characterised by `ContentForm.WordCountCountsGaps`, and related to the rewriter's counter by `ContentRewriter.WordCountsAgree`.
- The feed create/edit forms in the automatic sources view and the schedule's month navigation are not modelled. They hold state but no logic.
- The per-row view, edit and delete handlers of the content table are not modelled. They only log or call back.
- The range comments on `health_score`, `uptime` and `response_time` are recorded as `WebsiteTypes.InDocumentedRanges`. The type does not enforce them.

## Findings

| source | as written | input that shows it | evidently intended | confidence | as-written member | corrected member |
|---|---|---|---|---|---|---|
| client/src/components/content/ContentTable.tsx:428 | the header checkbox compares the selection's length with the visible list's length (the same in WebsiteTable.tsx:223) | rows a and b selected, then a filter that shows c and d: header checked with no visible row selected | checked iff every visible row is selected | not executed | Selection.HeaderCheckedWithNothingVisibleSelected | Selection.HeaderCheckedWhenConsistent |
| client/src/components/websites/WebsiteTable.tsx:119 | group options are deduplicated through a Set of freshly built objects, which never compare equal | two websites in group "1": the group select lists group "1" twice | one option per group id | not executed | WebsiteTable.GroupOptionsAsWrittenRepeat | WebsiteTable.GroupOptions |
| client/src/components/websites/WebsiteGrid.tsx:93 | the displayed URL removes the first "https://" and then the first "http://" anywhere in the text | "https://a?u=http://b" is shown as "a?u=b" | only a leading scheme is removed: "a?u=http://b" | not executed | WebsiteGrid.DisplayUrlAltersQuery | WebsiteGrid.StripScheme |

=== FILE: add_website.dfy ===
/** The three-step "add website" wizard (`components/websites/AddWebsiteModal.tsx`):
    basic information, platform connection, defaults. The form is a record of
    text fields, boolean switches and the default tag list; the wizard state
    adds the current step, the per-field error messages and the connection
    test's status. */
module AddWebsite {
  import opened Wrappers
  import opened Seqs
  import opened Text
  import opened WebsiteTypes
  import Connector

  datatype TextField =
    | Name | Url | GroupId | Description | PlatformId | ApiEndpoint | AuthTypeId
    | Username | Password | ApiKey | BlogId | CustomHeaders | DefaultCategory
    | DefaultAuthor | PostStatusId | Timezone

  datatype FlagField =
    | AutoSeo | AutoImageOptimize | AutoExcerpt | AddWatermark
    | NotifySuccess | NotifyError | WebhookNotification

  /** A form field: one of the text fields, one of the switches, or the tag
      list. */
  datatype Field = TextOf(text: TextField) | FlagOf(flag: FlagField) | DefaultTags

  datatype Value = TextValue(s: string) | FlagValue(b: bool) | TagsValue(tags: seq<string>)

  /** A value of the kind the field holds. */
  predicate Fits(f: Field, v: Value) {
    match f
    case TextOf(_) => v.TextValue?
    case FlagOf(_) => v.FlagValue?
    case DefaultTags => v.TagsValue?
  }

  datatype RawForm = RawForm(texts: map<TextField, string>, flags: map<FlagField, bool>, tags: seq<string>)

  /** Every field of the form has a value. */
  predicate Complete(f: RawForm) {
    (forall t: TextField :: t in f.texts) && (forall b: FlagField :: b in f.flags)
  }

  /** The form's initial values when no website is being edited. */
  function InitialForm(): (f: RawForm)
    ensures Complete(f)
  {
    var texts := map[Name := "", Url := "", GroupId := "", Description := "", PlatformId := "wordpress",
        ApiEndpoint := "", AuthTypeId := "app_password", Username := "", Password := "",
        ApiKey := "", BlogId := "", CustomHeaders := "{\n  \"Content-Type\": \"application/json\"\n}",
        DefaultCategory := "", DefaultAuthor := "", PostStatusId := "publish",
        Timezone := Connector.DefaultTimezone];
    var flags := map[AutoSeo := true, AutoImageOptimize := true, AutoExcerpt := false, AddWatermark := false,
        NotifySuccess := true, NotifyError := true, WebhookNotification := false];
    EveryFieldPresent(texts, flags);
    RawForm(texts, flags, ["seo", "marketing"])
  }

  lemma EveryFieldPresent(texts: map<TextField, string>, flags: map<FlagField, bool>)
    requires Name in texts && Url in texts && GroupId in texts && Description in texts
    requires PlatformId in texts && ApiEndpoint in texts && AuthTypeId in texts && Username in texts
    requires Password in texts && ApiKey in texts && BlogId in texts && CustomHeaders in texts
    requires DefaultCategory in texts && DefaultAuthor in texts && PostStatusId in texts && Timezone in texts
    requires AutoSeo in flags && AutoImageOptimize in flags && AutoExcerpt in flags && AddWatermark in flags
    requires NotifySuccess in flags && NotifyError in flags && WebhookNotification in flags
    ensures forall t: TextField :: t in texts
    ensures forall b: FlagField :: b in flags
  {
    forall t: TextField ensures t in texts {
      match t
      case Name => case Url => case GroupId => case Description => case PlatformId => case ApiEndpoint =>
      case AuthTypeId => case Username => case Password => case ApiKey => case BlogId => case CustomHeaders =>
      case DefaultCategory => case DefaultAuthor => case PostStatusId => case Timezone =>
    }
    forall b: FlagField ensures b in flags {
      match b
      case AutoSeo => case AutoImageOptimize => case AutoExcerpt => case AddWatermark =>
      case NotifySuccess => case NotifyError => case WebhookNotification =>
    }
  }

  type Form = f: RawForm | Complete(f) witness InitialForm()

  function Entry(form: Form, t: TextField): string {
    form.texts[t]
  }

  function Flag(form: Form, b: FlagField): bool {
    form.flags[b]
  }

  function Get(form: Form, f: Field): (v: Value)
    ensures Fits(f, v)
  {
    match f
    case TextOf(t) => TextValue(form.texts[t])
    case FlagOf(b) => FlagValue(form.flags[b])
    case DefaultTags => TagsValue(form.tags)
  }

  function Set(form: Form, f: Field, v: Value): (r: Form)
    requires Fits(f, v)
    ensures Get(r, f) == v
    ensures forall g :: g != f ==> Get(r, g) == Get(form, g)
  {
    match f
    case TextOf(t) => form.(texts := form.texts[t := v.s])
    case FlagOf(b) => form.(flags := form.flags[b := v.b])
    case DefaultTags => form.(tags := v.tags)
  }

  /** The wizard's state. `errors` maps a field to its message; a field
      whose message was cleared keeps an entry holding "". */
  datatype Wizard = Wizard(step: int, form: Form, errors: map<Field, string>, connection: Connection)

  /** The step counter stays on one of the three pages. */
  predicate StepInRange(s: Wizard) {
    1 <= s.step <= 3
  }

  /** Opening the wizard, optionally on an existing website: name, URL,
      group and platform come from it when they are non-empty. The endpoint
      effect runs once on mount. */
  function Open(website: Option<Website>): (s: Wizard)
    ensures StepInRange(s) && s.step == 1
    ensures s.connection == Idle
    ensures website.None? ==> Entry(s.form, Name) == "" && Entry(s.form, Url) == "" && Entry(s.form, PlatformId) == "wordpress"
    ensures website.Some? ==> Entry(s.form, Name) == website.value.name && Entry(s.form, Url) == website.value.url
    ensures website.Some? ==> Entry(s.form, PlatformId) == website.value.platform.Name()
    ensures website.None? ==> Entry(s.form, GroupId) == ""
    ensures website.Some? ==> Entry(s.form, GroupId) == website.value.groupId
    ensures s.form.tags == ["seo", "marketing"]
  {
    var form := StartForm(website);
    var s := SyncEndpoint(Wizard(1, form, map[], Idle));
    assert Get(s.form, TextOf(Name)) == Get(form, TextOf(Name));
    assert Get(s.form, TextOf(Url)) == Get(form, TextOf(Url));
    assert Get(s.form, TextOf(PlatformId)) == Get(form, TextOf(PlatformId));
    assert Get(s.form, TextOf(GroupId)) == Get(form, TextOf(GroupId));
    assert Get(s.form, DefaultTags) == Get(form, DefaultTags);
    s
  }

  /** The form the wizard opens with, before the endpoint effect. */
  function StartForm(website: Option<Website>): (form: Form)
    ensures website.None? ==> Entry(form, Name) == "" && Entry(form, Url) == "" && Entry(form, PlatformId) == "wordpress"
    ensures website.Some? ==> Entry(form, Name) == website.value.name && Entry(form, Url) == website.value.url
    ensures website.Some? ==> Entry(form, PlatformId) == website.value.platform.Name()
    ensures website.None? ==> Entry(form, GroupId) == ""
    ensures website.Some? ==> Entry(form, GroupId) == website.value.groupId
    ensures form.tags == ["seo", "marketing"]
  {
    var initial := InitialForm();
    if website.None? then initial
    else
      var w := website.value;
      initial.(texts := initial.texts[Name := w.name][Url := w.url][GroupId := w.groupId][PlatformId := w.platform.Name()])
  }

  /** `updateFormData`: the field takes the value and its error, if it has a
      non-empty one, is cleared to "". No other field and no other error
      changes. */
  function Update(s: Wizard, f: Field, v: Value): (r: Wizard)
    requires Fits(f, v)
    ensures Get(r.form, f) == v
    ensures forall g :: g != f ==> Get(r.form, g) == Get(s.form, g)
    ensures f in r.errors <==> f in s.errors
    ensures f in r.errors ==> r.errors[f] == ""
    ensures forall g :: g != f ==> (g in r.errors <==> g in s.errors) && (g in s.errors ==> r.errors[g] == s.errors[g])
    ensures r.step == s.step && r.connection == s.connection
  {
    var errors := if f in s.errors && s.errors[f] != "" then s.errors[f := ""] else s.errors;
    s.(form := Set(s.form, f, v), errors := errors)
  }

  /** The endpoint effect: for WordPress with a non-empty URL, the endpoint
      becomes the URL without one trailing slash, followed by "/wp-json/".
      Otherwise nothing changes. */
  function SyncEndpoint(s: Wizard): (r: Wizard)
    ensures var url := Entry(s.form, Url);
      url != "" && Entry(s.form, PlatformId) == "wordpress" ==>
        Entry(r.form, ApiEndpoint) == Connector.StripTrailingSlash(url) + "/wp-json/"
        && EndsWith(Entry(r.form, ApiEndpoint), "/wp-json/")
        && forall g :: g != TextOf(ApiEndpoint) ==> Get(r.form, g) == Get(s.form, g)
    ensures Entry(s.form, Url) == "" || Entry(s.form, PlatformId) != "wordpress" ==> r == s
    ensures r.step == s.step && r.connection == s.connection
  {
    var url := Entry(s.form, Url);
    if url != "" && Entry(s.form, PlatformId) == "wordpress" then
      Update(s, TextOf(ApiEndpoint), TextValue(Connector.StripTrailingSlash(url) + "/wp-json/"))
    else s
  }

  /** Running the effect a second time changes nothing more. */
  lemma SyncEndpointIdempotent(s: Wizard)
    ensures SyncEndpoint(SyncEndpoint(s)) == SyncEndpoint(s)
  {
    var r := SyncEndpoint(s);
    if Entry(s.form, Url) != "" && Entry(s.form, PlatformId) == "wordpress" {
      assert Get(r.form, TextOf(Url)) == Get(s.form, TextOf(Url));
      assert Get(r.form, TextOf(PlatformId)) == Get(s.form, TextOf(PlatformId));
      var rr := SyncEndpoint(r);
      assert rr.form == r.form by {
        assert rr.form.texts == r.form.texts by {
          forall t: TextField ensures rr.form.texts[t] == r.form.texts[t] {
            assert Get(rr.form, TextOf(t)) == Get(r.form, TextOf(t));
          }
        }
        assert rr.form.flags == r.form.flags by {
          forall b: FlagField ensures rr.form.flags[b] == r.form.flags[b] {
            assert Get(rr.form, FlagOf(b)) == Get(r.form, FlagOf(b));
          }
        }
        assert Get(rr.form, DefaultTags) == Get(r.form, DefaultTags);
      }
    }
  }

  /** A user edit: `updateFormData`, followed by the endpoint effect when the
      edit changed the URL or the platform (the effect's dependencies). */
  function Edit(s: Wizard, f: Field, v: Value): (r: Wizard)
    requires Fits(f, v)
    ensures r.step == s.step && r.connection == s.connection
    ensures f != TextOf(ApiEndpoint) ==> Get(r.form, f) == v
    ensures (f == TextOf(Url) || f == TextOf(PlatformId)) && Get(s.form, f) != v ==> r == SyncEndpoint(Update(s, f, v))
    ensures !((f == TextOf(Url) || f == TextOf(PlatformId)) && Get(s.form, f) != v) ==> r == Update(s, f, v)
  {
    var u := Update(s, f, v);
    if (f == TextOf(Url) || f == TextOf(PlatformId)) && Get(s.form, f) != v then SyncEndpoint(u) else u
  }

  const NameTooShort := "Tên website phải có ít nhất 2 ký tự"
  const NameTooLong := "Tên website không được quá 200 ký tự"
  const UrlRequired := "URL website là bắt buộc"
  const UrlNeedsScheme := "URL phải bắt đầu bằng http:// hoặc https://"

  /** The characters the regular-expression `.` does not match. */
  predicate IsLineTerminator(c: char) {
    c == '\n' || c == '\r' || c == '\U{2028}' || c == '\U{2029}'
  }

  /** `/^https?:\/\/.+/`: "http://" or "https://" followed by at least one
      character other than a line terminator. */
  predicate IsHttpUrl(url: string) {
    (StartsWith(url, "http://") && |url| > 7 && !IsLineTerminator(url[7]))
    || (StartsWith(url, "https://") && |url| > 8 && !IsLineTerminator(url[8]))
  }

  /** A URL the pattern accepts is never blank, so the "required" check is
      subsumed by the pattern check. */
  lemma HttpUrlIsNotBlank(url: string)
    requires IsHttpUrl(url)
    ensures !Blank(url)
  {
    assert url[0] == 'h';
  }

  /** The rule for names: non-blank, and 2 to 200 characters counting any
      surrounding spaces. */
  predicate NameOk(name: string) {
    !Blank(name) && 2 <= |name| <= 200
  }

  predicate UrlOk(url: string) {
    !Blank(url) && IsHttpUrl(url)
  }

  /** The name's message, if any: blank and short names share one. */
  function NameError(name: string): (e: Option<string>)
    ensures e.None? <==> NameOk(name)
    ensures Blank(name) || |name| < 2 ==> e == Some(NameTooShort)
    ensures !Blank(name) && |name| > 200 ==> e == Some(NameTooLong)
  {
    if Trim(name) == "" || |name| < 2 then Some(NameTooShort)
    else if |name| > 200 then Some(NameTooLong)
    else None
  }

  /** The URL's message, if any: "required" for a blank URL, otherwise the
      scheme message when the pattern fails. */
  function UrlError(url: string): (e: Option<string>)
    ensures e.None? <==> UrlOk(url)
    ensures Blank(url) ==> e == Some(UrlRequired)
    ensures !Blank(url) && !IsHttpUrl(url) ==> e == Some(UrlNeedsScheme)
  {
    if Trim(url) == "" then Some(UrlRequired)
    else if !IsHttpUrl(url) then Some(UrlNeedsScheme)
    else None
  }

  /** The error record: an entry for each field that has a message. */
  function ErrorMap(nameErr: Option<string>, urlErr: Option<string>): (m: map<Field, string>)
    ensures TextOf(Name) in m <==> nameErr.Some?
    ensures TextOf(Url) in m <==> urlErr.Some?
    ensures nameErr.Some? ==> m[TextOf(Name)] == nameErr.value
    ensures urlErr.Some? ==> m[TextOf(Url)] == urlErr.value
    ensures forall g :: g in m ==> g == TextOf(Name) || g == TextOf(Url)
    ensures |m| == 0 <==> nameErr.None? && urlErr.None?
  {
    var nameErrs: map<Field, string> := if nameErr.Some? then map[TextOf(Name) := nameErr.value] else map[];
    var errs := if urlErr.Some? then nameErrs[TextOf(Url) := urlErr.value] else nameErrs;
    assert nameErr.Some? ==> TextOf(Name) in errs;
    errs
  }

  /** `validateStep1`: the new error map (which replaces the old one) and
      whether it is empty. A field has an entry exactly when it breaks its
      rule; blank and short names share one message, and a blank URL gets
      the "required" message rather than the scheme one. */
  function ValidateStep1(form: Form): (r: (map<Field, string>, bool))
    ensures r.1 <==> NameOk(Entry(form, Name)) && UrlOk(Entry(form, Url))
    ensures TextOf(Name) in r.0 <==> !NameOk(Entry(form, Name))
    ensures TextOf(Url) in r.0 <==> !UrlOk(Entry(form, Url))
    ensures forall g :: g in r.0 ==> g == TextOf(Name) || g == TextOf(Url)
    ensures Blank(Entry(form, Url)) ==> r.0[TextOf(Url)] == UrlRequired
    ensures !Blank(Entry(form, Url)) && !IsHttpUrl(Entry(form, Url)) ==> r.0[TextOf(Url)] == UrlNeedsScheme
    ensures Blank(Entry(form, Name)) || |Entry(form, Name)| < 2 ==> r.0[TextOf(Name)] == NameTooShort
    ensures |Entry(form, Name)| > 200 && !Blank(Entry(form, Name)) ==> r.0[TextOf(Name)] == NameTooLong
  {
    var errs := ErrorMap(NameError(Entry(form, Name)), UrlError(Entry(form, Url)));
    (errs, |errs| == 0)
  }

  /** `goToNextStep`: from step 1 the step-1 errors are recomputed and the
      wizard advances only if there are none; from step 2 it advances only
      after a successful connection test; on step 3 nothing happens. */
  function Next(s: Wizard): (r: Wizard)
    ensures StepInRange(s) ==> StepInRange(r)
    ensures r.step == s.step || r.step == s.step + 1
    ensures r.step == s.step + 1 <==>
      (s.step == 1 && NameOk(Entry(s.form, Name)) && UrlOk(Entry(s.form, Url))) || (s.step == 2 && s.connection == Success)
    ensures r.form == s.form && r.connection == s.connection
    ensures s.step != 1 ==> r.errors == s.errors
  {
    if s.step == 1 then
      var (errs, ok) := ValidateStep1(s.form);
      s.(errors := errs, step := if ok then 2 else 1)
    else if s.step == 2 then
      if s.connection == Success then s.(step := 3) else s
    else s
  }

  /** `goToPreviousStep`: one step back, never below the first. */
  function Back(s: Wizard): (r: Wizard)
    ensures StepInRange(s) ==> StepInRange(r)
    ensures s.step > 1 ==> r == s.(step := s.step - 1)
    ensures s.step <= 1 ==> r == s
  {
    if s.step > 1 then s.(step := s.step - 1) else s
  }

  /** Back undoes a successful Next. */
  lemma BackUndoesNext(s: Wizard)
    requires StepInRange(s) && Next(s).step == s.step + 1
    ensures Back(Next(s)).step == s.step
    ensures Back(Next(s)).form == s.form
  {
  }

  /** The footer's "next" button is disabled on step 2 until the test has
      succeeded; whenever it is enabled below step 3 after step 1, pressing it
      advances. */
  predicate NextDisabled(s: Wizard) {
    s.step == 2 && s.connection != Success
  }

  lemma EnabledNextAdvancesFromStep2(s: Wizard)
    requires s.step == 2 && !NextDisabled(s)
    ensures Next(s).step == 3
  {
  }

  const MissingCredentials := "Username và password là bắt buộc"
  const WrongCredentials := "Thông tin đăng nhập không chính xác"

  /** The mock connection test's verdict for a form, after the delay. */
  function TestOutcome(form: Form): (c: Connection)
    ensures c == Success || c == Failed(MissingCredentials) || c == Failed(WrongCredentials)
    ensures Entry(form, PlatformId) != "wordpress" ==> c == Success
    ensures Entry(form, PlatformId) == "wordpress" ==>
      (c == Failed(MissingCredentials) <==> Entry(form, Username) == "" || Entry(form, Password) == "")
    ensures Entry(form, PlatformId) == "wordpress" ==>
      (c == Success <==> Entry(form, Username) != "" && Entry(form, Password) != ""
                         && !(Entry(form, Username) == "admin" && Entry(form, Password) == "wrong"))
  {
    var platform, user, pass := Entry(form, PlatformId), Entry(form, Username), Entry(form, Password);
    if platform == "wordpress" && (user == "" || pass == "") then Failed(MissingCredentials)
    else if platform == "wordpress" && user == "admin" && pass == "wrong" then Failed(WrongCredentials)
    else Success
  }

  /** Pressing "test": the status goes to testing (the button is disabled
      meanwhile), then to the verdict. Nothing else changes. */
  function StartTest(s: Wizard): (r: Wizard)
    ensures r.connection == Testing && r.form == s.form && r.step == s.step && r.errors == s.errors
  {
    s.(connection := Testing)
  }

  function FinishTest(s: Wizard): (r: Wizard)
    ensures r.connection == TestOutcome(s.form) && r.form == s.form && r.step == s.step && r.errors == s.errors
  {
    s.(connection := TestOutcome(s.form))
  }

  /** The test-then-next sequence on step 2 reaches step 3 exactly when the
      verdict is a success. */
  lemma TestThenNext(s: Wizard)
    requires s.step == 2
    ensures Next(FinishTest(StartTest(s))).step == 3 <==> TestOutcome(s.form) == Success
  {
  }

  /** `addTag`: an empty tag or one already present is ignored; otherwise it
      is appended. The list never gains a duplicate. */
  function AddTag(tags: seq<string>, tag: string): (r: seq<string>)
    ensures tag == "" || tag in tags ==> r == tags
    ensures tag != "" && tag !in tags ==> |r| == |tags| + 1 && r[..|tags|] == tags && r[|tags|] == tag
    ensures NoDups(tags) ==> NoDups(r)
    ensures forall t :: t in r <==> t in tags || (t == tag && tag != "")
  {
    if tag != "" && tag !in tags then tags + [tag] else tags
  }

  /** `removeTag(i)`: index `i` goes, the rest keep their order; an index
      outside the list removes nothing. */
  function RemoveTag(tags: seq<string>, i: int): (r: seq<string>)
    ensures 0 <= i < |tags| ==> r == tags[..i] + tags[i + 1..]
    ensures !(0 <= i < |tags|) ==> r == tags
    decreases |tags|
  {
    if |tags| == 0 then []
    else if i == 0 then RemoveTag(tags[1..], i - 1)
    else
      var rest := RemoveTag(tags[1..], i - 1);
      assert 0 < i < |tags| ==> tags[1..][..i - 1] == tags[1..i] && tags[1..][i..] == tags[i + 1..];
      [tags[0]] + rest
  }

  /** Removing a tag never creates a duplicate. */
  lemma RemoveTagKeepsNoDups(tags: seq<string>, i: int)
    requires NoDups(tags)
    ensures NoDups(RemoveTag(tags, i))
  {
    if 0 <= i < |tags| {
      var r := RemoveTag(tags, i);
      forall a, b | 0 <= a < b < |r| ensures r[a] != r[b] {
        var a' := if a < i then a else a + 1;
        var b' := if b < i then b else b + 1;
        assert r[a] == tags[a'] && r[b] == tags[b'];
      }
    }
  }

  /** Adding a new tag and removing it by its index restores the list. */
  lemma RemoveUndoesAdd(tags: seq<string>, tag: string)
    requires tag != "" && tag !in tags
    ensures RemoveTag(AddTag(tags, tag), |tags|) == tags
  {
    assert (tags + [tag])[..|tags|] == tags;
  }

  /** The tag input: Enter adds the trimmed text. */
  function TypeTag(s: Wizard, input: string): (r: Wizard)
    ensures r.form.tags == AddTag(s.form.tags, Trim(input))
    ensures forall t: TextField :: Entry(r.form, t) == Entry(s.form, t)
    ensures r.step == s.step && r.connection == s.connection
  {
    var tags := AddTag(s.form.tags, Trim(input));
    if tags == s.form.tags then s else
      var r := Update(s, DefaultTags, TagsValue(tags));
      assert forall t: TextField :: Get(r.form, TextOf(t)) == Get(s.form, TextOf(t));
      r
  }

  /** `handleSave`'s payload: always an active, healthy site; both SEO
      switches follow `auto_seo`; the "success" event is subscribed iff the
      success notification is on. */
  function SavePayload(form: Form): (d: Connector.Draft)
    ensures d.status == Some(Active) && d.health == Some(Healthy)
    ensures d.name == Entry(form, Name) && d.url == Entry(form, Url) && d.groupId == Entry(form, GroupId)
    ensures d.platform == Entry(form, PlatformId) && d.groupName == None
    ensures d.settings.seo.autoCanonical == Flag(form, AutoSeo) && d.settings.seo.noindexDrafts == Flag(form, AutoSeo)
    ensures !d.settings.seo.nofollowExternal
    ensures d.settings.notifications.events == (if Flag(form, NotifySuccess) then ["success"] else [])
    ensures d.settings.tags == form.tags && d.settings.postStatus == Entry(form, PostStatusId)
    ensures d.settings.authType == Entry(form, AuthTypeId) && d.settings.timezone == Entry(form, Timezone)
    ensures d.settings.credentials == Credentials(None, None, None) && d.settings.apiEndpoint == None
  {
    var autoSeo := Flag(form, AutoSeo);
    Connector.Draft(
      Entry(form, Name), Entry(form, Url), Entry(form, GroupId), None, Entry(form, PlatformId),
      Some(Active), Some(Healthy),
      Connector.DraftSettings(
        None, Entry(form, AuthTypeId), Credentials(None, None, None),
        form.tags, Entry(form, PostStatusId),
        Seo(autoSeo, autoSeo, false),
        Customization(Some(""), Some(""), None, map[]),
        Notifications(Some(""), if Flag(form, NotifySuccess) then ["success"] else []),
        Entry(form, Timezone)))
  }

  /** A wizard opened fresh saves, untouched, an active WordPress site in
      the default timezone, tagged "seo" and "marketing", publishing
      directly. */
  lemma DefaultPayload()
    ensures var d := SavePayload(Open(None).form);
      d.platform == "wordpress" && d.settings.tags == ["seo", "marketing"]
      && d.settings.postStatus == "publish" && d.settings.authType == "app_password"
      && d.settings.notifications.events == ["success"] && d.settings.seo.autoCanonical
  {
  }
}

=== FILE: auto_sources.dfy ===
/** The automatic content sources table: each feed gets a status icon and a
    status label decided by the same precedence (switched off, then failing,
    then running), a type icon with a fallback, and an error badge. */
module AutoSources {

  datatype Frequency = Hourly | Daily | Weekly

  /** A feed. `kind` is the type string ("rss", "website" or "api" in the
      data); the type icon also has a branch for any other string. */
  datatype AutoSource = AutoSource(
    id: string,
    name: string,
    url: string,
    kind: string,
    frequency: Frequency,
    active: bool,
    lastFetch: string,
    importedCount: int,
    errorCount: int,
    autoPublish: bool,
    categoryMapping: string,
    tagMapping: seq<string>)

  /** The three states the status column can show, in order of precedence. */
  datatype State = SwitchedOff | Failing | Running

  /** The reference reading of a feed's state: a switched-off feed is off
      whatever its error count; a running one is failing when it has errors. */
  function StateOf(s: AutoSource): State {
    if !s.active then SwitchedOff
    else if s.errorCount > 0 then Failing
    else Running
  }

  datatype StatusIcon = GreyCross | YellowAlert | GreenCheck

  function StatusIconOf(s: AutoSource): (icon: StatusIcon)
    ensures icon == GreyCross <==> !s.active
    ensures icon == YellowAlert <==> s.active && s.errorCount > 0
    ensures icon == GreenCheck <==> s.active && s.errorCount <= 0
  {
    if !s.active then GreyCross
    else if s.errorCount > 0 then YellowAlert
    else GreenCheck
  }

  const OffLabel := "Không hoạt động"
  const FailingLabel := "Có lỗi"
  const RunningLabel := "Hoạt động"

  function StatusLabel(s: AutoSource): (text: string)
    ensures text == OffLabel <==> !s.active
    ensures text == FailingLabel <==> s.active && s.errorCount > 0
    ensures text == RunningLabel <==> s.active && s.errorCount <= 0
  {
    if !s.active then OffLabel
    else if s.errorCount > 0 then FailingLabel
    else RunningLabel
  }

  /** Icon and label follow the same precedence: both are determined by the
      feed's state, so two feeds share an icon exactly when they share a
      label. */
  lemma IconAndLabelAgree(a: AutoSource, b: AutoSource)
    ensures StatusIconOf(a) == StatusIconOf(b) <==> StateOf(a) == StateOf(b)
    ensures StatusLabel(a) == StatusLabel(b) <==> StateOf(a) == StateOf(b)
  {
  }

  /** An inactive feed reads as switched off even when it has errors. */
  lemma InactiveHidesErrors(s: AutoSource)
    requires !s.active && s.errorCount > 0
    ensures StatusLabel(s) == OffLabel && StatusIconOf(s) == GreyCross
  {
  }

  datatype TypeIcon = RssIcon | GlobeIcon | DownloadIcon

  /** The type column's icon; every unknown type falls back to the globe,
      the same icon as "website". */
  function TypeIconOf(kind: string): (icon: TypeIcon)
    ensures icon == RssIcon <==> kind == "rss"
    ensures icon == DownloadIcon <==> kind == "api"
    ensures icon == GlobeIcon <==> kind != "rss" && kind != "api"
  {
    match kind
    case "rss" => RssIcon
    case "website" => GlobeIcon
    case "api" => DownloadIcon
    case _ => GlobeIcon
  }

  /** The error count badge is "destructive" exactly when there are errors,
      which for a running feed is exactly when its status reads failing. */
  function ErrorBadgeVariant(s: AutoSource): (variant: string)
    ensures variant == "destructive" <==> s.errorCount > 0
    ensures variant != "destructive" ==> variant == "secondary"
  {
    if s.errorCount > 0 then "destructive" else "secondary"
  }

  lemma ErrorBadgeMatchesStatus(s: AutoSource)
    requires s.active
    ensures ErrorBadgeVariant(s) == "destructive" <==> StatusLabel(s) == FailingLabel
  {
  }

  function FrequencyLabel(f: Frequency): (text: string)
    ensures text != ""
  {
    match f
    case Hourly => "Hàng giờ"
    case Daily => "Hàng ngày"
    case Weekly => "Hàng tuần"
  }

  /** The frequency labels tell the three frequencies apart. */
  lemma FrequencyLabelsDistinct(f: Frequency, g: Frequency)
    ensures FrequencyLabel(f) == FrequencyLabel(g) <==> f == g
  {
  }
}

=== FILE: categories.dfy ===
/** The category manager of the content page: a list of categories with an
    inline rename (one row at a time) and a delete that asks for confirmation
    when the category still has posts. */
module Categories {
  import opened Wrappers
  import Seqs

  datatype Category = Category(id: string, name: string, active: bool, postCount: int)

  /** The list, the row being renamed (if any) with the name typed so far,
      and the separate "new category" input. */
  datatype Manager = Manager(
    categories: seq<Category>,
    editingId: Option<string>,
    editingName: string,
    newName: string)

  const SampleCategories: seq<Category> := [
    Category("1", "SEO", true, 24),
    Category("2", "Marketing", true, 18),
    Category("3", "Content Marketing", true, 15)
  ]

  function Ids(categories: seq<Category>): (ids: seq<string>)
    ensures |ids| == |categories| && forall i :: 0 <= i < |ids| ==> ids[i] == categories[i].id
  {
    seq(|categories|, i requires 0 <= i < |categories| => categories[i].id)
  }

  function Start(): (m: Manager)
    ensures m.editingId == None && m.editingName == "" && m.newName == ""
    ensures Seqs.NoDups(Ids(m.categories))
  {
    Manager(SampleCategories, None, "", "")
  }

  /** Typing in the "new category" input; the add button has no handler, so
      nothing else ever reads it. */
  function NameChange(m: Manager, name: string): (r: Manager)
    ensures r.newName == name
    ensures r.categories == m.categories && r.editingId == m.editingId && r.editingName == m.editingName
  {
    m.(newName := name)
  }

  /** The edit button: that row becomes the one being renamed, starting from
      its current name. */
  function BeginEdit(m: Manager, c: Category): (r: Manager)
    ensures r.editingId == Some(c.id) && r.editingName == c.name
    ensures r.categories == m.categories && r.newName == m.newName
  {
    m.(editingId := Some(c.id), editingName := c.name)
  }

  /** Typing in the row's rename input. */
  function TypeEditingName(m: Manager, name: string): (r: Manager)
    ensures r.editingName == name
    ensures r.categories == m.categories && r.editingId == m.editingId && r.newName == m.newName
  {
    m.(editingName := name)
  }

  /** Every category whose id is `id` gets the name `name`; ids, order,
      flags and post counts are untouched. */
  function Rename(categories: seq<Category>, id: string, name: string): (r: seq<Category>)
    ensures |r| == |categories|
    ensures forall i :: 0 <= i < |r| ==>
      r[i].id == categories[i].id && r[i].active == categories[i].active
      && r[i].postCount == categories[i].postCount
    ensures forall i :: 0 <= i < |r| ==>
      r[i].name == if categories[i].id == id then name else categories[i].name
  {
    seq(|categories|, i requires 0 <= i < |categories| =>
      var c := categories[i];
      if c.id == id then c.(name := name) else c)
  }

  /** Renaming an id that is not in the list changes nothing. */
  lemma RenameMissingId(categories: seq<Category>, id: string, name: string)
    requires id !in Ids(categories)
    ensures Rename(categories, id, name) == categories
  {
    var r := Rename(categories, id, name);
    assert forall i :: 0 <= i < |r| ==> categories[i].id != id;
    assert forall i :: 0 <= i < |r| ==> r[i] == categories[i];
  }

  /** A second rename of the same id replaces the first. */
  lemma RenameTwice(categories: seq<Category>, id: string, first: string, second: string)
    ensures Rename(Rename(categories, id, first), id, second) == Rename(categories, id, second)
  {
  }

  /** The save (check) button: the rename of that id is applied and the edit
      is closed. */
  function SaveEdit(m: Manager, id: string): (r: Manager)
    ensures r.categories == Rename(m.categories, id, m.editingName)
    ensures r.editingId == None && r.editingName == "" && r.newName == m.newName
  {
    Manager(Rename(m.categories, id, m.editingName), None, "", m.newName)
  }

  /** The cancel (cross) button: the edit is closed and the list is left as
      it was. */
  function CancelEdit(m: Manager): (r: Manager)
    ensures r.categories == m.categories
    ensures r.editingId == None && r.editingName == "" && r.newName == m.newName
  {
    m.(editingId := None, editingName := "")
  }

  /** Opening a row for editing and saving it without typing keeps the list
      as it was, as long as ids are unique. */
  lemma SaveUntouchedEditChangesNothing(m: Manager, i: nat)
    requires i < |m.categories| && Seqs.NoDups(Ids(m.categories))
    ensures SaveEdit(BeginEdit(m, m.categories[i]), m.categories[i].id).categories == m.categories
  {
    var c := m.categories[i];
    var r := SaveEdit(BeginEdit(m, c), c.id).categories;
    forall j | 0 <= j < |r|
      ensures r[j] == m.categories[j]
    {
      if m.categories[j].id == c.id {
        assert Ids(m.categories)[j] == Ids(m.categories)[i];
      }
    }
  }

  /** The list without the entries whose id is `id`. */
  function RemoveId(categories: seq<Category>, id: string): (r: seq<Category>)
    ensures id !in Ids(r)
    ensures forall c :: c in r <==> c in categories && c.id != id
    ensures Seqs.IsSubseq(r, categories)
  {
    var r := Seqs.Filter((c: Category) => c.id != id, categories);
    assert forall k :: 0 <= k < |r| ==> r[k] in r;
    r
  }

  /** The delete button, with the answer to the confirmation as input: a
      category without posts goes without asking, one with posts only when
      the deletion is confirmed. The edit state is not touched. */
  function Delete(m: Manager, c: Category, confirmed: bool): (r: Manager)
    ensures c.postCount > 0 && !confirmed ==> r == m
    ensures c.postCount <= 0 || confirmed ==> r == m.(categories := RemoveId(m.categories, c.id))
  {
    if c.postCount > 0 && !confirmed then m
    else m.(categories := RemoveId(m.categories, c.id))
  }

  /** The confirmation answer only matters for a category with posts. */
  lemma DeleteWithoutPostsIgnoresConfirmation(m: Manager, c: Category)
    requires c.postCount <= 0
    ensures Delete(m, c, false) == Delete(m, c, true)
  {
  }

  /** Deleting keeps ids unique and removes at most what was there. */
  lemma DeleteKeepsIdsDistinct(m: Manager, c: Category, confirmed: bool)
    requires Seqs.NoDups(Ids(m.categories))
    ensures Seqs.NoDups(Ids(Delete(m, c, confirmed).categories))
    ensures |Delete(m, c, confirmed).categories| <= |m.categories|
  {
    var r := Delete(m, c, confirmed).categories;
    if c.postCount > 0 && !confirmed {
      Seqs.SubseqRefl(m.categories);
    }
    Seqs.SubseqLength(r, m.categories);
    IdsOfSubseq(r, m.categories);
    Seqs.SubseqNoDups(Ids(r), Ids(m.categories));
  }

  lemma {:induction false} IdsOfSubseq(a: seq<Category>, b: seq<Category>)
    requires Seqs.IsSubseq(a, b)
    ensures Seqs.IsSubseq(Ids(a), Ids(b))
    decreases |b|
  {
    if |a| > 0 && |b| > 0 {
      assert Ids(b)[1..] == Ids(b[1..]);
      if a[0] == b[0] && Seqs.IsSubseq(a[1..], b[1..]) {
        assert Ids(a)[1..] == Ids(a[1..]);
        IdsOfSubseq(a[1..], b[1..]);
      } else {
        IdsOfSubseq(a, b[1..]);
      }
    }
  }

  /** What each table row shows: its number, whether it is the row being
      renamed, and whether the edit and delete buttons are shown. */
  datatype Row = Row(number: int, category: Category, editing: bool, actionsShown: bool)

  function Rows(m: Manager): (rows: seq<Row>)
    ensures |rows| == |m.categories|
    ensures forall i :: 0 <= i < |rows| ==>
      rows[i].number == i + 1 && rows[i].category == m.categories[i]
    ensures forall i :: 0 <= i < |rows| ==>
      (rows[i].editing <==> m.editingId == Some(m.categories[i].id))
      && rows[i].actionsShown == !rows[i].editing
  {
    seq(|m.categories|, i requires 0 <= i < |m.categories| =>
      var editing := m.editingId == Some(m.categories[i].id);
      Row(i + 1, m.categories[i], editing, !editing))
  }

  /** With unique ids at most one row is in edit mode, and after a save or a
      cancel none is. */
  lemma AtMostOneRowEditing(m: Manager, i: nat, j: nat)
    requires Seqs.NoDups(Ids(m.categories))
    requires i < j < |m.categories|
    ensures !(Rows(m)[i].editing && Rows(m)[j].editing)
    ensures forall k :: 0 <= k < |m.categories| ==> !Rows(CancelEdit(m))[k].editing
  {
    assert Ids(m.categories)[i] != Ids(m.categories)[j];
  }
}

=== FILE: connector.dfy ===
/** Pieces the website-connection forms share: the partial website record
    they hand to their `onSave` callback, the group table the two short forms
    look names up in, and the "drop one trailing slash" step of endpoint
    derivation. */
module Connector {
  import opened Wrappers
  import opened Text
  import opened WebsiteTypes

  /** The settings part of a saved website. Fields a form leaves out of its
      object literal are `None`; the enumerated settings travel as the
      strings the form holds. */
  datatype DraftSettings = DraftSettings(
    apiEndpoint: Option<string>,
    authType: string,
    credentials: Credentials,
    tags: seq<string>,
    postStatus: string,
    seo: Seo,
    customization: Customization,
    notifications: Notifications,
    timezone: string)

  /** The `Partial<Website>` a form saves. */
  datatype Draft = Draft(
    name: string,
    url: string,
    groupId: string,
    groupName: Option<string>,
    platform: string,
    status: Option<SiteStatus>,
    health: Option<Health>,
    settings: DraftSettings)

  const DefaultTimezone := "Asia/Ho_Chi_Minh"

  /** The site groups the two short forms offer. */
  const Groups: seq<SiteGroup> := [
    SiteGroup("1", "Blog cá nhân", None, "#3B82F6", 5, None),
    SiteGroup("2", "Website kinh doanh", None, "#10B981", 3, None),
    SiteGroup("3", "Landing pages", None, "#8B5CF6", 8, None)
  ]

  /** The name of the first group with this id, or "" when there is none
      (or when that group's name is itself empty). */
  function GroupName(groups: seq<SiteGroup>, id: string): (r: string)
    ensures (forall i :: 0 <= i < |groups| ==> groups[i].id != id) ==> r == ""
    ensures forall i :: 0 <= i < |groups| && groups[i].id == id && (forall j :: 0 <= j < i ==> groups[j].id != id) ==> r == groups[i].name
    decreases |groups|
  {
    if |groups| == 0 then ""
    else if groups[0].id == id then groups[0].name
    else
      var r := GroupName(groups[1..], id);
      assert forall i :: 1 <= i < |groups| ==> groups[1..][i - 1] == groups[i];
      r
  }

  /** The three built-in groups resolve to their names; any other id to "". */
  lemma GroupNamesOfTable(id: string)
    ensures id == "1" ==> GroupName(Groups, id) == "Blog cá nhân"
    ensures id == "2" ==> GroupName(Groups, id) == "Website kinh doanh"
    ensures id == "3" ==> GroupName(Groups, id) == "Landing pages"
    ensures id != "1" && id != "2" && id != "3" ==> GroupName(Groups, id) == ""
  {
  }

  /** `replace(/\/$/, '')`: one trailing slash removed, if there is one. */
  function StripTrailingSlash(url: string): (r: string)
    ensures EndsWith(url, "/") ==> |r| == |url| - 1 && r + "/" == url
    ensures !EndsWith(url, "/") ==> r == url
  {
    if |url| > 0 && url[|url| - 1] == '/' then url[..|url| - 1] else url
  }

  /** Only one slash goes: a URL ending in two slashes keeps one. */
  lemma StripTrailingSlashOnce()
    ensures StripTrailingSlash("https://a.vn//") == "https://a.vn/"
  {
  }
}

=== FILE: content_form.dfy ===
/** The content editor's derived fields (`components/content/ContentForm.tsx`):
    the slug generated from the title, and the word count and reading time
    recomputed from the body on every edit. */
module ContentForm {
  import opened Wrappers
  import opened Seqs
  import opened Text

  /** The regular-expression class `\w`: ASCII letters, digits and `_`. */
  predicate IsWordChar(c: char) {
    'a' <= c <= 'z' || 'A' <= c <= 'Z' || '0' <= c <= '9' || c == '_'
  }

  /** The characters a slug can consist of. */
  predicate IsSlugChar(c: char) {
    'a' <= c <= 'z' || '0' <= c <= '9' || c == '_' || c == '-'
  }

  /** No two hyphens next to each other. */
  predicate NoDoubleHyphen(s: string) {
    forall i :: 0 <= i < |s| - 1 ==> !(s[i] == '-' && s[i + 1] == '-')
  }

  /** `replace(/[^\w ]+/g, '')`: everything but word characters and the
      space character (U+0020 only) is deleted. */
  function KeepWordsAndSpaces(s: string): (r: string)
    ensures |r| <= |s|
    ensures forall c :: c in r <==> c in s && (IsWordChar(c) || c == ' ')
  {
    Filter(c => IsWordChar(c) || c == ' ', s)
  }

  /** The one character `/ +/` matches: U+0020. */
  predicate IsPlainSpace(c: char) {
    c == ' '
  }

  /** A leading run of space characters removed. */
  function DropSpaceRun(s: string): (r: string)
    ensures |r| <= |s| && r == s[|s| - |r|..]
    ensures forall i :: 0 <= i < |s| - |r| ==> s[i] == ' '
    ensures r == "" || r[0] != ' '
    decreases |s|
  {
    if |s| > 0 && s[0] == ' ' then
      var r := DropSpaceRun(s[1..]);
      assert s[1..][|s[1..]| - |r|..] == s[|s| - |r|..];
      r
    else s
  }

  /** Only spaces are dropped: with the spaces deleted, nothing changed. */
  lemma {:induction false} DropSpaceRunKeepsText(s: string)
    ensures RemoveAll(DropSpaceRun(s), ' ') == RemoveAll(s, ' ')
    decreases |s|
  {
    if |s| > 0 && s[0] == ' ' {
      DropSpaceRunKeepsText(s[1..]);
    }
  }

  /** `replace(/ +/g, '-')`: every maximal run of spaces becomes a single
      hyphen. */
  function Hyphenate(s: string): (r: string)
    ensures |r| <= |s|
    ensures forall i :: 0 <= i < |r| ==> r[i] != ' ' && (r[i] == '-' || r[i] in s)
    ensures |s| > 0 ==> |r| > 0 && r[0] == (if s[0] == ' ' then '-' else s[0])
    decreases |s|
  {
    if |s| == 0 then ""
    else if s[0] == ' ' then
      var d := DropSpaceRun(s);
      assert forall c :: c in d ==> c in s;
      "-" + Hyphenate(d)
    else
      [s[0]] + Hyphenate(s[1..])
  }

  /** Where the hyphens go: read character by character, the space that
      opens a run becomes `-`, the other spaces of the run vanish, and
      every other character stays where it was ("ab " gives "ab-",
      " a  b" gives "-a-b"). */
  lemma {:induction false} HyphenateCollapsesRuns(s: string)
    ensures Hyphenate(s) == CollapseRuns(IsPlainSpace, '-', s, false)
    decreases |s|
  {
    if |s| > 0 {
      if s[0] == ' ' {
        var d := DropSpaceRun(s);
        HyphenateCollapsesRuns(d);
        CollapseRunsSkip(IsPlainSpace, '-', s, |s| - |d|);
        assert s[|s| - |d|..] == d;
        CollapseRunsFresh(IsPlainSpace, '-', d);
        assert CollapseRuns(IsPlainSpace, '-', s, false) == "-" + CollapseRuns(IsPlainSpace, '-', s[1..], true);
        assert CollapseRuns(IsPlainSpace, '-', s, true) == CollapseRuns(IsPlainSpace, '-', s[1..], true);
      } else {
        HyphenateCollapsesRuns(s[1..]);
      }
    }
  }

  /** Without hyphens in the input, the output never has two in a row. */
  lemma {:induction false} HyphenateNoDoubleHyphen(s: string)
    requires '-' !in s
    ensures NoDoubleHyphen(Hyphenate(s))
    decreases |s|
  {
    if |s| > 0 {
      if s[0] == ' ' {
        var d := DropSpaceRun(s);
        assert forall c :: c in d ==> c in s;
        HyphenateNoDoubleHyphen(d);
        var rest := Hyphenate(d);
        assert Hyphenate(s) == "-" + rest;
      } else {
        HyphenateNoDoubleHyphen(s[1..]);
        assert Hyphenate(s) == [s[0]] + Hyphenate(s[1..]);
      }
    }
  }

  /** Without hyphens in the input, deleting the output's hyphens gives the
      input with its spaces deleted: only the runs of spaces were touched. */
  lemma {:induction false} HyphenateKeepsText(s: string)
    requires '-' !in s
    ensures RemoveAll(Hyphenate(s), '-') == RemoveAll(s, ' ')
    decreases |s|
  {
    if |s| > 0 {
      if s[0] == ' ' {
        var d := DropSpaceRun(s);
        assert forall c :: c in d ==> c in s;
        DropSpaceRunKeepsText(s);
        HyphenateKeepsText(d);
        var rest := Hyphenate(d);
        assert Hyphenate(s) == "-" + rest;
        assert RemoveAll("-" + rest, '-') == RemoveAll(("-" + rest)[1..], '-');
        assert ("-" + rest)[1..] == rest;
      } else {
        HyphenateKeepsText(s[1..]);
        var rest := Hyphenate(s[1..]);
        assert Hyphenate(s) == [s[0]] + rest;
        assert RemoveAll(s, ' ') == [s[0]] + RemoveAll(s[1..], ' ');
        assert ([s[0]] + rest)[1..] == rest;
        assert RemoveAll([s[0]] + rest, '-') == [s[0]] + RemoveAll(rest, '-');
      }
    }
  }

  /** `generateSlug`: lower-case (ASCII folding), drop everything but word
      characters and spaces, then turn each run of spaces into one hyphen.
      The slug holds only lower-case letters, digits, `_` and `-`, never two
      hyphens in a row, is no longer than the title, and reads, hyphens
      removed, as the kept characters without their spaces. */
  function GenerateSlug(title: string): (slug: string)
    ensures forall i :: 0 <= i < |slug| ==> slug[i] != ' ' && IsSlugChar(slug[i])
    ensures NoDoubleHyphen(slug)
    ensures |slug| <= |title|
    ensures RemoveAll(slug, '-') == RemoveAll(KeepWordsAndSpaces(Lower(title)), ' ')
    ensures slug == CollapseRuns(IsPlainSpace, '-', KeepWordsAndSpaces(Lower(title)), false)
  {
    var lowered := Lower(title);
    var kept := KeepWordsAndSpaces(lowered);
    forall c | c in kept ensures c != '-' && (c == ' ' || ('a' <= c <= 'z' || '0' <= c <= '9' || c == '_')) {
      assert c in lowered;
      var i :| 0 <= i < |lowered| && lowered[i] == c;
      assert c == LowerChar(title[i]);
    }
    HyphenateNoDoubleHyphen(kept);
    HyphenateKeepsText(kept);
    HyphenateCollapsesRuns(kept);
    Hyphenate(kept)
  }

  /** Hyphens typed in the title disappear, so a generated slug is not a
      fixed point: slugging it again removes its hyphens. */
  lemma SlugDropsHyphens()
    ensures GenerateSlug("a b") == "a-b"
    ensures GenerateSlug("a-b") == "ab"
  {
    KeepExampleSpaced();
    KeepExampleHyphened();
    HyphenateExamples();
  }

  lemma KeepExampleSpaced()
    ensures Lower("a b") == "a b"
    ensures KeepWordsAndSpaces("a b") == "a b"
  {
  }

  lemma KeepExampleHyphened()
    ensures Lower("a-b") == "a-b"
    ensures KeepWordsAndSpaces("a-b") == "ab"
  {
  }

  /** Illustrations on fixed inputs; `HyphenateCollapsesRuns` states the
      behaviour on every input. */
  lemma HyphenateExamples()
    ensures Hyphenate("a b") == "a-b"
    ensures Hyphenate("ab") == "ab"
  {
    assert "a b" == ['a', ' ', 'b'] && "a-b" == ['a', '-', 'b'];
    HyphenateSpaced('a', 'b');
    assert "ab" == ['a', 'b'];
    HyphenateJoined('a', 'b');
  }

  /** Illustration: two word characters stay as they are. */
  lemma HyphenateJoined(a: char, b: char)
    requires a != ' ' && b != ' '
    ensures Hyphenate([a, b]) == [a, b]
  {
    var ab := [a, b];
    assert ab[1..] == [b] && [b][1..] == [];
    assert Hyphenate([b]) == [b];
  }

  /** Illustration: one space between two word characters becomes a hyphen. */
  lemma HyphenateSpaced(a: char, b: char)
    requires a != ' ' && b != ' '
    ensures Hyphenate([a, ' ', b]) == [a, '-', b]
  {
    var s := [a, ' ', b];
    HyphenateSpaceRun(b);
    assert s[1..] == [' ', b];
    assert Hyphenate(s) == [a] + Hyphenate([' ', b]);
  }

  /** Illustration: a leading space becomes a hyphen. */
  lemma HyphenateSpaceRun(b: char)
    requires b != ' '
    ensures Hyphenate([' ', b]) == ['-', b]
  {
    var sb := [' ', b];
    assert sb[1..] == [b] && [b][1..] == [];
    assert DropSpaceRun(sb) == [b] by {
      assert DropSpaceRun([b]) == [b];
    }
    assert Hyphenate([b]) == [b];
  }

  /** The number of words the editor shows: the pieces of the trimmed body
      split on whitespace runs. Blank text is one (empty) piece. */
  function WordCount(content: string): (n: nat)
    ensures n >= 1
    ensures Blank(content) ==> n == 1
  {
    if Blank(content) then
      SplitTrimmed(content);
      |SplitOnSpaces(Trim(content))|
    else |SplitOnSpaces(Trim(content))|
  }

  /** The count is one more than the number of whitespace runs inside the
      trimmed body: blank text has none and counts 1. */
  lemma WordCountCountsGaps(content: string)
    ensures WordCount(content) == multiset(CollapseSpace(Trim(content)))[' '] + 1
  {
    SplitOnSpacesCount(Trim(content));
  }

  /** `Math.ceil(words / 200)`: the fewest whole minutes at 200 words per
      minute. */
  function ReadingTime(words: nat): (minutes: nat)
    ensures minutes * 200 >= words
    ensures minutes == 0 || (minutes - 1) * 200 < words
  {
    (words + 199) / 200
  }

  /** The editor's state for the modelled fields. */
  datatype Editor = Editor(title: string, slug: string, content: string, wordCount: nat, readingTime: nat)

  /** The reading time shown is always the one the word count shown gives. */
  predicate Consistent(e: Editor) {
    e.readingTime == ReadingTime(e.wordCount)
  }

  /** Opening the editor, optionally on existing content with its stored
      word count (0 when absent). */
  function Open(title: string, slug: string, content: string, storedWordCount: Option<nat>): (e: Editor)
    ensures Consistent(e)
    ensures e.wordCount == storedWordCount.GetOr(0)
    ensures e.title == title && e.slug == slug && e.content == content
  {
    var words := storedWordCount.GetOr(0);
    Editor(title, slug, content, words, ReadingTime(words))
  }

  /** Editing the body recounts the words and the reading time. */
  function ContentChange(e: Editor, content: string): (r: Editor)
    ensures Consistent(r)
    ensures r.content == content && r.wordCount == WordCount(content)
    ensures r.title == e.title && r.slug == e.slug
  {
    var words := WordCount(content);
    e.(content := content, wordCount := words, readingTime := ReadingTime(words))
  }

  /** Editing the title regenerates the slug from it. */
  function TitleChange(e: Editor, title: string): (r: Editor)
    ensures r.title == title && r.slug == GenerateSlug(title)
    ensures r.content == e.content && r.wordCount == e.wordCount && r.readingTime == e.readingTime
    ensures Consistent(e) ==> Consistent(r)
  {
    e.(title := title, slug := GenerateSlug(title))
  }

  /** Typing in the slug field. */
  function SlugChange(e: Editor, slug: string): (r: Editor)
    ensures r == e.(slug := slug)
  {
    e.(slug := slug)
  }

  /** A later title edit discards any slug typed by hand. */
  lemma TitleEditOverwritesSlug(e: Editor, typed: string, title: string)
    ensures TitleChange(SlugChange(e, typed), title) == TitleChange(e, title)
  {
  }
}

=== FILE: content_rewriter.dfy ===
/** The content rewriter (`components/content/ContentRewriter.tsx`): a mock
    rewrite that wraps the original text, normalised sentence by sentence,
    in a fixed introduction and closing; a history of rewrites, newest
    first; and the word counters under both text areas. */
module ContentRewriter {
  import opened Seqs
  import opened Text
  import ContentForm

  /** A `.`-separated piece that keeps some non-whitespace text. */
  predicate NonBlank(p: string) {
    !Blank(p)
  }

  /** The sentence step of the rewrite, fused as the source chains it: each
      `.`-separated piece is trimmed; a non-empty piece gets its `.` back,
      an empty one becomes "" and is then dropped. What the result is, is
      stated by `PunctuateCount` and `PunctuateSentences`. */
  function Punctuate(pieces: seq<string>): seq<string>
    decreases |pieces|
  {
    if |pieces| == 0 then []
    else
      var t := Trim(pieces[0]);
      var s := if t != "" then t + "." else "";
      if s != "" then [s] + Punctuate(pieces[1..])
      else Punctuate(pieces[1..])
  }

  /** One sentence for each non-blank piece. */
  lemma {:induction false} PunctuateCount(pieces: seq<string>)
    ensures |Punctuate(pieces)| == |Filter(NonBlank, pieces)|
    decreases |pieces|
  {
    if |pieces| > 0 {
      PunctuateCount(pieces[1..]);
      FilterCountStep(NonBlank, pieces);
    }
  }

  /** The unfused chain: keep the non-blank pieces, then trim each and end
      it with `.`. */
  function Terminate(kept: seq<string>): (r: seq<string>)
    ensures |r| == |kept| && forall k :: 0 <= k < |r| ==> r[k] == Trim(kept[k]) + "."
  {
    seq(|kept|, k requires 0 <= k < |kept| => Trim(kept[k]) + ".")
  }

  /** The fused step says the same as filtering first and mapping after:
      the k-th sentence is the k-th non-blank piece, trimmed, with `.`. */
  lemma {:induction false} PunctuateIsFilterThenMap(pieces: seq<string>)
    ensures Punctuate(pieces) == Terminate(Filter(NonBlank, pieces))
    decreases |pieces|
  {
    if |pieces| > 0 {
      PunctuateIsFilterThenMap(pieces[1..]);
      var tail := Filter(NonBlank, pieces[1..]);
      if NonBlank(pieces[0]) {
        assert Filter(NonBlank, pieces) == [pieces[0]] + tail;
        TerminateCons(pieces[0], tail);
      } else {
        assert Filter(NonBlank, pieces) == tail;
      }
    }
  }

  lemma TerminateCons(p: string, kept: seq<string>)
    ensures Terminate([p] + kept) == [Trim(p) + "."] + Terminate(kept)
  {
    var a, b := Terminate([p] + kept), [Trim(p) + "."] + Terminate(kept);
    assert |a| == |b|;
    forall k | 0 <= k < |a| ensures a[k] == b[k] {
      if k > 0 {
        assert ([p] + kept)[k] == kept[k - 1];
      }
    }
  }

  /** Every piece the step keeps is a sentence. */
  lemma {:induction false} PunctuateSentences(pieces: seq<string>)
    ensures forall i :: 0 <= i < |Punctuate(pieces)| ==> IsSentence(Punctuate(pieces)[i])
    decreases |pieces|
  {
    if |pieces| > 0 {
      PunctuateSentences(pieces[1..]);
      var rest := Punctuate(pieces[1..]);
      if Trim(pieces[0]) != "" {
        var s := Trim(pieces[0]) + ".";
        TerminatedIsSentence(pieces[0]);
        SentenceCons(s, rest);
        assert Punctuate(pieces) == [s] + rest;
      }
    }
  }

  /** A sentence in front of sentences gives sentences. */
  lemma SentenceCons(s: string, rest: seq<string>)
    requires IsSentence(s)
    requires forall i :: 0 <= i < |rest| ==> IsSentence(rest[i])
    ensures forall i :: 0 <= i < |[s] + rest| ==> IsSentence(([s] + rest)[i])
  {
    forall i | 0 <= i < |[s] + rest| ensures IsSentence(([s] + rest)[i]) {
      if i > 0 {
        assert ([s] + rest)[i] == rest[i - 1];
      }
    }
  }

  /** A sentence of the normalised body: some text that neither starts nor
      ends with whitespace, followed by a single `.`. */
  predicate IsSentence(s: string) {
    |s| >= 2 && s[|s| - 1] == '.' && !IsSpace(s[0]) && !IsSpace(s[|s| - 2])
  }

  /** A piece that trims to something non-empty, with its `.` back, is a
      sentence. */
  lemma TerminatedIsSentence(p: string)
    requires Trim(p) != ""
    ensures IsSentence(Trim(p) + ".")
  {
    var t := Trim(p);
    assert !IsSpace(t[0]) && !IsSpace(t[|t| - 1]);
    assert (t + ".")[|t| - 1] == t[|t| - 1];
  }

  /** The sentences of a text: one per non-blank `.`-separated segment, and
      none of them contains a `.` other than its last character. */
  function Sentences(text: string): (r: seq<string>)
    ensures |r| == |Filter(NonBlank, Split(text, '.'))|
    ensures forall i :: 0 <= i < |r| ==> IsSentence(r[i]) && '.' !in r[i][..|r[i]| - 1]
    ensures forall k :: 0 <= k < |r| ==> r[k] == Trim(Filter(NonBlank, Split(text, '.'))[k]) + "."
  {
    var pieces := Split(text, '.');
    var r := Punctuate(pieces);
    PunctuateIsFilterThenMap(pieces);
    PunctuateCount(pieces);
    PunctuateSentences(pieces);
    PunctuateFromPieces(pieces);
    r
  }

  /** Each sentence is the trimmed text of a piece plus `.`. */
  lemma {:induction false} PunctuateFromPieces(pieces: seq<string>)
    requires forall i :: 0 <= i < |pieces| ==> '.' !in pieces[i]
    ensures forall i :: 0 <= i < |Punctuate(pieces)| && |Punctuate(pieces)[i]| >= 1 ==>
      '.' !in Punctuate(pieces)[i][..|Punctuate(pieces)[i]| - 1]
    decreases |pieces|
  {
    if |pieces| > 0 {
      var tail := pieces[1..];
      assert forall i :: 0 <= i < |tail| ==> '.' !in tail[i] by {
        forall i | 0 <= i < |tail| ensures '.' !in tail[i] {
          assert tail[i] == pieces[i + 1];
        }
      }
      PunctuateFromPieces(tail);
      var t := Trim(pieces[0]);
      if t != "" {
        TrimmedHasNoDot(pieces[0]);
        PrependSentence(t, Punctuate(tail));
      }
    }
  }

  /** Trimming never brings in a `.`. */
  lemma TrimmedHasNoDot(p: string)
    requires '.' !in p
    ensures '.' !in Trim(p)
  {
    TrimIsInfix(p);
  }

  /** Putting a dot-free sentence in front of sentences whose dots are all
      final keeps every dot final. */
  lemma PrependSentence(t: string, rest: seq<string>)
    requires '.' !in t
    requires forall i :: 0 <= i < |rest| && |rest[i]| >= 1 ==> '.' !in rest[i][..|rest[i]| - 1]
    ensures forall i :: 0 <= i < |[t + "."] + rest| && |([t + "."] + rest)[i]| >= 1 ==>
      '.' !in ([t + "."] + rest)[i][..|([t + "."] + rest)[i]| - 1]
  {
    assert (t + ".")[..|t|] == t;
    forall i | 1 <= i < |[t + "."] + rest| ensures ([t + "."] + rest)[i] == rest[i - 1] {
    }
  }

  /** The normalised body: the sentences joined by single spaces. */
  function Normalize(text: string): (body: string)
    ensures Blank(text) ==> body == ""
  {
    var sentences := Sentences(text);
    if Blank(text) then
      BlankSplitHasNoContent(text);
      Join(sentences, " ")
    else Join(sentences, " ")
  }

  /** The normalised body holds one full stop per non-blank segment of the
      input: each sentence contributes its closing `.` and nothing else
      adds one. */
  lemma NormalizeCountsStops(text: string)
    ensures multiset(Normalize(text))['.'] == |Filter(NonBlank, Split(text, '.'))|
  {
    var sentences := Sentences(text);
    forall k | 0 <= k < |sentences| ensures multiset(sentences[k])['.'] == 1 {
      OneStop(sentences[k]);
    }
    JoinStopCount(sentences);
  }

  /** A sentence has exactly one `.`, its last character. */
  lemma OneStop(s: string)
    requires IsSentence(s) && '.' !in s[..|s| - 1]
    ensures multiset(s)['.'] == 1
  {
    assert s == s[..|s| - 1] + ".";
    assert multiset(s) == multiset(s[..|s| - 1]) + multiset(".");
  }

  /** Joining one-stop pieces with spaces keeps one stop per piece. */
  lemma {:induction false} JoinStopCount(pieces: seq<string>)
    requires forall k :: 0 <= k < |pieces| ==> multiset(pieces[k])['.'] == 1
    ensures multiset(Join(pieces, " "))['.'] == |pieces|
    decreases |pieces|
  {
    if |pieces| > 1 {
      var tail := pieces[1..];
      forall k | 0 <= k < |tail| ensures multiset(tail[k])['.'] == 1 {
        assert tail[k] == pieces[k + 1];
      }
      JoinStopCount(tail);
      assert multiset(pieces[0] + " " + Join(tail, " ")) == multiset(pieces[0]) + multiset(" ") + multiset(Join(tail, " "));
    }
  }

  /** A blank text has no non-blank segment. */
  lemma BlankSplitHasNoContent(text: string)
    requires Blank(text)
    ensures Filter(NonBlank, Split(text, '.')) == []
  {
    var pieces := Split(text, '.');
    assert Join(pieces, ".") == text;
    forall p | p in pieces ensures Blank(p) {
      JoinedPieceIsInfix(pieces, p);
      forall i | 0 <= i < |p| ensures IsSpace(p[i]) {
        assert p[i] in text;
        var j :| 0 <= j < |text| && text[j] == p[i];
      }
    }
    FilterKeepsNone(NonBlank, pieces);
  }

  /** Every piece's characters occur in the joined text. */
  lemma {:induction false} JoinedPieceIsInfix(pieces: seq<string>, p: string)
    requires p in pieces
    ensures forall c :: c in p ==> c in Join(pieces, ".")
    decreases |pieces|
  {
    if |pieces| > 1 {
      assert Join(pieces, ".") == pieces[0] + "." + Join(pieces[1..], ".");
      if p != pieces[0] {
        JoinedPieceIsInfix(pieces[1..], p);
      }
    }
  }

  const Closing := "Nội dung đã được tối ưu hóa và viết lại để phù hợp với yêu cầu."

  function Introduction(style: string, audience: string, tone: string): string {
    "Đây là phiên bản viết lại của nội dung gốc với phong cách " + style
    + ", hướng đến đối tượng " + audience + " với tông giọng " + tone
    + ". Nội dung được cải thiện về mặt SEO, dễ đọc và hấp dẫn hơn."
  }

  /** A history entry. `stamp` stands for the clock reading that gives the
      entry its id and creation time. */
  datatype Entry = Entry(stamp: int, original: string, rewritten: string, style: string, audience: string, tone: string)

  datatype Rewriter = Rewriter(
    original: string, style: string, audience: string, tone: string,
    rewritten: string, history: seq<Entry>)

  const Start := Rewriter("", "improve", "general", "professional", "", [])

  /** Pressing "rewrite" with the clock at `now`: nothing happens when the
      original is blank; otherwise the rewritten text is the introduction
      for the current options, a blank line, the normalised original, a
      blank line and the closing, and a new entry recording the original
      and the options goes on top of the history. */
  function Rewrite(s: Rewriter, now: int): (r: Rewriter)
    ensures Blank(s.original) ==> r == s
    ensures !Blank(s.original) ==>
      && |r.history| == |s.history| + 1
      && r.history[1..] == s.history
      && r.history[0].original == s.original
      && r.history[0].style == s.style && r.history[0].audience == s.audience && r.history[0].tone == s.tone
      && r.history[0].stamp == now
      && r.rewritten == r.history[0].rewritten
      && r.rewritten == Introduction(s.style, s.audience, s.tone) + "\n\n" + Normalize(s.original) + "\n\n" + Closing
    ensures r.original == s.original && r.style == s.style && r.audience == s.audience && r.tone == s.tone
  {
    if Trim(s.original) == "" then s
    else Record(s, now, Introduction(s.style, s.audience, s.tone) + "\n\n" + Normalize(s.original) + "\n\n" + Closing)
  }

  /** Shows `text` as the rewrite and records it, with the original and
      the options, on top of the history. */
  function Record(s: Rewriter, now: int, text: string): (r: Rewriter)
    ensures r.history == [Entry(now, s.original, text, s.style, s.audience, s.tone)] + s.history
    ensures r.history[1..] == s.history
    ensures r.rewritten == text
    ensures r.original == s.original && r.style == s.style && r.audience == s.audience && r.tone == s.tone
  {
    var entry := Entry(now, s.original, text, s.style, s.audience, s.tone);
    assert ([entry] + s.history)[1..] == s.history;
    s.(rewritten := text, history := [entry] + s.history)
  }

  /** Rewrites pile up newest first: after two rewrites the later one is on
      top and the earlier one right below it. */
  lemma NewestFirst(s: Rewriter, t1: int, t2: int)
    requires !Blank(s.original)
    ensures Rewrite(Rewrite(s, t1), t2).history[0].stamp == t2
    ensures Rewrite(Rewrite(s, t1), t2).history[1].stamp == t1
    ensures Rewrite(Rewrite(s, t1), t2).history[2..] == s.history
  {
    var r1 := Rewrite(s, t1);
    var r2 := Rewrite(r1, t2);
    assert r2.history[1..] == r1.history;
    assert r2.history[2..] == r1.history[1..];
  }

  /** The counter under each text area: the non-empty pieces of the trimmed
      text split on whitespace runs. Blank text counts 0. */
  function WordCount(text: string): (n: nat)
    ensures Blank(text) ==> n == 0
    ensures !Blank(text) ==> n == |SplitOnSpaces(Trim(text))| && n >= 1
  {
    var pieces := SplitOnSpaces(Trim(text));
    SplitTrimmed(text);
    if Blank(text) then
      assert Filter(w => w != "", [""]) == [];
      |Filter(w => w != "", pieces)|
    else
      FilterKeepsAll(w => w != "", pieces);
      |Filter(w => w != "", pieces)|
  }

  /** Non-blank text has one more word than whitespace runs inside its
      trimmed form, and the words, joined by single spaces, spell that
      trimmed form with each run collapsed to one space. */
  lemma WordCountCountsWords(text: string)
    ensures !Blank(text) ==> WordCount(text) == multiset(CollapseSpace(Trim(text)))[' '] + 1
    ensures !Blank(text) ==> Join(SplitOnSpaces(Trim(text)), " ") == CollapseSpace(Trim(text))
  {
    SplitOnSpacesCount(Trim(text));
    SplitOnSpacesJoin(Trim(text));
  }

  /** The editor's count (which keeps the empty piece) and this counter
      agree except on blank text, where the editor says 1 and this says 0. */
  lemma WordCountsAgree(text: string)
    ensures ContentForm.WordCount(text) == if Blank(text) then 1 else WordCount(text)
  {
  }
}

=== FILE: content_table.dfy ===
/** The content list view (`components/content/ContentTable.tsx`): a title
    search AND-combined with four categorical filters that each use the
    sentinel "all", a selection of row ids with select-all, per-row toggle
    and bulk actions, the header checkbox, and the "active filter" chips. */
module ContentTable {
  import opened Wrappers
  import opened Seqs
  import opened Text
  import Selection

  const ALL := "all"

  datatype Status = Draft | Ready | Published | Archived {
    function Name(): string {
      match this
      case Draft => "draft"
      case Ready => "ready"
      case Published => "published"
      case Archived => "archived"
    }
  }

  datatype ContentType = Article | Video | Infographic {
    function Name(): string {
      match this
      case Article => "article"
      case Video => "video"
      case Infographic => "infographic"
    }
  }

  datatype SourceType = Manual | File | Rss | Url | Ai {
    function Name(): string {
      match this
      case Manual => "manual"
      case File => "file"
      case Rss => "rss"
      case Url => "url"
      case Ai => "ai"
    }
  }

  datatype Content = Content(
    id: string,
    title: string,
    status: Status,
    contentType: ContentType,
    sourceType: SourceType,
    categories: seq<string>,
    language: string,
    wordCount: int,
    seoScore: int,
    createdAt: string,
    publishedAt: Option<string>)

  /** The four categorical filter dimensions. */
  datatype Dim = StatusDim | TypeDim | SourceDim | LanguageDim

  /** The five filter inputs of the view: the search box and one select per
      dimension, each holding "all" or a concrete value. */
  datatype Filters = Filters(search: string, status: string, contentType: string, sourceType: string, language: string)

  const Unfiltered := Filters("", ALL, ALL, ALL, ALL)

  /** The value of a content's field in dimension `d`. */
  function Field(c: Content, d: Dim): string {
    match d
    case StatusDim => c.status.Name()
    case TypeDim => c.contentType.Name()
    case SourceDim => c.sourceType.Name()
    case LanguageDim => c.language
  }

  /** The value selected for dimension `d`. */
  function Selected(f: Filters, d: Dim): string {
    match d
    case StatusDim => f.status
    case TypeDim => f.contentType
    case SourceDim => f.sourceType
    case LanguageDim => f.language
  }

  /** Setting one select; the search box and the other three selects keep
      their values. */
  function WithDim(f: Filters, d: Dim, v: string): (r: Filters)
    ensures Selected(r, d) == v
    ensures forall e :: e != d ==> Selected(r, e) == Selected(f, e)
    ensures r.search == f.search
  {
    match d
    case StatusDim => f.(status := v)
    case TypeDim => f.(contentType := v)
    case SourceDim => f.(sourceType := v)
    case LanguageDim => f.(language := v)
  }

  /** The filter callback, with its early returns in source order. */
  predicate Keep(f: Filters, c: Content) {
    if f.search != "" && !Contains(Lower(c.title), Lower(f.search)) then false
    else if f.status != ALL && c.status.Name() != f.status then false
    else if f.contentType != ALL && c.contentType.Name() != f.contentType then false
    else if f.sourceType != ALL && c.sourceType.Name() != f.sourceType then false
    else if f.language != ALL && c.language != f.language then false
    else true
  }

  /** A row passes the filters: its title matches the search, and every
      select is either "all" or equal to the row's field. */
  predicate Shown(f: Filters, c: Content) {
    Matches(f.search, c.title) && forall d: Dim :: Selected(f, d) == ALL || Field(c, d) == Selected(f, d)
  }

  /** The early-return callback keeps exactly the rows that pass. */
  lemma KeepMeansShown(f: Filters)
    ensures forall c :: Keep(f, c) <==> Shown(f, c)
  {
    forall c ensures Keep(f, c) <==> Shown(f, c) {
      if f.search == "" {
        ContainsEmpty(Lower(c.title));
      }
      if !Keep(f, c) && Matches(f.search, c.title) {
        if f.status != ALL && c.status.Name() != f.status {
          assert Selected(f, StatusDim) != ALL && Field(c, StatusDim) != Selected(f, StatusDim);
        } else if f.contentType != ALL && c.contentType.Name() != f.contentType {
          assert Selected(f, TypeDim) != ALL && Field(c, TypeDim) != Selected(f, TypeDim);
        } else if f.sourceType != ALL && c.sourceType.Name() != f.sourceType {
          assert Selected(f, SourceDim) != ALL && Field(c, SourceDim) != Selected(f, SourceDim);
        } else {
          assert Selected(f, LanguageDim) != ALL && Field(c, LanguageDim) != Selected(f, LanguageDim);
        }
      }
    }
  }

  /** The rows the table shows: an order-preserving subsequence of the input
      holding exactly the contents whose title matches the search and whose
      every non-"all" dimension equals the selected value. */
  function Visible(contents: seq<Content>, f: Filters): (r: seq<Content>)
    ensures IsSubseq(r, contents)
    ensures |r| <= |contents|
    ensures forall c :: c in r <==> c in contents && Shown(f, c)
  {
    KeepMeansShown(f);
    Filter(c => Keep(f, c), contents)
  }

  /** With an empty search and every select on "all" the table shows the
      whole list, in order. */
  lemma {:induction false} UnfilteredShowsEverything(contents: seq<Content>)
    ensures Visible(contents, Unfiltered) == contents
  {
    FilterKeepsAll(c => Keep(Unfiltered, c), contents);
  }

  /** Moving one select from "all" to a concrete value keeps only rows that
      were already shown, so the list never grows. */
  lemma {:induction false} NarrowingNeverGrows(contents: seq<Content>, f: Filters, d: Dim, v: string)
    requires Selected(f, d) == ALL
    ensures IsSubseq(Visible(contents, WithDim(f, d, v)), Visible(contents, f))
    ensures |Visible(contents, WithDim(f, d, v))| <= |Visible(contents, f)|
  {
    var g := WithDim(f, d, v);
    forall c | c in contents && Keep(g, c) ensures Keep(f, c) {
      assert Selected(g, d) == v;
    }
    FilterMonotone(c => Keep(g, c), c => Keep(f, c), contents);
  }

  /** Select-all: checking selects the id of every content, including the
      ones the filters hide; unchecking clears the selection. */
  function SelectAll(contents: seq<Content>, checked: bool): (r: seq<Selection.Id>)
    ensures checked ==> |r| == |contents| && forall i :: 0 <= i < |r| ==> r[i] == contents[i].id
    ensures !checked ==> r == []
  {
    if checked then seq(|contents|, i requires 0 <= i < |contents| => contents[i].id) else []
  }

  /** Select-all under a filter that hides a row leaves the header
      unchecked: the selection is longer than the visible list. */
  lemma SelectAllUnderFilterLeavesHeaderUnchecked(contents: seq<Content>, f: Filters)
    requires |Visible(contents, f)| < |contents|
    ensures !Selection.HeaderChecked(SelectAll(contents, true), Ids(Visible(contents, f)))
  {
  }

  /** The ids of a list of contents, in order. */
  function Ids(cs: seq<Content>): (r: seq<Selection.Id>)
    ensures |r| == |cs| && forall i :: 0 <= i < |cs| ==> r[i] == cs[i].id
  {
    seq(|cs|, i requires 0 <= i < |cs| => cs[i].id)
  }

  /** The header checkbox of this table, over the rows the filters show. */
  predicate HeaderChecked(selected: seq<Selection.Id>, contents: seq<Content>, f: Filters) {
    Selection.HeaderChecked(selected, Ids(Visible(contents, f)))
  }

  /** What the bulk handlers hand on (the source logs them). */
  datatype Request = DeleteMany(ids: seq<Selection.Id>) | ChangeStatus(ids: seq<Selection.Id>, status: string)

  /** A bulk handler's effect: the new selection and the request it made. */
  datatype Outcome = Outcome(selected: seq<Selection.Id>, request: Option<Request>)

  /** Bulk delete with the confirmation answer as input: nothing happens for
      an empty selection or a declined confirmation; a confirmed delete
      requests the selected ids and clears the selection. */
  function BulkDelete(selected: seq<Selection.Id>, confirmed: bool): (o: Outcome)
    ensures (|selected| == 0 || !confirmed) ==> o.selected == selected && o.request == None
    ensures |selected| > 0 && confirmed ==> o.selected == [] && o.request == Some(DeleteMany(selected))
  {
    if |selected| == 0 then Outcome(selected, None)
    else if confirmed then Outcome([], Some(DeleteMany(selected)))
    else Outcome(selected, None)
  }

  /** Bulk status change: nothing happens for an empty selection; otherwise
      the selected ids are requested with the new status and the selection
      is cleared. */
  function BulkStatusChange(selected: seq<Selection.Id>, status: string): (o: Outcome)
    ensures |selected| == 0 ==> o.selected == selected && o.request == None
    ensures |selected| > 0 ==> o.selected == [] && o.request == Some(ChangeStatus(selected, status))
  {
    if |selected| == 0 then Outcome(selected, None)
    else Outcome([], Some(ChangeStatus(selected, status)))
  }

  /** Either bulk handler leaves nothing selected once it has made a request. */
  lemma BulkRequestClearsSelection(selected: seq<Selection.Id>, confirmed: bool, status: string)
    ensures BulkDelete(selected, confirmed).request.Some? ==> BulkDelete(selected, confirmed).selected == []
    ensures BulkStatusChange(selected, status).request.Some? ==> BulkStatusChange(selected, status).selected == []
    ensures BulkDelete(selected, confirmed).request.None? ==> BulkDelete(selected, confirmed).selected == selected
  {
  }

  /** A bulk request can only come while the bulk bar is shown, and once
      made it hides the bar; a status change never leaves the bar up. */
  lemma BulkRequestHidesBar(selected: seq<Selection.Id>, confirmed: bool, status: string)
    ensures BulkDelete(selected, confirmed).request.Some? <==> Selection.BulkBarShown(selected) && confirmed
    ensures BulkDelete(selected, confirmed).request.Some? ==> !Selection.BulkBarShown(BulkDelete(selected, confirmed).selected)
    ensures BulkStatusChange(selected, status).request.Some? <==> Selection.BulkBarShown(selected)
    ensures !Selection.BulkBarShown(BulkStatusChange(selected, status).selected)
  {
  }

  /** What the CSV export covers: the selection, or everything. */
  datatype ExportScope = SelectedRows(ids: seq<Selection.Id>) | AllRows

  function ExportTarget(selected: seq<Selection.Id>): (r: ExportScope)
    ensures r == AllRows <==> |selected| == 0
    ensures r.SelectedRows? ==> r.ids == selected
  {
    if |selected| > 0 then SelectedRows(selected) else AllRows
  }

  /** The removable chips under the filter bar. */
  datatype Chip = SearchChip | DimChip(dim: Dim)

  function ChipIf(b: bool, c: Chip): seq<Chip> {
    if b then [c] else []
  }

  /** The selects in the order their chips appear. */
  const ChipOrder: seq<Dim> := [StatusDim, TypeDim, SourceDim, LanguageDim]

  /** Every select has its place in the chip order, and only one. */
  lemma ChipOrderCoversDims()
    ensures forall d: Dim :: d in ChipOrder
    ensures NoDups(ChipOrder)
  {
    forall d: Dim ensures d in ChipOrder {
      match d
      case StatusDim => assert ChipOrder[0] == d;
      case TypeDim => assert ChipOrder[1] == d;
      case SourceDim => assert ChipOrder[2] == d;
      case LanguageDim => assert ChipOrder[3] == d;
    }
  }

  /** Every chip the bar can show, in the order it shows them: the search,
      then the selects in `ChipOrder`. */
  const AllChips: seq<Chip> := [SearchChip, DimChip(StatusDim), DimChip(TypeDim), DimChip(SourceDim), DimChip(LanguageDim)]

  /** The chip of every listed select, in list order. */
  function ChipsOf(dims: seq<Dim>): (r: seq<Chip>)
    ensures |r| == |dims| && forall i :: 0 <= i < |r| ==> r[i] == DimChip(dims[i])
  {
    seq(|dims|, i requires 0 <= i < |dims| => DimChip(dims[i]))
  }

  /** The chips of the selects that are off "all" keep the list's order. */
  lemma {:induction false} DimChipsInOrder(f: Filters, dims: seq<Dim>)
    ensures IsSubseq(DimChips(f, dims), ChipsOf(dims))
    decreases |dims|
  {
    if dims != [] {
      DimChipsInOrder(f, dims[1..]);
      var all := ChipsOf(dims);
      assert all[1..] == ChipsOf(dims[1..]);
      var rest := DimChips(f, dims[1..]);
      if Selected(f, dims[0]) != ALL {
        assert DimChips(f, dims) == [DimChip(dims[0])] + rest;
        assert DimChips(f, dims)[1..] == rest;
      } else {
        assert DimChips(f, dims) == rest;
        if rest != [] {
          assert IsSubseq(rest, all[1..]);
        }
      }
    }
  }

  /** One chip for each listed select that is off "all", in list order. */
  function DimChips(f: Filters, dims: seq<Dim>): (r: seq<Chip>)
    ensures forall c :: c in r <==> c.DimChip? && c.dim in dims && Selected(f, c.dim) != ALL
    ensures NoDups(dims) ==> NoDups(r)
  {
    if dims == [] then []
    else
      var rest := DimChips(f, dims[1..]);
      assert forall e :: e in dims[1..] ==> e in dims;
      NoDupsTail(dims);
      ChipIf(Selected(f, dims[0]) != ALL, DimChip(dims[0])) + rest
  }

  /** The optional search chip ahead of select chips in `ChipOrder` order
      keeps the order of `AllChips`. */
  lemma SearchChipFirst(searched: bool, dims: seq<Chip>)
    requires IsSubseq(dims, ChipsOf(ChipOrder))
    ensures IsSubseq(ChipIf(searched, SearchChip) + dims, AllChips)
  {
    assert AllChips[1..] == ChipsOf(ChipOrder);
    if searched {
      assert (ChipIf(true, SearchChip) + dims)[1..] == dims;
    } else if dims != [] {
      assert IsSubseq(dims, AllChips[1..]);
    }
  }

  /** The chips shown: search first, then status, type, source and
      language, each present iff its input is not at its default. Being a
      subsequence of `AllChips` with no repeats fixes their order. */
  function ActiveChips(f: Filters): (r: seq<Chip>)
    ensures SearchChip in r <==> f.search != ""
    ensures forall d :: DimChip(d) in r <==> Selected(f, d) != ALL
    ensures NoDups(r)
    ensures IsSubseq(r, AllChips)
  {
    ChipOrderCoversDims();
    NoDupsAppend(ChipIf(f.search != "", SearchChip), DimChips(f, ChipOrder));
    DimChipsInOrder(f, ChipOrder);
    SearchChipFirst(f.search != "", DimChips(f, ChipOrder));
    ChipIf(f.search != "", SearchChip) + DimChips(f, ChipOrder)
  }

  /** The chip bar is shown exactly when some input is off its default. */
  lemma {:induction false} ChipBarShownIffFiltered(f: Filters)
    ensures |ActiveChips(f)| > 0 <==> f != Unfiltered
  {
    if f != Unfiltered {
      if f.search != "" {
        assert SearchChip in ActiveChips(f);
      } else if f.status != ALL {
        assert DimChip(StatusDim) in ActiveChips(f);
      } else if f.contentType != ALL {
        assert DimChip(TypeDim) in ActiveChips(f);
      } else if f.sourceType != ALL {
        assert DimChip(SourceDim) in ActiveChips(f);
      } else {
        assert DimChip(LanguageDim) in ActiveChips(f);
      }
    }
  }

  /** The × on a chip resets that one input: the search to "", a select to
      "all". Every other input keeps its value. */
  function ClearChip(f: Filters, chip: Chip): (r: Filters)
    ensures chip == SearchChip ==> r.search == "" && forall d :: Selected(r, d) == Selected(f, d)
    ensures chip.DimChip? ==> r.search == f.search && Selected(r, chip.dim) == ALL
    ensures chip.DimChip? ==> forall d :: d != chip.dim ==> Selected(r, d) == Selected(f, d)
  {
    match chip
    case SearchChip => f.(search := "")
    case DimChip(d) => WithDim(f, d, ALL)
  }

  /** Removing a chip removes exactly that chip from the bar. */
  lemma ClearChipRemovesOnlyThatChip(f: Filters, chip: Chip)
    ensures forall c :: c in ActiveChips(ClearChip(f, chip)) <==> c in ActiveChips(f) && c != chip
  {
    var g := ClearChip(f, chip);
    forall c ensures c in ActiveChips(g) <==> c in ActiveChips(f) && c != chip {
      match c
      case SearchChip =>
      case DimChip(d) =>
    }
  }

  /** "Clear all filters": every input back to its default, which shows the
      whole list and no chips. */
  function ClearAll(f: Filters): (r: Filters)
    ensures r.search == "" && forall d :: Selected(r, d) == ALL
    ensures ActiveChips(r) == []
  {
    Unfiltered
  }

  /** The result line's "filtered out" note: present iff some row is
      hidden, and then it counts the hidden rows. */
  function FilteredOutNote(contents: seq<Content>, f: Filters): (r: Option<nat>)
    ensures r.Some? <==> |Visible(contents, f)| < |contents|
    ensures r.Some? ==> r.value > 0 && r.value + |Visible(contents, f)| == |contents|
  {
    var shown := |Visible(contents, f)|;
    if shown != |contents| then Some(|contents| - shown) else None
  }
}

=== FILE: excel_import.dfy ===
/** The spreadsheet import dialog of the content page: a file is picked and
    checked by type or extension, parsed into rows marked valid or invalid,
    previewed with the two counts, and the valid rows are turned into draft
    content records for the parent page. */
module ExcelImport {
  import opened Wrappers
  import Seqs
  import opened Text
  import ContentTable

  /** The four screens of the dialog, in the order a successful import
      visits them. */
  datatype Step = UploadStep | PreviewStep | ImportingStep | CompleteStep

  datatype RowStatus = Valid | Invalid

  /** One parsed spreadsheet row; `tags` is still the raw comma-separated cell. */
  datatype Row = Row(
    title: string,
    content: string,
    category: string,
    tags: string,
    language: string,
    status: RowStatus,
    errors: seq<string>)

  /** What the dialog reads of a picked file: its name and MIME type. */
  datatype FileInfo = FileInfo(name: string, mimeType: string)

  /** The progress bar value. The import loop divides by the number of valid
      rows, so with none it ends on JavaScript's `NaN`. */
  datatype Progress = Percent(value: int) | NotANumber

  datatype Importer = Importer(
    step: Step,
    file: Option<FileInfo>,
    data: seq<Row>,
    progress: Progress,
    validCount: int,
    invalidCount: int)

  predicate IsValid(row: Row) {
    row.status == Valid
  }

  predicate IsInvalid(row: Row) {
    row.status == Invalid
  }

  function ValidRows(data: seq<Row>): seq<Row> {
    Seqs.Filter(IsValid, data)
  }

  function InvalidRows(data: seq<Row>): seq<Row> {
    Seqs.Filter(IsInvalid, data)
  }

  /** The counts shown in the preview are the counts of the rows held. */
  predicate Consistent(s: Importer) {
    s.validCount == |ValidRows(s.data)| && s.invalidCount == |InvalidRows(s.data)|
  }

  /** Every row is exactly one of valid and invalid, so the two badges
      account for every row. */
  lemma CountsPartition(data: seq<Row>)
    ensures |ValidRows(data)| + |InvalidRows(data)| == |data|
  {
    Seqs.FilterPartition(IsValid, IsInvalid, data);
  }

  /** The dialog as first shown, and as left by "choose another file" and by
      closing. */
  function Start(): (s: Importer)
    ensures s.step == UploadStep && s.file == None && s.data == []
    ensures Consistent(s) && s.validCount == 0
  {
    Importer(UploadStep, None, [], Percent(0), 0, 0)
  }

  /** The picker's check: an Excel MIME type (one mentioning "sheet") or an
      `.xlsx`/`.xls` file name. */
  predicate Accepts(f: FileInfo) {
    Contains(f.mimeType, "sheet") || EndsWith(f.name, ".xlsx") || EndsWith(f.name, ".xls")
  }

  /** Picking a file: no file leaves the dialog as it was, an accepted file
      replaces the current one, and a rejected file only raises an alert. */
  function SelectFile(s: Importer, picked: Option<FileInfo>): (r: Importer)
    ensures picked.Some? && Accepts(picked.value) ==> r == s.(file := picked)
    ensures !(picked.Some? && Accepts(picked.value)) ==> r == s
  {
    match picked
    case None => s
    case Some(f) => if Accepts(f) then s.(file := picked) else s
  }

  /** The file input also offers `.csv` files, but a CSV file whose MIME type
      does not mention "sheet" is turned away by the check above. */
  lemma CsvOfferedButRejected()
    ensures !Accepts(FileInfo("posts.csv", "text/csv"))
    ensures SelectFile(Start(), Some(FileInfo("posts.csv", "text/csv"))).file == None
  {
    CsvTypeHasNoSheet();
    CsvNameIsNotExcel();
  }

  lemma CsvTypeHasNoSheet()
    ensures !Contains("text/csv", "sheet")
  {
    NotContainsSheet("text/csv");
  }

  lemma CsvNameIsNotExcel()
    ensures !EndsWith("posts.csv", ".xlsx") && !EndsWith("posts.csv", ".xls")
  {
    var name := "posts.csv";
    assert name[|name| - 5..][0] == 's';
    assert name[|name| - 4..][0] == '.' && name[|name| - 4..][1] == 'c';
  }

  lemma {:induction false} NotContainsSheet(s: string)
    requires forall i :: 0 <= i < |s| ==> s[i] != 'h'
    ensures !Contains(s, "sheet")
    decreases |s|
  {
    if |s| > 0 {
      if |s| >= 5 {
        assert s[..5][1] != 'h';
      }
      NotContainsSheet(s[1..]);
    }
  }

  /** The upload button is enabled only once a file has been accepted. */
  predicate CanUpload(s: Importer) {
    s.file.Some?
  }

  /** Reading the chosen file. `parsed` is the parser's outcome: `None` when
      it fails, which sends the dialog back to the upload screen with the
      progress left at 30. */
  function Upload(s: Importer, parsed: Option<seq<Row>>): (r: Importer)
    ensures !CanUpload(s) ==> r == s
    ensures CanUpload(s) && parsed.None? ==> r == s.(step := UploadStep, progress := Percent(30))
    ensures CanUpload(s) && parsed.Some? ==>
      r.step == PreviewStep && r.file == s.file && r.data == parsed.value
      && Consistent(r) && r.progress == Percent(100)
  {
    if s.file.None? then s
    else
      match parsed
      case None => s.(step := UploadStep, progress := Percent(30))
      case Some(data) =>
        s.(step := PreviewStep, data := data,
           validCount := |ValidRows(data)|, invalidCount := |InvalidRows(data)|,
           progress := Percent(100))
  }

  /** The rows the component's stand-in parser returns for every file:
      three valid rows and one row rejected for its empty title. */
  const SampleRows: seq<Row> := [
    Row("Hướng dẫn SEO hiệu quả", "Nội dung chi tiết về SEO...", "SEO",
        "seo, marketing, digital", "vi", Valid, []),
    Row("Marketing Online 2024", "Xu hướng marketing online năm 2024...", "Marketing",
        "marketing, online, trends", "vi", Valid, []),
    Row("", "Nội dung không có tiêu đề...", "Other", "test", "vi", Invalid,
        ["Tiêu đề không được để trống"]),
    Row("Content Writing Tips", "How to write effective content...", "Writing",
        "writing, content, tips", "en", Valid, [])
  ]

  /** Illustration on the stand-in rows: three valid rows and one invalid. */
  lemma SampleCounts()
    ensures |ValidRows(SampleRows)| == 3 && |InvalidRows(SampleRows)| == 1
  {
    var s := SampleRows;
    assert s[0].status == Valid && s[1].status == Valid && s[2].status == Invalid && s[3].status == Valid;
    CountFour(s);
  }

  /** Four rows of which only the third is invalid count three valid and one
      invalid. */
  lemma CountFour(rows: seq<Row>)
    requires |rows| == 4
    requires IsValid(rows[0]) && IsValid(rows[1]) && IsInvalid(rows[2]) && IsValid(rows[3])
    ensures |ValidRows(rows)| == 3 && |InvalidRows(rows)| == 1
  {
    assert rows[1..][0] == rows[1] && rows[2..][0] == rows[2] && rows[3..][0] == rows[3];
    assert rows[1..][1..] == rows[2..] && rows[2..][1..] == rows[3..] && rows[3..][1..] == [];
    Seqs.FilterCountStep(IsValid, rows);
    Seqs.FilterCountStep(IsValid, rows[1..]);
    Seqs.FilterCountStep(IsValid, rows[2..]);
    Seqs.FilterCountStep(IsValid, rows[3..]);
    CountsPartition(rows);
  }

  /** The import button is disabled when no row is valid. */
  predicate CanImport(s: Importer) {
    s.validCount != 0
  }

  /** After a successful read the import button is enabled exactly when some
      row is valid. */
  lemma CanImportIffSomeValid(s: Importer, data: seq<Row>)
    requires CanUpload(s)
    ensures CanImport(Upload(s, Some(data))) <==> exists i :: 0 <= i < |data| && IsValid(data[i])
  {
    var v := ValidRows(data);
    if exists i :: 0 <= i < |data| && IsValid(data[i]) {
      var i :| 0 <= i < |data| && IsValid(data[i]);
      assert data[i] in v;
    } else {
      Seqs.FilterKeepsNone(IsValid, data);
    }
  }

  /** The record id: the clock reading taken while converting the row and
      the row's position among the valid rows (`import_<stamp>_<index>`). */
  datatype ImportId = ImportId(stamp: int, index: nat)

  /** The content record handed to the parent page for one imported row. */
  datatype Record = Record(
    id: ImportId,
    title: string,
    content: string,
    status: ContentTable.Status,
    contentType: ContentTable.ContentType,
    sourceType: ContentTable.SourceType,
    categories: seq<string>,
    tags: seq<string>,
    language: string,
    wordCount: nat)

  /** The tag cell split at commas, each piece trimmed. */
  function TagList(cell: string): (tags: seq<string>)
    ensures |tags| == |Split(cell, ',')|
    ensures forall k :: 0 <= k < |tags| ==> ',' !in tags[k]
    ensures forall k :: 0 <= k < |tags| ==> tags[k] == "" || (!IsSpace(tags[k][0]) && !IsSpace(tags[k][|tags[k]| - 1]))
  {
    var pieces := Split(cell, ',');
    TrimmedPiecesHaveNoComma(pieces);
    TrimEach(pieces)
  }

  function TrimEach(pieces: seq<string>): (r: seq<string>)
    ensures |r| == |pieces| && forall k :: 0 <= k < |r| ==> r[k] == Trim(pieces[k])
  {
    seq(|pieces|, k requires 0 <= k < |pieces| => Trim(pieces[k]))
  }

  lemma TrimmedPiecesHaveNoComma(pieces: seq<string>)
    requires forall k :: 0 <= k < |pieces| ==> ',' !in pieces[k]
    ensures forall k :: 0 <= k < |pieces| ==> ',' !in TrimEach(pieces)[k]
  {
    forall k | 0 <= k < |pieces|
      ensures ',' !in Trim(pieces[k])
    {
      TrimIsInfix(pieces[k]);
    }
  }

  /** The conversion of the valid rows. The clock is read once per row, so
      `clock(i)` is the reading taken while converting row `i`; two rows may
      carry different readings, and only the index keeps the ids apart. */
  function Records(rows: seq<Row>, clock: nat -> int): (records: seq<Record>)
    ensures |records| == |rows|
    ensures forall i :: 0 <= i < |rows| ==>
      records[i].id == ImportId(clock(i), i)
      && records[i].title == rows[i].title && records[i].content == rows[i].content
      && records[i].language == rows[i].language
      && records[i].categories == [rows[i].category]
      && records[i].tags == TagList(rows[i].tags)
      && records[i].wordCount == |rows[i].content|
    ensures forall i :: 0 <= i < |rows| ==>
      records[i].status == ContentTable.Draft
      && records[i].contentType == ContentTable.Article
      && records[i].sourceType == ContentTable.File
  {
    seq(|rows|, i requires 0 <= i < |rows| =>
      Record(ImportId(clock(i), i), rows[i].title, rows[i].content,
             ContentTable.Draft, ContentTable.Article, ContentTable.File,
             [rows[i].category], TagList(rows[i].tags), rows[i].language,
             |rows[i].content|))
  }

  /** Starting the import: the importing screen with an empty progress bar;
      the rows and counts stay as they were. */
  function BeginImport(s: Importer): (r: Importer)
    ensures r.step == ImportingStep && r.progress == Percent(0)
    ensures r.data == s.data && r.file == s.file
    ensures r.validCount == s.validCount && r.invalidCount == s.invalidCount
  {
    s.(step := ImportingStep, progress := Percent(0))
  }

  /** Importing: the valid rows, in their spreadsheet order, become records
      that are emitted to the parent, and the dialog moves from the
      importing screen to the completion screen. The progress loop ends on
      100, or on `NaN` with no valid row. Nothing guards against an empty
      import except the disabled button. */
  function Import(s: Importer, clock: nat -> int): (r: (Importer, seq<Record>))
    ensures r.0.step == CompleteStep
    ensures r.0.data == s.data && r.0.file == s.file
    ensures r.0.validCount == s.validCount && r.0.invalidCount == s.invalidCount
    ensures r.0.progress == if |ValidRows(s.data)| > 0 then Percent(100) else NotANumber
    ensures r.1 == Records(ValidRows(s.data), clock)
  {
    var t := BeginImport(s);
    var valid := ValidRows(t.data);
    var progress := if |valid| > 0 then Percent(100) else NotANumber;
    (t.(step := CompleteStep, progress := progress), Records(valid, clock))
  }

  /** What the completion screen promises: the number it reports is the
      number of records emitted, every record comes from a valid row of the
      sheet, the ids are distinct, and an enabled import never ends on `NaN`. */
  lemma ImportEmitsTheValidRows(s: Importer, clock: nat -> int)
    requires Consistent(s)
    ensures |Import(s, clock).1| == s.validCount
    ensures forall i :: 0 <= i < |Import(s, clock).1| ==>
      exists j :: 0 <= j < |s.data| && IsValid(s.data[j]) && s.data[j].title == Import(s, clock).1[i].title
    ensures forall i, j :: 0 <= i < j < |Import(s, clock).1| ==> Import(s, clock).1[i].id != Import(s, clock).1[j].id
    ensures CanImport(s) ==> Import(s, clock).0.progress == Percent(100)
  {
    var records := Import(s, clock).1;
    assert records == Records(ValidRows(s.data), clock);
    RecordsComeFromValidRows(s.data, clock);
    RecordIdsDistinct(ValidRows(s.data), clock);
  }

  lemma RecordsComeFromValidRows(data: seq<Row>, clock: nat -> int)
    ensures forall i :: 0 <= i < |Records(ValidRows(data), clock)| ==>
      exists j :: 0 <= j < |data| && IsValid(data[j]) && data[j].title == Records(ValidRows(data), clock)[i].title
  {
    var valid := ValidRows(data);
    var records := Records(valid, clock);
    forall i | 0 <= i < |records|
      ensures exists j :: 0 <= j < |data| && IsValid(data[j]) && data[j].title == records[i].title
    {
      assert records[i].title == valid[i].title;
      assert valid[i] in valid;
      var j :| 0 <= j < |data| && data[j] == valid[i];
    }
  }

  lemma RecordIdsDistinct(rows: seq<Row>, clock: nat -> int)
    ensures forall i, j :: 0 <= i < j < |Records(rows, clock)| ==> Records(rows, clock)[i].id != Records(rows, clock)[j].id
  {
    var records := Records(rows, clock);
    forall i, j | 0 <= i < j < |records| ensures records[i].id != records[j].id {
      assert records[i].id == ImportId(clock(i), i) && records[j].id == ImportId(clock(j), j);
    }
  }

  /** The rows keep their relative order: the records are the valid rows'
      titles in sheet order. */
  lemma ImportKeepsOrder(s: Importer, clock: nat -> int)
    ensures Seqs.IsSubseq(Titles(Import(s, clock).1), RowTitles(s.data))
  {
    var valid := ValidRows(s.data);
    assert Titles(Import(s, clock).1) == RowTitles(valid);
    RowTitlesSubseq(valid, s.data);
  }

  function Titles(records: seq<Record>): (t: seq<string>)
    ensures |t| == |records| && forall i :: 0 <= i < |t| ==> t[i] == records[i].title
  {
    seq(|records|, i requires 0 <= i < |records| => records[i].title)
  }

  function RowTitles(rows: seq<Row>): (t: seq<string>)
    ensures |t| == |rows| && forall i :: 0 <= i < |t| ==> t[i] == rows[i].title
  {
    seq(|rows|, i requires 0 <= i < |rows| => rows[i].title)
  }

  lemma {:induction false} RowTitlesSubseq(a: seq<Row>, b: seq<Row>)
    requires Seqs.IsSubseq(a, b)
    ensures Seqs.IsSubseq(RowTitles(a), RowTitles(b))
    decreases |b|
  {
    if |a| > 0 && |b| > 0 {
      assert RowTitles(b)[1..] == RowTitles(b[1..]);
      if a[0] == b[0] && Seqs.IsSubseq(a[1..], b[1..]) {
        assert RowTitles(a)[1..] == RowTitles(a[1..]);
        RowTitlesSubseq(a[1..], b[1..]);
      } else {
        RowTitlesSubseq(a, b[1..]);
      }
    }
  }

  /** "Choose another file" and closing the dialog: every piece of state goes
      back to the first screen, whatever it was. */
  function Reset(s: Importer): (r: Importer)
    ensures r.step == UploadStep && r.file == None && r.data == [] && r.progress == Percent(0)
    ensures Consistent(r) && !CanImport(r) && !CanUpload(r)
  {
    Start()
  }

  /** Each operation keeps the preview counts in step with the rows held. */
  lemma OperationsKeepConsistent(s: Importer, picked: Option<FileInfo>, parsed: Option<seq<Row>>, clock: nat -> int)
    requires Consistent(s)
    ensures Consistent(SelectFile(s, picked))
    ensures Consistent(Upload(s, parsed))
    ensures Consistent(Import(s, clock).0)
    ensures Consistent(Reset(s))
  {
  }

  /** A run through the dialog: pick an accepted file, read it, import. The
      steps go upload, preview, importing, complete, and what is emitted is the
      conversion of the valid rows read. */
  lemma {:induction false} SuccessfulRun(f: FileInfo, data: seq<Row>, clock: nat -> int)
    requires Accepts(f)
    ensures SelectFile(Start(), Some(f)).step == UploadStep
    ensures Upload(SelectFile(Start(), Some(f)), Some(data)).step == PreviewStep
    ensures BeginImport(Upload(SelectFile(Start(), Some(f)), Some(data))).step == ImportingStep
    ensures Import(Upload(SelectFile(Start(), Some(f)), Some(data)), clock).0.step == CompleteStep
    ensures Import(Upload(SelectFile(Start(), Some(f)), Some(data)), clock).1 == Records(ValidRows(data), clock)
  {
  }

  /** The preview's heading for a row: the title, or a placeholder when the
      title is empty. */
  function DisplayTitle(row: Row): (t: string)
    ensures t != ""
    ensures row.title != "" ==> t == row.title
  {
    if row.title != "" then row.title else "<Không có tiêu đề>"
  }
}

=== FILE: health_monitoring.dfy ===
/** The health monitoring page: the per-site status icon, colour, badge and
    label, the response-time classification, and the error summary of the
    sites with failed posts. The classifiers take the stored health string,
    so they also say what happens to a value outside the declared three. */
module HealthMonitoring {
  import opened Wrappers
  import Seqs
  import opened WebsiteTypes

  function StatusColor(health: string): (cls: string)
    ensures HealthFromName(health) == Some(Healthy) <==> cls == "text-green-600"
    ensures HealthFromName(health) == Some(Warning) <==> cls == "text-yellow-600"
    ensures HealthFromName(health) == Some(Critical) <==> cls == "text-red-600"
    ensures HealthFromName(health).None? <==> cls == "text-gray-600"
  {
    match health
    case "healthy" => "text-green-600"
    case "warning" => "text-yellow-600"
    case "critical" => "text-red-600"
    case _ => "text-gray-600"
  }

  /** The coloured dot in front of a site; the site grid uses the same one. */
  function StatusIcon(health: string): (icon: string)
    ensures HealthFromName(health) == Some(Healthy) <==> icon == "🟢"
    ensures HealthFromName(health) == Some(Warning) <==> icon == "🟡"
    ensures HealthFromName(health) == Some(Critical) <==> icon == "🔴"
    ensures HealthFromName(health).None? <==> icon == "⚫"
  {
    match health
    case "healthy" => "🟢"
    case "warning" => "🟡"
    case "critical" => "🔴"
    case _ => "⚫"
  }

  /** The status badge: only "healthy" and "warning" are recognised; every
      other value, declared or not, reads as critical. */
  function BadgeVariant(health: string): (variant: string)
    ensures variant == "default" <==> health == "healthy"
    ensures variant == "secondary" <==> health == "warning"
    ensures variant == "destructive" <==> health != "healthy" && health != "warning"
  {
    if health == "healthy" then "default"
    else if health == "warning" then "secondary"
    else "destructive"
  }

  function StatusLabel(health: string): (text: string)
    ensures text == "Healthy" <==> health == "healthy"
    ensures text == "Warning" <==> health == "warning"
    ensures text == "Critical" <==> health != "healthy" && health != "warning"
  {
    if health == "healthy" then "Healthy"
    else if health == "warning" then "Warning"
    else "Critical"
  }

  /** For every declared health value the icon, colour, badge and label tell
      the same story: each determines the value. */
  lemma DeclaredHealthPresentationAgrees(h: Health, g: Health)
    ensures StatusIcon(h.Name()) == StatusIcon(g.Name()) <==> h == g
    ensures StatusColor(h.Name()) == StatusColor(g.Name()) <==> h == g
    ensures StatusLabel(h.Name()) == StatusLabel(g.Name()) <==> h == g
    ensures BadgeVariant(h.Name()) == BadgeVariant(g.Name()) <==> h == g
  {
  }

  /** Outside the declared values the pieces disagree: the label says
      "Critical" while the icon and colour take their grey fallbacks. */
  lemma UndeclaredHealthReadsCriticalButGrey(health: string)
    requires HealthFromName(health).None?
    ensures StatusLabel(health) == "Critical" && BadgeVariant(health) == "destructive"
    ensures StatusIcon(health) == "⚫" && StatusColor(health) == "text-gray-600"
  {
  }

  /** The response time's colour class. */
  function ResponseClass(ms: int): (cls: string)
    ensures cls == "text-green-600" <==> ms < 500
    ensures cls == "text-yellow-600" <==> 500 <= ms < 1000
    ensures cls == "text-red-600" <==> ms >= 1000
  {
    if ms < 500 then "text-green-600"
    else if ms < 1000 then "text-yellow-600"
    else "text-red-600"
  }

  /** The response time's text: "Timeout" for zero, otherwise the value in
      milliseconds. */
  datatype ResponseText = Timeout | Millis(ms: int)

  function ResponseTextOf(ms: int): (t: ResponseText)
    ensures t == Timeout <==> ms == 0
    ensures t.Millis? ==> t.ms == ms
  {
    if ms == 0 then Timeout else Millis(ms)
  }

  /** The class is decided before the timeout text, so a timed-out site is
      shown in the fast (green) colour. */
  lemma TimeoutShownGreen()
    ensures ResponseTextOf(0) == Timeout && ResponseClass(0) == "text-green-600"
  {
  }

  /** The classification only gets worse as the response time grows. */
  function Severity(cls: string): int {
    if cls == "text-green-600" then 0 else if cls == "text-yellow-600" then 1 else 2
  }

  lemma ResponseClassMonotone(a: int, b: int)
    requires a <= b
    ensures Severity(ResponseClass(a)) <= Severity(ResponseClass(b))
  {
  }

  predicate HasFailures(w: Website) {
    w.failedPosts > 0
  }

  /** The error summary: the sites with failed posts, in list order. */
  function ErrorSummary(websites: seq<Website>): (r: seq<Website>)
    ensures forall w :: w in r <==> w in websites && w.failedPosts > 0
    ensures Seqs.IsSubseq(r, websites)
  {
    Seqs.Filter(HasFailures, websites)
  }

  /** The "no errors" panel is shown when the summary is empty. */
  predicate NoErrorsShown(websites: seq<Website>) {
    |ErrorSummary(websites)| == 0
  }

  lemma NoErrorsIffNoFailures(websites: seq<Website>)
    ensures NoErrorsShown(websites) <==> forall i :: 0 <= i < |websites| ==> websites[i].failedPosts <= 0
  {
    var r := ErrorSummary(websites);
    if |r| > 0 {
      assert r[0] in r;
    } else {
      forall i | 0 <= i < |websites|
        ensures websites[i].failedPosts <= 0
      {
        assert websites[i] in websites;
      }
    }
  }
}

=== FILE: images_library.dfy ===
/** The image library: a search over file name and alt text, and a grid or
    list presentation of the same filtered images. */
module ImagesLibrary {
  import opened Seqs
  import opened Text

  datatype ImageItem = ImageItem(
    id: string,
    filename: string,
    url: string,
    alt: string,
    title: string,
    size: string,
    dimensions: string,
    uploadedAt: string,
    usedIn: int)

  predicate Keep(term: string, image: ImageItem) {
    Matches(term, image.filename) || Matches(term, image.alt)
  }

  /** The images the library shows, in their original order. */
  function Visible(images: seq<ImageItem>, term: string): (r: seq<ImageItem>)
    ensures IsSubseq(r, images)
    ensures forall i :: i in r <==> i in images && (Matches(term, i.filename) || Matches(term, i.alt))
  {
    Filter(i => Keep(term, i), images)
  }

  lemma {:induction false} EmptyTermShowsEverything(images: seq<ImageItem>)
    ensures Visible(images, "") == images
  {
    forall i ensures Keep("", i) {
      ContainsEmpty(Lower(i.filename));
    }
    FilterKeepsAll(i => Keep("", i), images);
  }

  datatype ViewMode = GridView | ListView

  /** How often an image is used, as each view words it: the grid says
      "n bài" or "Chưa dùng", the list "Sử dụng trong n bài" or
      "Chưa được sử dụng"; both decide on the same test. */
  datatype Usage = UsedIn(posts: int) | Unused

  function UsageOf(image: ImageItem): (u: Usage)
    ensures u == Unused <==> image.usedIn <= 0
    ensures u.UsedIn? ==> u.posts == image.usedIn
  {
    if image.usedIn > 0 then UsedIn(image.usedIn) else Unused
  }

  /** One rendered entry: a grid card or a list row for an image. */
  datatype Entry = Card(image: ImageItem, usage: Usage) | ListRow(image: ImageItem, usage: Usage)

  function Render(images: seq<ImageItem>, term: string, mode: ViewMode): (entries: seq<Entry>)
    ensures |entries| == |Visible(images, term)|
    ensures forall k :: 0 <= k < |entries| ==>
      entries[k].image == Visible(images, term)[k] && entries[k].usage == UsageOf(entries[k].image)
    ensures forall k :: 0 <= k < |entries| ==> (entries[k].Card? <==> mode == GridView)
  {
    var shown := Visible(images, term);
    seq(|shown|, k requires 0 <= k < |shown| =>
      match mode
      case GridView => Card(shown[k], UsageOf(shown[k]))
      case ListView => ListRow(shown[k], UsageOf(shown[k])))
  }

  function ImagesOf(entries: seq<Entry>): (r: seq<ImageItem>)
    ensures |r| == |entries| && forall k :: 0 <= k < |r| ==> r[k] == entries[k].image
  {
    seq(|entries|, k requires 0 <= k < |entries| => entries[k].image)
  }

  /** The view mode changes how entries look, never which images appear or
      in what order: both views render exactly the filtered list. */
  lemma ViewModeDoesNotFilter(images: seq<ImageItem>, term: string)
    ensures ImagesOf(Render(images, term, GridView)) == Visible(images, term)
    ensures ImagesOf(Render(images, term, ListView)) == Visible(images, term)
  {
  }
}

=== FILE: publishing_queue.dfy ===
/** The publishing queue board: the queue items are split into four columns
    by status, and an empty column shows a placeholder. */
module PublishingQueue {
  import opened Wrappers
  import Seqs

  /** The declared statuses, in the order of the board's columns. */
  datatype QueueStatus = Pending | Processing | Success | Failed {
    function Name(): string {
      match this
      case Pending => "pending"
      case Processing => "processing"
      case Success => "success"
      case Failed => "failed"
    }

    function Label(): string {
      match this
      case Pending => "Chờ xử lý"
      case Processing => "Đang đăng"
      case Success => "Thành công"
      case Failed => "Thất bại"
    }
  }

  /** A queued post. The status is kept as the string the data carries, so
      an item whose status is none of the four declared names can be
      represented; the board puts such an item in no column. */
  datatype QueueItem = QueueItem(id: string, title: string, website: string, scheduledAt: string, status: string)

  const ColumnOrder: seq<QueueStatus> := [Pending, Processing, Success, Failed]

  function StatusFromName(s: string): (r: Option<QueueStatus>)
    ensures r.Some? ==> r.value.Name() == s
    ensures forall st: QueueStatus :: st.Name() == s ==> r == Some(st)
  {
    match s
    case "pending" => Some(Pending)
    case "processing" => Some(Processing)
    case "success" => Some(Success)
    case "failed" => Some(Failed)
    case _ => None
  }

  function InGroup(st: QueueStatus): QueueItem -> bool {
    (i: QueueItem) => i.status == st.Name()
  }

  predicate Declared(i: QueueItem) {
    StatusFromName(i.status).Some?
  }

  /** One column: its status, its heading and its items. */
  datatype Column = Column(status: QueueStatus, heading: string, items: seq<QueueItem>)

  /** The board: one column per declared status in column order, each
      holding the items of that status in their input order. */
  function Board(items: seq<QueueItem>): (board: seq<Column>)
    ensures |board| == |ColumnOrder|
    ensures forall k :: 0 <= k < |board| ==>
      board[k].status == ColumnOrder[k] && board[k].heading == ColumnOrder[k].Label()
    ensures forall k :: 0 <= k < |board| ==> Seqs.IsSubseq(board[k].items, items)
    ensures forall k, x :: 0 <= k < |board| ==>
      (x in board[k].items <==> x in items && x.status == ColumnOrder[k].Name())
  {
    seq(|ColumnOrder|, k requires 0 <= k < |ColumnOrder| =>
      var st := ColumnOrder[k];
      Column(st, st.Label(), Seqs.Filter(InGroup(st), items)))
  }

  /** No item is in two columns. */
  lemma ColumnsDisjoint(items: seq<QueueItem>, k: nat, l: nat, x: QueueItem)
    requires k < l < |ColumnOrder|
    ensures !(x in Board(items)[k].items && x in Board(items)[l].items)
  {
    assert ColumnOrder[k].Name() != ColumnOrder[l].Name();
  }

  /** Every item with a declared status is in the column of that status. */
  lemma DeclaredItemHasColumn(items: seq<QueueItem>, x: QueueItem)
    requires x in items && Declared(x)
    ensures exists k :: 0 <= k < |ColumnOrder| && x in Board(items)[k].items
  {
    var st := StatusFromName(x.status).value;
    var k := match st case Pending => 0 case Processing => 1 case Success => 2 case Failed => 3;
    assert ColumnOrder[k] == st;
    assert x in Board(items)[k].items;
  }

  function Size(items: seq<QueueItem>, st: QueueStatus): nat {
    |Seqs.Filter(InGroup(st), items)|
  }

  /** An item with a declared status is in exactly one group, any other
      item in none. */
  lemma OneGroup(x: QueueItem)
    ensures (if InGroup(Pending)(x) then 1 else 0) + (if InGroup(Processing)(x) then 1 else 0)
      + (if InGroup(Success)(x) then 1 else 0) + (if InGroup(Failed)(x) then 1 else 0)
      == if Declared(x) then 1 else 0
  {
  }

  /** The column sizes add up to the number of items with a declared status. */
  lemma {:induction false} ColumnSizes(items: seq<QueueItem>)
    ensures Size(items, Pending) + Size(items, Processing) + Size(items, Success) + Size(items, Failed)
      == |Seqs.Filter(Declared, items)|
    decreases |items|
  {
    if |items| > 0 {
      ColumnSizes(items[1..]);
      Seqs.FilterCountStep(InGroup(Pending), items);
      Seqs.FilterCountStep(InGroup(Processing), items);
      Seqs.FilterCountStep(InGroup(Success), items);
      Seqs.FilterCountStep(InGroup(Failed), items);
      Seqs.FilterCountStep(Declared, items);
      OneGroup(items[0]);
    }
  }

  /** When every status is declared, the board's columns hold every item
      (each once, by `ColumnsDisjoint`). */
  lemma ColumnsCoverAll(items: seq<QueueItem>)
    requires forall x :: x in items ==> Declared(x)
    ensures |Board(items)[0].items| + |Board(items)[1].items| + |Board(items)[2].items|
      + |Board(items)[3].items| == |items|
  {
    ColumnSizes(items);
    Seqs.FilterKeepsAll(Declared, items);
  }

  /** What a column's body shows: the placeholder when it has no items. */
  datatype Body = Placeholder(text: string) | Cards(items: seq<QueueItem>)

  function ColumnBody(c: Column): (b: Body)
    ensures b.Placeholder? <==> |c.items| == 0
    ensures b.Cards? ==> b.items == c.items
  {
    if |c.items| == 0 then Placeholder("Không có mục nào") else Cards(c.items)
  }

  /** An empty queue shows four placeholders. */
  lemma EmptyQueueShowsPlaceholders(k: nat)
    requires k < |ColumnOrder|
    ensures ColumnBody(Board([])[k]).Placeholder?
  {
    assert Board([])[k].items == [];
  }
}

=== FILE: schedule_calendar.dfy ===
/** The month grid of the publishing schedule: a fixed 31-day month starting
    after four blank cells, each day showing at most two of its events and
    an overflow count for the rest. */
module ScheduleCalendar {
  import opened Wrappers
  import Seqs

  const DaysInMonth := 31
  const StartDay := 4
  const MaxShown := 2
  const Today := 15

  /** A scheduled post; `date` is the day of the month it falls on. */
  datatype Event = Event(id: string, title: string, time: string, website: string, date: int)

  /** The events dated on `day`, in their input order. */
  function EventsForDay(events: seq<Event>, day: int): (r: seq<Event>)
    ensures forall e :: e in r <==> e in events && e.date == day
    ensures Seqs.IsSubseq(r, events)
  {
    Seqs.Filter((e: Event) => e.date == day, events)
  }

  /** A grid cell: a leading blank, or a day with the events it shows, the
      overflow count (`+n`) when it has more than it shows, and whether it is
      the highlighted day. */
  datatype Cell = Blank | Day(day: int, shown: seq<Event>, overflow: Option<int>, today: bool)

  function DayCell(events: seq<Event>, day: int): (c: Cell)
    ensures c.Day? && c.day == day && c.today == (day == Today)
    ensures |c.shown| <= MaxShown
    ensures Seqs.IsSubseq(c.shown, EventsForDay(events, day))
    ensures |c.shown| <= |EventsForDay(events, day)| && c.shown == EventsForDay(events, day)[..|c.shown|]
    ensures c.overflow.Some? <==> |EventsForDay(events, day)| > MaxShown
    ensures c.overflow.Some? ==> |c.shown| == MaxShown
  {
    var all := EventsForDay(events, day);
    var shown := if |all| > MaxShown then all[..MaxShown] else all;
    PrefixIsSubseq(all, |shown|);
    Day(day, shown, if |all| > MaxShown then Some(|all| - MaxShown) else None, day == Today)
  }

  lemma {:induction false} PrefixIsSubseq<T>(s: seq<T>, n: nat)
    requires n <= |s|
    ensures Seqs.IsSubseq(s[..n], s)
    decreases n
  {
    if n > 0 {
      assert s[..n][1..] == s[1..][..n - 1];
      PrefixIsSubseq(s[1..], n - 1);
    } else {
      assert s[..n] == [];
    }
  }

  /** Shown events and the overflow count account for all of the day's
      events: the `+n` label counts exactly the ones not shown. */
  lemma ShownPlusOverflow(events: seq<Event>, day: int)
    ensures |DayCell(events, day).shown| + DayCell(events, day).overflow.GetOr(0) == |EventsForDay(events, day)|
    ensures |EventsForDay(events, day)| <= MaxShown ==> DayCell(events, day).shown == EventsForDay(events, day)
  {
  }

  /** The grid: four blank cells, then the days 1 to 31 in order. */
  function Grid(events: seq<Event>): (grid: seq<Cell>)
    ensures |grid| == StartDay + DaysInMonth
    ensures forall i :: 0 <= i < StartDay ==> grid[i] == Blank
    ensures forall i :: StartDay <= i < |grid| ==> grid[i] == DayCell(events, i - StartDay + 1)
  {
    seq(StartDay + DaysInMonth, i requires 0 <= i < StartDay + DaysInMonth =>
      if i < StartDay then Blank else DayCell(events, i - StartDay + 1))
  }

  /** Every day of the month has exactly one cell. */
  lemma EachDayOnce(events: seq<Event>, day: int)
    requires 1 <= day <= DaysInMonth
    ensures Grid(events)[StartDay + day - 1].Day? && Grid(events)[StartDay + day - 1].day == day
    ensures forall i :: 0 <= i < |Grid(events)| && Grid(events)[i].Day? && Grid(events)[i].day == day ==> i == StartDay + day - 1
  {
  }

  /** An event shown in the grid sits in the cell of its own day, so an event
      dated outside 1..31 is never shown. */
  lemma ShownOnlyOnItsDay(events: seq<Event>, i: int, e: Event)
    requires 0 <= i < |Grid(events)| && Grid(events)[i].Day? && e in Grid(events)[i].shown
    ensures e in events && e.date == Grid(events)[i].day
    ensures 1 <= e.date <= DaysInMonth
  {
    var c := Grid(events)[i];
    Seqs.SubseqMembers(c.shown, EventsForDay(events, c.day));
  }

  lemma OutOfMonthNeverShown(events: seq<Event>, e: Event)
    requires e.date < 1 || e.date > DaysInMonth
    ensures forall i :: 0 <= i < |Grid(events)| && Grid(events)[i].Day? ==> e !in Grid(events)[i].shown
  {
    forall i | 0 <= i < |Grid(events)| && Grid(events)[i].Day?
      ensures e !in Grid(events)[i].shown
    {
      if e in Grid(events)[i].shown {
        ShownOnlyOnItsDay(events, i, e);
      }
    }
  }
}

=== FILE: selection.dfy ===
/** The multi-selection state both list views keep: an array of selected ids
    that the per-row checkbox appends to and removes from, and the header
    checkbox derived from it. The two views differ only in what "select all"
    selects; that part lives in each view's module. */
module Selection {
  import opened Seqs

  type Id = string

  /** The per-row checkbox handler: checking appends the id (a second copy
      if it is already there), unchecking drops every copy of it. */
  function Toggle(selected: seq<Id>, id: Id, checked: bool): (r: seq<Id>)
    ensures checked ==> |r| == |selected| + 1 && r[..|selected|] == selected && r[|selected|] == id
    ensures !checked ==> id !in r && IsSubseq(r, selected)
    ensures !checked ==> multiset(r) == multiset(selected)[id := 0]
  {
    if checked then selected + [id] else RemoveAll(selected, id)
  }

  /** Checking a row and unchecking it again leaves the selection without
      that id and otherwise as it was; for an id that was not selected that
      is the original selection. */
  lemma {:induction false} CheckThenUncheck(selected: seq<Id>, id: Id)
    ensures Toggle(Toggle(selected, id, true), id, false) == Toggle(selected, id, false)
    ensures id !in selected ==> Toggle(Toggle(selected, id, true), id, false) == selected
    decreases |selected|
  {
    RemoveAllAppended(selected, id);
    if id !in selected {
      RemoveAllAbsent(selected, id);
    }
  }

  lemma {:induction false} RemoveAllAppended(s: seq<Id>, id: Id)
    ensures RemoveAll(s + [id], id) == RemoveAll(s, id)
    decreases |s|
  {
    if |s| == 0 {
      assert RemoveAll([id], id) == RemoveAll([id][1..], id);
    } else {
      assert (s + [id])[1..] == s[1..] + [id];
      RemoveAllAppended(s[1..], id);
    }
  }

  lemma {:induction false} RemoveAllAbsent(s: seq<Id>, id: Id)
    requires id !in s
    ensures RemoveAll(s, id) == s
    decreases |s|
  {
    if |s| > 0 {
      RemoveAllAbsent(s[1..], id);
    }
  }

  /** The header checkbox as both views compute it: checked when the
      selection is as long as the visible list and that list is non-empty.
      Only the lengths are compared. */
  predicate HeaderChecked(selected: seq<Id>, visible: seq<Id>) {
    |selected| == |visible| && |visible| > 0
  }

  /** What the header checkbox is meant to show: every visible row is
      selected, and there is at least one. */
  predicate AllVisibleSelected(selected: seq<Id>, visible: seq<Id>) {
    |visible| > 0 && forall i :: 0 <= i < |visible| ==> visible[i] in selected
  }

  /** The length comparison can show a checked header while no visible row
      is selected: rows a and b selected, then the filter shows c and d. */
  lemma HeaderCheckedWithNothingVisibleSelected()
    ensures HeaderChecked(["a", "b"], ["c", "d"])
    ensures !AllVisibleSelected(["a", "b"], ["c", "d"])
  {
    assert ["c", "d"][0] !in ["a", "b"];
  }

  /** The header checkbox is never checked over an empty visible list. */
  lemma HeaderNeverCheckedWhenEmpty(selected: seq<Id>)
    ensures !HeaderChecked(selected, [])
    ensures !AllVisibleSelected(selected, [])
  {
  }

  /** While the selection holds no duplicate and only visible ids, and the
      visible ids are distinct, the length comparison says exactly that every
      visible row is selected. */
  lemma {:induction false} HeaderCheckedWhenConsistent(selected: seq<Id>, visible: seq<Id>)
    requires NoDups(selected) && NoDups(visible)
    requires forall x :: x in selected ==> x in visible
    ensures HeaderChecked(selected, visible) <==> AllVisibleSelected(selected, visible)
  {
    var s, v := set x | x in selected, set x | x in visible;
    DistinctCard(selected);
    DistinctCard(visible);
    assert s <= v;
    if HeaderChecked(selected, visible) {
      if s != v {
        var y :| y in v && y !in s;
        assert s <= v - {y};
        assert |v - {y}| == |v| - 1;
        SubsetCard(s, v - {y});
      }
      forall i | 0 <= i < |visible| ensures visible[i] in selected {
        assert visible[i] in v;
      }
    }
    if AllVisibleSelected(selected, visible) {
      assert v <= s;
      SubsetCard(v, s);
      SubsetCard(s, v);
    }
  }

  lemma {:induction false} DistinctCard(xs: seq<Id>)
    requires NoDups(xs)
    ensures |set x | x in xs| == |xs|
    decreases |xs|
  {
    if |xs| > 0 {
      var t := xs[1..];
      assert NoDups(t) by {
        forall i, j | 0 <= i < j < |t| ensures t[i] != t[j] {
          assert t[i] == xs[i + 1] && t[j] == xs[j + 1];
        }
      }
      DistinctCard(t);
      assert xs[0] !in t by {
        forall k | 0 <= k < |t| ensures t[k] != xs[0] {
          assert t[k] == xs[k + 1];
        }
      }
      assert (set x | x in xs) == {xs[0]} + (set x | x in t);
    }
  }

  lemma {:induction false} SubsetCard(a: set<Id>, b: set<Id>)
    requires a <= b
    ensures |a| <= |b|
    decreases |b|
  {
    if b != {} {
      var y :| y in b;
      SubsetCard(a - {y}, b - {y});
    }
  }

  /** The bulk-action bar appears as soon as one row is selected. */
  predicate BulkBarShown(selected: seq<Id>) {
    |selected| > 0
  }
}

=== FILE: seqs.dfy ===
/** Generic sequence operations shared by the list views: the stable
    `Array.prototype.filter`, the `filter(x => x !== v)` removal, and the
    `Array.from(new Set(xs))` de-duplication. */
module Seqs {

  /** `a` can be obtained from `b` by deleting elements, keeping the order
      of the rest. */
  predicate IsSubseq<T(==)>(a: seq<T>, b: seq<T>)
    decreases |b|
  {
    if |a| == 0 then true
    else if |b| == 0 then false
    else (a[0] == b[0] && IsSubseq(a[1..], b[1..])) || IsSubseq(a, b[1..])
  }

  /** No element occurs twice. */
  predicate NoDups<T(==)>(s: seq<T>) {
    forall i, j :: 0 <= i < j < |s| ==> s[i] != s[j]
  }

  /** A repeat-free sequence splits into a head that does not recur and a
      repeat-free tail. */
  lemma NoDupsTail<T>(s: seq<T>)
    requires |s| > 0
    ensures NoDups(s) ==> s[0] !in s[1..] && NoDups(s[1..])
  {
    if NoDups(s) {
      forall j | 0 <= j < |s[1..]| ensures s[1..][j] != s[0] {
        assert s[1..][j] == s[j + 1];
      }
    }
  }

  /** Two repeat-free sequences with nothing in common concatenate to a
      repeat-free one. */
  lemma NoDupsAppend<T>(a: seq<T>, b: seq<T>)
    requires NoDups(a) && NoDups(b)
    requires forall x :: x in a ==> x !in b
    ensures NoDups(a + b)
  {
    forall i, j | 0 <= i < j < |a + b| ensures (a + b)[i] != (a + b)[j] {
      if j < |a| {
        assert (a + b)[i] == a[i] && (a + b)[j] == a[j];
      } else if i < |a| {
        assert (a + b)[i] == a[i] && (a + b)[j] == b[j - |a|];
        assert a[i] in a && b[j - |a|] in b;
      } else {
        assert (a + b)[i] == b[i - |a|] && (a + b)[j] == b[j - |a|];
      }
    }
  }

  lemma {:induction false} SubseqRefl<T>(s: seq<T>)
    ensures IsSubseq(s, s)
    decreases |s|
  {
    if |s| > 0 {
      SubseqRefl(s[1..]);
    }
  }

  lemma {:induction false} SubseqTrans<T>(a: seq<T>, b: seq<T>, c: seq<T>)
    requires IsSubseq(a, b) && IsSubseq(b, c)
    ensures IsSubseq(a, c)
    decreases |c|
  {
    if |a| == 0 {
    } else if IsSubseq(b, c[1..]) {
      SubseqTrans(a, b, c[1..]);
    } else {
      assert b[0] == c[0] && IsSubseq(b[1..], c[1..]);
      if a[0] == b[0] && IsSubseq(a[1..], b[1..]) {
        SubseqTrans(a[1..], b[1..], c[1..]);
      } else {
        SubseqTrans(a, b[1..], c[1..]);
      }
    }
  }

  /** A subsequence is never longer than the sequence it was taken from. */
  lemma {:induction false} SubseqLength<T>(a: seq<T>, b: seq<T>)
    requires IsSubseq(a, b)
    ensures |a| <= |b|
    decreases |b|
  {
    if |a| > 0 {
      if a[0] == b[0] && IsSubseq(a[1..], b[1..]) {
        SubseqLength(a[1..], b[1..]);
      } else {
        SubseqLength(a, b[1..]);
      }
    }
  }

  /** Every element of a subsequence occurs in the sequence. */
  lemma {:induction false} SubseqMembers<T>(a: seq<T>, b: seq<T>)
    requires IsSubseq(a, b)
    ensures forall x :: x in a ==> x in b
    decreases |b|
  {
    if |a| > 0 {
      if a[0] == b[0] && IsSubseq(a[1..], b[1..]) {
        SubseqMembers(a[1..], b[1..]);
        assert a == [a[0]] + a[1..];
      } else {
        SubseqMembers(a, b[1..]);
      }
    }
  }

  /** A subsequence of a sequence without duplicates has none either. */
  lemma {:induction false} SubseqNoDups<T>(a: seq<T>, b: seq<T>)
    requires IsSubseq(a, b) && NoDups(b)
    ensures NoDups(a)
    decreases |b|
  {
    if |a| > 0 {
      assert NoDups(b[1..]);
      if a[0] == b[0] && IsSubseq(a[1..], b[1..]) {
        SubseqNoDups(a[1..], b[1..]);
        SubseqMembers(a[1..], b[1..]);
        assert a[0] !in b[1..];
        assert a == [a[0]] + a[1..];
      } else {
        SubseqNoDups(a, b[1..]);
      }
    }
  }

  /** JavaScript's `Array.prototype.filter`: the elements of `s` that satisfy
      `p`, each copy kept, in their original order. */
  function Filter<T(==,!new)>(p: T -> bool, s: seq<T>): (r: seq<T>)
    ensures |r| <= |s|
    ensures forall x :: x in r <==> x in s && p(x)
    ensures IsSubseq(r, s)
    decreases |s|
  {
    if |s| == 0 then []
    else if p(s[0]) then [s[0]] + Filter(p, s[1..])
    else Filter(p, s[1..])
  }

  /** One step of `Filter`: the first element counts once if it is kept. */
  lemma FilterCountStep<T(!new)>(p: T -> bool, s: seq<T>)
    requires |s| > 0
    ensures |Filter(p, s)| == (if p(s[0]) then 1 else 0) + |Filter(p, s[1..])|
  {
  }

  /** A predicate that every element satisfies filters nothing out. */
  lemma {:induction false} FilterKeepsAll<T(!new)>(p: T -> bool, s: seq<T>)
    requires forall x :: x in s ==> p(x)
    ensures Filter(p, s) == s
    decreases |s|
  {
    if |s| > 0 {
      FilterKeepsAll(p, s[1..]);
    }
  }

  /** A predicate that no element satisfies filters everything out. */
  lemma FilterKeepsNone<T(!new)>(p: T -> bool, s: seq<T>)
    requires forall x :: x in s ==> !p(x)
    ensures Filter(p, s) == []
  {
    if Filter(p, s) != [] {
      assert Filter(p, s)[0] in Filter(p, s);
    }
  }

  /** A stronger predicate never keeps more elements than a weaker one. */
  lemma {:induction false} FilterMonotone<T(!new)>(p: T -> bool, q: T -> bool, s: seq<T>)
    requires forall x :: x in s && p(x) ==> q(x)
    ensures |Filter(p, s)| <= |Filter(q, s)|
    ensures IsSubseq(Filter(p, s), Filter(q, s))
    decreases |s|
  {
    if |s| > 0 {
      FilterMonotone(p, q, s[1..]);
      var fp, fq := Filter(p, s[1..]), Filter(q, s[1..]);
      if p(s[0]) {
        assert Filter(p, s) == [s[0]] + fp && Filter(q, s) == [s[0]] + fq;
        assert ([s[0]] + fp)[1..] == fp && ([s[0]] + fq)[1..] == fq;
      } else if q(s[0]) {
        assert Filter(q, s) == [s[0]] + fq;
        assert ([s[0]] + fq)[1..] == fq;
        if |fp| > 0 {
          assert IsSubseq(fp, ([s[0]] + fq)[1..]);
        }
      }
    }
  }

  /** Filtering distributes over concatenation. */
  lemma {:induction false} FilterAppend<T(!new)>(p: T -> bool, a: seq<T>, b: seq<T>)
    ensures Filter(p, a + b) == Filter(p, a) + Filter(p, b)
    decreases |a|
  {
    if |a| == 0 {
      assert a + b == b;
    } else {
      assert (a + b)[0] == a[0] && (a + b)[1..] == a[1..] + b;
      FilterAppend(p, a[1..], b);
    }
  }

  /** Two predicates that split the elements between them split the count:
      every element is kept by exactly one of the two filters. */
  lemma {:induction false} FilterPartition<T(!new)>(p: T -> bool, q: T -> bool, s: seq<T>)
    requires forall x :: x in s ==> (p(x) <==> !q(x))
    ensures |Filter(p, s)| + |Filter(q, s)| == |s|
    decreases |s|
  {
    if |s| > 0 {
      FilterPartition(p, q, s[1..]);
    }
  }

  /** Every copy of `x` removed, every other element kept in order
      (`s.filter(y => y !== x)`). */
  function RemoveAll<T(==,!new)>(s: seq<T>, x: T): (r: seq<T>)
    ensures |r| <= |s|
    ensures forall y :: y in r <==> y in s && y != x
    ensures IsSubseq(r, s)
    ensures multiset(r) == multiset(s)[x := 0]
    decreases |s|
  {
    if |s| == 0 then []
    else
      var rest := RemoveAll(s[1..], x);
      assert s == [s[0]] + s[1..];
      assert multiset(s) == multiset{s[0]} + multiset(s[1..]);
      if s[0] == x then rest
      else
        assert ([s[0]] + rest)[1..] == rest;
        [s[0]] + rest
  }

  /** `Array.from(new Set(s))`: each distinct element once, in an order
      that follows `s`. */
  function Dedup<T(==,!new)>(s: seq<T>): (r: seq<T>)
    ensures NoDups(r)
    ensures forall x :: x in r <==> x in s
    ensures IsSubseq(r, s)
    decreases |s|
  {
    if |s| == 0 then []
    else
      var rest := RemoveAll(s[1..], s[0]);
      var d := Dedup(rest);
      SubseqTrans(d, rest, s[1..]);
      NoDupsAppend([s[0]], d);
      assert s == [s[0]] + s[1..];
      assert ([s[0]] + d)[1..] == d;
      [s[0]] + d
  }
}

=== FILE: simple_website.dfy ===
/** The single-page website form (`components/websites/SimpleWebsiteModal.tsx`):
    six connector platforms, each with a configured API endpoint that is
    either a path appended to the site URL or an absolute URL; a connection
    test; and the save mapping onto the website record. */
module SimpleWebsite {
  import opened Wrappers
  import opened Text
  import opened WebsiteTypes
  import Connector

  datatype Form = Form(
    name: string,
    url: string,
    groupId: string,
    platform: ConnectorPlatform,
    apiEndpoint: string,
    username: string,
    password: string)

  datatype State = State(form: Form, connection: Connection)

  /** The endpoint each platform's configuration names. */
  function ConfigEndpoint(p: ConnectorPlatform): string {
    match p
    case WordPressSite => "/wp-json/"
    case BloggerSite => "https://www.googleapis.com/blogger/v3/"
    case JoomlaSite => "/api/"
    case MediumSite => "https://api.medium.com/v1/"
    case DrupalSite => "/jsonapi/"
    case CustomApi => ""
  }

  /** A configured endpoint starting with "/" is a path on the site. */
  predicate IsPath(endpoint: string) {
    StartsWith(endpoint, "/")
  }

  /** WordPress, Joomla and Drupal configure paths; Blogger and Medium
      absolute URLs; the custom API nothing. */
  lemma ConfigEndpointKinds(p: ConnectorPlatform)
    ensures IsPath(ConfigEndpoint(p)) <==> p in {WordPressSite, JoomlaSite, DrupalSite}
    ensures p in {BloggerSite, MediumSite} ==> StartsWith(ConfigEndpoint(p), "https://")
    ensures ConfigEndpoint(p) == "" <==> p == CustomApi
  {
    var e := ConfigEndpoint(p);
    if p in {BloggerSite, MediumSite} {
      assert e[..8] == "https://";
      assert e[0] == 'h';
      assert e[..1] != "/";
    }
  }

  /** Opening the form, optionally on an existing website. The platform
      always starts as WordPress. */
  function Open(website: Option<Website>): (s: State)
    ensures s.form.platform == WordPressSite && s.connection == Idle
    ensures website.None? ==> s.form == Form("", "", "", WordPressSite, "", "", "")
    ensures website.Some? ==> s.form.name == website.value.name && s.form.url == website.value.url
    ensures website.Some? ==> s.form.apiEndpoint == website.value.settings.apiEndpoint.GetOr("")
    ensures website.Some? ==> s.form.groupId == website.value.groupId
    ensures website.Some? ==>
      && s.form.username == website.value.settings.credentials.username.GetOr("")
      && s.form.password == website.value.settings.credentials.password.GetOr("")
  {
    match website
    case None => State(Form("", "", "", WordPressSite, "", "", ""), Idle)
    case Some(w) =>
      var creds := w.settings.credentials;
      State(Form(w.name, w.url, w.groupId, WordPressSite, w.settings.apiEndpoint.GetOr(""),
                 creds.username.GetOr(""), creds.password.GetOr("")), Idle)
  }

  /** Typing in the URL field: the URL changes and, for a non-empty URL on a
      platform other than the custom API, the endpoint is re-derived (the
      stripped URL plus a configured path, or the configured absolute URL).
      The connection status is left as it was. */
  function UrlChange(s: State, url: string): (r: State)
    ensures r.form.url == url && r.connection == s.connection
    ensures r.form.(url := s.form.url, apiEndpoint := s.form.apiEndpoint) == s.form
    ensures url == "" || s.form.platform == CustomApi ==> r.form.apiEndpoint == s.form.apiEndpoint
    ensures url != "" && s.form.platform != CustomApi && IsPath(ConfigEndpoint(s.form.platform)) ==>
      r.form.apiEndpoint == Connector.StripTrailingSlash(url) + ConfigEndpoint(s.form.platform)
    ensures url != "" && s.form.platform != CustomApi && !IsPath(ConfigEndpoint(s.form.platform)) ==>
      r.form.apiEndpoint == ConfigEndpoint(s.form.platform)
  {
    var f := s.form.(url := url);
    if url != "" && s.form.platform != CustomApi then
      var config := ConfigEndpoint(s.form.platform);
      var endpoint := if IsPath(config) then Connector.StripTrailingSlash(url) + config else config;
      State(f.(apiEndpoint := endpoint), s.connection)
    else State(f, s.connection)
  }

  /** Choosing a platform: the custom API clears the endpoint; a path is
      appended to the stripped URL when there is a URL; otherwise the
      configured endpoint is taken as it is. The connection status goes back
      to idle. */
  function PlatformChange(s: State, p: ConnectorPlatform): (r: State)
    ensures r.form.platform == p && r.connection == Idle
    ensures r.form.(platform := s.form.platform, apiEndpoint := s.form.apiEndpoint) == s.form
    ensures p == CustomApi ==> r.form.apiEndpoint == ""
    ensures p != CustomApi && s.form.url != "" && IsPath(ConfigEndpoint(p)) ==>
      r.form.apiEndpoint == Connector.StripTrailingSlash(s.form.url) + ConfigEndpoint(p)
    ensures p != CustomApi && !(s.form.url != "" && IsPath(ConfigEndpoint(p))) ==>
      r.form.apiEndpoint == ConfigEndpoint(p)
  {
    var config := ConfigEndpoint(p);
    var endpoint :=
      if p == CustomApi then ""
      else if s.form.url != "" && IsPath(config) then Connector.StripTrailingSlash(s.form.url) + config
      else config;
    State(s.form.(platform := p, apiEndpoint := endpoint), Idle)
  }

  /** For a non-empty URL the two handlers commute: entering the URL and
      then choosing the platform ends in the same state as the other way
      round. */
  lemma UrlAndPlatformCommute(s: State, url: string, p: ConnectorPlatform)
    requires url != ""
    ensures UrlChange(PlatformChange(s, p), url) == PlatformChange(UrlChange(s, url), p)
  {
  }

  /** The remaining inputs write their field and nothing else. The
      endpoint input is disabled, and so cannot be typed into, unless the
      platform is the custom API. */
  datatype PlainField = NameField | GroupField | EndpointField | UsernameField | PasswordField

  function SetField(s: State, field: PlainField, v: string): (r: State)
    ensures r.connection == s.connection && r.form.url == s.form.url && r.form.platform == s.form.platform
    ensures field == NameField ==> r.form == s.form.(name := v)
    ensures field == GroupField ==> r.form == s.form.(groupId := v)
    ensures field == EndpointField && s.form.platform == CustomApi ==> r.form == s.form.(apiEndpoint := v)
    ensures field == EndpointField && s.form.platform != CustomApi ==> r == s
    ensures field == UsernameField ==> r.form == s.form.(username := v)
    ensures field == PasswordField ==> r.form == s.form.(password := v)
  {
    match field
    case NameField => s.(form := s.form.(name := v))
    case GroupField => s.(form := s.form.(groupId := v))
    case EndpointField =>
      if s.form.platform == CustomApi then s.(form := s.form.(apiEndpoint := v)) else s
    case UsernameField => s.(form := s.form.(username := v))
    case PasswordField => s.(form := s.form.(password := v))
  }

  const InvalidCredentials := "Invalid username or password"

  /** The mock test's verdict: success iff username, password and endpoint
      are all filled in. */
  function TestOutcome(f: Form): (c: Connection)
    ensures c == Success <==> f.username != "" && f.password != "" && f.apiEndpoint != ""
    ensures c != Success ==> c == Failed(InvalidCredentials)
  {
    if f.username != "" && f.password != "" && f.apiEndpoint != "" then Success
    else Failed(InvalidCredentials)
  }

  function StartTest(s: State): (r: State)
    ensures r.form == s.form && r.connection == Testing
  {
    s.(connection := Testing)
  }

  function FinishTest(s: State): (r: State)
    ensures r.form == s.form && r.connection == TestOutcome(s.form)
  {
    s.(connection := TestOutcome(s.form))
  }

  /** Name, URL, credentials and endpoint all filled in (the platform is
      always set). */
  predicate IsFormValid(f: Form) {
    f.name != "" && f.url != "" && f.username != "" && f.password != "" && f.apiEndpoint != ""
  }

  predicate CanSave(s: State) {
    IsFormValid(s.form) && s.connection == Success
  }

  /** A form complete enough to save always passes the test, and a passed
      test on a named site with a URL makes the form savable. */
  lemma CanSaveAfterPassingTest(s: State)
    ensures IsFormValid(s.form) ==> TestOutcome(s.form) == Success
    ensures s.form.name != "" && s.form.url != "" ==> (CanSave(FinishTest(s)) <==> IsFormValid(s.form))
  {
  }

  /** Choosing a platform always makes saving impossible until the next test. */
  lemma PlatformChangeBlocksSave(s: State, p: ConnectorPlatform)
    ensures !CanSave(PlatformChange(s, p))
  {
  }

  /** The platform a save records: Medium and Drupal become the custom
      platform; the others keep their own. */
  function SavedPlatform(p: ConnectorPlatform): (q: Platform)
    ensures PlatformFromName(p.Name()).Some? ==> q == PlatformFromName(p.Name()).value
    ensures PlatformFromName(p.Name()).None? ==> q == Custom
  {
    match p
    case WordPressSite => WordPress
    case BloggerSite => Blogger
    case JoomlaSite => Joomla
    case MediumSite => Custom
    case DrupalSite => Custom
    case CustomApi => Custom
  }

  /** The saved record: the mapped platform, the group's name looked up in
      the group table ("" when unknown), basic authentication with the
      typed credentials, drafts without tags, both SEO switches on. */
  function Save(f: Form): (d: Connector.Draft)
    ensures PlatformFromName(d.platform) == Some(SavedPlatform(f.platform))
    ensures d.name == f.name && d.url == f.url && d.groupId == f.groupId
    ensures d.groupName == Some(Connector.GroupName(Connector.Groups, f.groupId))
    ensures d.status == None && d.health == None
    ensures d.settings.apiEndpoint == Some(f.apiEndpoint) && d.settings.authType == "basic_auth"
    ensures d.settings.credentials == Credentials(Some(f.username), Some(f.password), None)
    ensures d.settings.tags == [] && d.settings.postStatus == "draft"
    ensures d.settings.seo == Seo(true, true, false)
    ensures d.settings.notifications.events == [] && d.settings.timezone == Connector.DefaultTimezone
  {
    var platform := if f.platform == MediumSite || f.platform == DrupalSite then "custom" else f.platform.Name();
    SavedNameNamesSavedPlatform(f.platform);
    Connector.Draft(
      f.name, f.url, f.groupId, Some(Connector.GroupName(Connector.Groups, f.groupId)), platform, None, None,
      Connector.DraftSettings(
        Some(f.apiEndpoint), "basic_auth", Credentials(Some(f.username), Some(f.password), None),
        [], "draft", Seo(true, true, false),
        Customization(None, None, None, map[]),
        Notifications(None, []),
        Connector.DefaultTimezone))
  }

  /** The platform name a save writes reads back as the saved platform. */
  lemma SavedNameNamesSavedPlatform(p: ConnectorPlatform)
    ensures PlatformFromName(if p == MediumSite || p == DrupalSite then "custom" else p.Name()) == Some(SavedPlatform(p))
  {
    match p
    case WordPressSite =>
    case BloggerSite =>
    case JoomlaSite =>
    case MediumSite =>
    case DrupalSite =>
    case CustomApi =>
  }
}

=== FILE: templates.dfy ===
/** The content template list: a search over name and description, and a
    type select and a category select, each with the "all" sentinel. */
module Templates {
  import opened Seqs
  import opened Text

  const ALL := "all"

  datatype TemplateType = ArticleTemplate | SocialTemplate | EmailTemplate {
    function Name(): string {
      match this
      case ArticleTemplate => "article"
      case SocialTemplate => "social"
      case EmailTemplate => "email"
    }
  }

  datatype TemplateCategory = SystemTemplate | CustomTemplate {
    function Name(): string {
      match this
      case SystemTemplate => "system"
      case CustomTemplate => "custom"
    }
  }

  datatype Template = Template(
    id: string,
    name: string,
    description: string,
    kind: TemplateType,
    category: TemplateCategory,
    isPublic: bool,
    usageCount: int,
    createdAt: string,
    variables: seq<string>,
    content: string)

  /** The search box and the two selects. */
  datatype Filters = Filters(search: string, kind: string, category: string)

  const Unfiltered := Filters("", ALL, ALL)

  /** The filter callback: three flags AND-ed, the search over either text. */
  predicate Keep(f: Filters, t: Template) {
    var matchesSearch := Matches(f.search, t.name) || Matches(f.search, t.description);
    var matchesType := f.kind == ALL || t.kind.Name() == f.kind;
    var matchesCategory := f.category == ALL || t.category.Name() == f.category;
    matchesSearch && matchesType && matchesCategory
  }

  /** The templates the list shows, in their original order. */
  function Visible(templates: seq<Template>, f: Filters): (r: seq<Template>)
    ensures IsSubseq(r, templates)
    ensures forall t :: t in r <==>
      t in templates
      && (Matches(f.search, t.name) || Matches(f.search, t.description))
      && (f.kind == ALL || t.kind.Name() == f.kind)
      && (f.category == ALL || t.category.Name() == f.category)
  {
    Filter(t => Keep(f, t), templates)
  }

  /** An empty search with both selects on "all" shows every template in
      order. */
  lemma {:induction false} UnfilteredShowsEverything(templates: seq<Template>)
    ensures Visible(templates, Unfiltered) == templates
  {
    forall t ensures Keep(Unfiltered, t) {
      ContainsEmpty(Lower(t.name));
    }
    FilterKeepsAll(t => Keep(Unfiltered, t), templates);
  }

  /** Moving the type select or the category select (or both) away from
      "all" keeps only templates that were shown before. */
  lemma {:induction false} NarrowingNeverGrows(templates: seq<Template>, f: Filters, kind: string, category: string)
    requires f.kind == ALL && f.category == ALL
    ensures IsSubseq(Visible(templates, f.(kind := kind)), Visible(templates, f))
    ensures IsSubseq(Visible(templates, f.(category := category)), Visible(templates, f))
    ensures |Visible(templates, Filters(f.search, kind, category))| <= |Visible(templates, f)|
  {
    var g1, g2, g3 := f.(kind := kind), f.(category := category), Filters(f.search, kind, category);
    FilterMonotone(t => Keep(g1, t), t => Keep(f, t), templates);
    FilterMonotone(t => Keep(g2, t), t => Keep(f, t), templates);
    FilterMonotone(t => Keep(g3, t), t => Keep(f, t), templates);
    SubseqLength(Visible(templates, g3), Visible(templates, f));
  }

  /** A select value that names no type or category hides every template. */
  lemma UnknownTypeHidesAll(templates: seq<Template>, f: Filters)
    requires f.kind != ALL && forall k: TemplateType :: k.Name() != f.kind
    ensures Visible(templates, f) == []
  {
    FilterKeepsNone(t => Keep(f, t), templates);
  }
}

=== FILE: text.dfy ===
/** The JavaScript string operations the components rely on, restricted to
    what the model needs: ASCII case folding, `includes`, `trim`, `split`
    on a character and on whitespace runs, `join`, `startsWith`/`endsWith`
    and the first-occurrence `replace`. */
module Text {

  /** `toLowerCase` on one character, for the ASCII range only; every other
      character is left unchanged. */
  function LowerChar(c: char): char {
    if 'A' <= c <= 'Z' then (c as int + 32) as char else c
  }

  function Lower(s: string): (r: string)
    ensures |r| == |s|
    ensures forall i :: 0 <= i < |s| ==> r[i] == LowerChar(s[i])
  {
    seq(|s|, i requires 0 <= i < |s| => LowerChar(s[i]))
  }

  predicate StartsWith(s: string, prefix: string) {
    |prefix| <= |s| && s[..|prefix|] == prefix
  }

  predicate EndsWith(s: string, suffix: string) {
    |suffix| <= |s| && s[|s| - |suffix|..] == suffix
  }

  /** `s.includes(sub)`: `sub` occurs in `s` at some position. */
  predicate Contains(s: string, sub: string)
    decreases |s|
  {
    StartsWith(s, sub) || (|s| > 0 && Contains(s[1..], sub))
  }

  lemma ContainsEmpty(s: string)
    ensures Contains(s, "")
  {
  }

  /** `Contains` agrees with the positional reading of "occurs in". */
  lemma {:induction false} ContainsAt(s: string, sub: string, i: nat)
    requires i + |sub| <= |s| && s[i..i + |sub|] == sub
    ensures Contains(s, sub)
    decreases i
  {
    if i > 0 {
      assert s[1..][i - 1..i - 1 + |sub|] == s[i..i + |sub|];
      ContainsAt(s[1..], sub, i - 1);
    }
  }

  /** Case-insensitive substring search with ASCII folding
      (`text.toLowerCase().includes(term.toLowerCase())`); the empty term
      matches every text. */
  predicate Matches(term: string, text: string) {
    Contains(Lower(text), Lower(term))
  }

  /** The characters JavaScript's `trim` strips and its regular-expression
      class `\s` matches: the ECMAScript WhiteSpace and LineTerminator sets. */
  predicate IsSpace(c: char) {
    ('\t' <= c <= '\r') || c == ' ' || c == '\U{00A0}' || c == '\U{1680}'
    || ('\U{2000}' <= c <= '\U{200A}') || c == '\U{2028}' || c == '\U{2029}'
    || c == '\U{202F}' || c == '\U{205F}' || c == '\U{3000}' || c == '\U{FEFF}'
  }

  /** Every character is whitespace (JavaScript: `!s.trim()`). */
  predicate Blank(s: string) {
    forall i :: 0 <= i < |s| ==> IsSpace(s[i])
  }

  /** The leading whitespace removed (`trimStart`). */
  function TrimStart(s: string): (r: string)
    ensures |r| <= |s| && r == s[|s| - |r|..]
    ensures forall i :: 0 <= i < |s| - |r| ==> IsSpace(s[i])
    ensures r == "" || !IsSpace(r[0])
    decreases |s|
  {
    if |s| > 0 && IsSpace(s[0]) then
      var r := TrimStart(s[1..]);
      assert s[1..][|s| - 1 - |r|..] == s[|s| - |r|..];
      r
    else s
  }

  /** The trailing whitespace removed (`trimEnd`). */
  function TrimEnd(s: string): (r: string)
    ensures |r| <= |s| && r == s[..|r|]
    ensures forall i :: |r| <= i < |s| ==> IsSpace(s[i])
    ensures r == "" || !IsSpace(r[|r| - 1])
    decreases |s|
  {
    if |s| > 0 && IsSpace(s[|s| - 1]) then
      var r := TrimEnd(s[..|s| - 1]);
      assert s[..|s| - 1][..|r|] == s[..|r|];
      r
    else s
  }

  /** JavaScript's `trim`. */
  function Trim(s: string): (r: string)
    ensures |r| <= |s|
    ensures r == "" <==> Blank(s)
    ensures r == "" || (!IsSpace(r[0]) && !IsSpace(r[|r| - 1]))
  {
    TrimEmptyIffBlank(s);
    TrimEnd(TrimStart(s))
  }

  /** Trimming leaves nothing exactly when the text is all whitespace; what
      it leaves starts with the first non-whitespace character. */
  lemma TrimEmptyIffBlank(s: string)
    ensures TrimEnd(TrimStart(s)) == "" <==> Blank(s)
    ensures TrimEnd(TrimStart(s)) == "" || !IsSpace(TrimEnd(TrimStart(s))[0])
  {
    var t := TrimStart(s);
    var r := TrimEnd(t);
    var k := |s| - |t|;
    if r == "" {
      assert |t| == 0;
    } else {
      assert r[0] == t[0] && t[0] == s[k];
    }
  }

  /** Every character of the trimmed text comes from the text. */
  lemma TrimIsInfix(s: string)
    ensures forall c :: c in Trim(s) ==> c in s
  {
    var t := TrimStart(s);
    assert forall c :: c in t ==> c in s;
    assert Trim(s) == TrimEnd(t);
    assert forall c :: c in TrimEnd(t) ==> c in t;
  }

  /** Joins `pieces` with `glue` between neighbours (`pieces.join(glue)`). */
  function Join(pieces: seq<string>, glue: string): string
    decreases |pieces|
  {
    if |pieces| == 0 then ""
    else if |pieces| == 1 then pieces[0]
    else pieces[0] + glue + Join(pieces[1..], glue)
  }

  /** `s.split(sep)` for a one-character separator: the text between
      consecutive separators, so there is always at least one piece. */
  function Split(s: string, sep: char): (r: seq<string>)
    ensures |r| >= 1
    ensures forall i :: 0 <= i < |r| ==> sep !in r[i]
    ensures Join(r, [sep]) == s
    decreases |s|
  {
    if |s| == 0 then [""]
    else
      var rest := Split(s[1..], sep);
      if s[0] == sep then
        assert s == [sep] + s[1..];
        [""] + rest
      else
        var r := [[s[0]] + rest[0]] + rest[1..];
        assert r[1..] == rest[1..];
        if |rest| == 1 then r
        else
          assert Join(rest, [sep]) == rest[0] + [sep] + Join(rest[1..], [sep]);
          assert s == [s[0]] + rest[0] + [sep] + Join(rest[1..], [sep]);
          r
  }

  /** `s.split(/\s+/)`: the text between maximal runs of whitespace; a
      leading or trailing run yields an empty first or last piece. */
  function SplitOnSpaces(s: string): (r: seq<string>)
    ensures |r| >= 1
    ensures forall i :: 0 <= i < |r| ==> NoSpaceIn(r[i])
    decreases |s|
  {
    if |s| == 0 then [""]
    else if IsSpace(s[0]) then [""] + SplitOnSpaces(TrimStart(s))
    else
      var rest := SplitOnSpaces(s[1..]);
      [[s[0]] + rest[0]] + rest[1..]
  }

  /** A character-by-character reading of "replace each maximal run of
      separators by one `mark`": a separator that opens a run becomes
      `mark`, a separator inside a run is dropped, and every other
      character is kept. `inRun` says whether the text read so far ended
      inside a run. */
  function CollapseRuns(sep: char -> bool, mark: char, s: string, inRun: bool): (r: string)
    ensures |r| <= |s|
    decreases |s|
  {
    if |s| == 0 then ""
    else if sep(s[0]) then (if inRun then "" else [mark]) + CollapseRuns(sep, mark, s[1..], true)
    else [s[0]] + CollapseRuns(sep, mark, s[1..], false)
  }

  /** Inside a run, further separators add nothing. */
  lemma {:induction false} CollapseRunsSkip(sep: char -> bool, mark: char, s: string, k: nat)
    requires k <= |s| && forall i :: 0 <= i < k ==> sep(s[i])
    ensures CollapseRuns(sep, mark, s, true) == CollapseRuns(sep, mark, s[k..], true)
    decreases k
  {
    if k > 0 {
      var t := s[1..];
      forall i | 0 <= i < k - 1 ensures sep(t[i]) {
        assert t[i] == s[i + 1];
      }
      CollapseRunsSkip(sep, mark, t, k - 1);
      assert t[k - 1..] == s[k..];
    }
  }

  /** Before a non-separator, or at the end, an open run leaves no trace. */
  lemma CollapseRunsFresh(sep: char -> bool, mark: char, s: string)
    requires s == "" || !sep(s[0])
    ensures CollapseRuns(sep, mark, s, true) == CollapseRuns(sep, mark, s, false)
  {
  }

  /** Every whitespace run collapsed to a single space. */
  function CollapseSpace(s: string): string {
    CollapseRuns(IsSpace, ' ', s, false)
  }

  /** The pieces of `s.split(/\s+/)`, joined again with single spaces, give
      the text with every whitespace run collapsed to one space. Since no
      piece holds whitespace, this fixes every piece. */
  lemma {:induction false} SplitOnSpacesJoin(s: string)
    ensures Join(SplitOnSpaces(s), " ") == CollapseSpace(s)
    decreases |s|
  {
    if |s| > 0 {
      if IsSpace(s[0]) {
        SplitOnSpacesJoin(TrimStart(s));
        JoinAfterSpaceRun(s);
        CollapseAfterSpaceRun(s);
      } else {
        SplitOnSpacesJoin(s[1..]);
        JoinAfterWordChar(s);
      }
    }
  }

  /** A leading whitespace run yields an empty first piece. */
  lemma JoinAfterSpaceRun(s: string)
    requires |s| > 0 && IsSpace(s[0])
    ensures Join(SplitOnSpaces(s), " ") == " " + Join(SplitOnSpaces(TrimStart(s)), " ")
  {
    JoinConsEmpty(SplitOnSpaces(TrimStart(s)), " ");
  }

  /** A leading whitespace run collapses to one space. */
  lemma CollapseAfterSpaceRun(s: string)
    requires |s| > 0 && IsSpace(s[0])
    ensures CollapseSpace(s) == " " + CollapseSpace(TrimStart(s))
  {
    var t := TrimStart(s);
    var k := |s| - |t|;
    CollapseRunsSkip(IsSpace, ' ', s, k);
    assert s[k..] == t;
    CollapseRunsFresh(IsSpace, ' ', t);
    assert CollapseRuns(IsSpace, ' ', s, true) == CollapseRuns(IsSpace, ' ', s[1..], true);
  }

  /** A leading non-whitespace character starts the first piece. */
  lemma JoinAfterWordChar(s: string)
    requires |s| > 0 && !IsSpace(s[0])
    ensures Join(SplitOnSpaces(s), " ") == [s[0]] + Join(SplitOnSpaces(s[1..]), " ")
  {
    var rest := SplitOnSpaces(s[1..]);
    assert SplitOnSpaces(s) == [[s[0]] + rest[0]] + rest[1..];
    JoinConsHead(s[0], rest, " ");
  }

  /** An empty first piece leaves just the glue in front. */
  lemma JoinConsEmpty(pieces: seq<string>, glue: string)
    requires |pieces| >= 1
    ensures Join([""] + pieces, glue) == glue + Join(pieces, glue)
  {
    var r := [""] + pieces;
    assert |r| > 1 && r[0] == "" && r[1..] == pieces;
    assert Join(r, glue) == r[0] + glue + Join(r[1..], glue);
  }

  /** Putting a character in front of the first piece puts it in front of
      the joined text. */
  lemma JoinConsHead(c: char, pieces: seq<string>, glue: string)
    requires |pieces| >= 1
    ensures Join([[c] + pieces[0]] + pieces[1..], glue) == [c] + Join(pieces, glue)
  {
    var r := [[c] + pieces[0]] + pieces[1..];
    assert |r| == |pieces| && r[0] == [c] + pieces[0];
    if |pieces| == 1 {
      assert Join(r, glue) == r[0];
      assert Join(pieces, glue) == pieces[0];
    } else {
      var tail := Join(pieces[1..], glue);
      assert r[1..] == pieces[1..];
      assert Join(r, glue) == r[0] + glue + tail;
      assert Join(pieces, glue) == pieces[0] + glue + tail;
      assert [c] + pieces[0] + glue + tail == [c] + (pieces[0] + glue + tail);
    }
  }

  /** No piece holds a space, so the joined text has one space per gap. */
  lemma {:induction false} JoinSpaceCount(pieces: seq<string>)
    requires |pieces| >= 1
    requires forall i :: 0 <= i < |pieces| ==> NoSpaceIn(pieces[i])
    ensures multiset(Join(pieces, " "))[' '] == |pieces| - 1
    decreases |pieces|
  {
    NoSpaceNoBlank(pieces[0]);
    if |pieces| > 1 {
      var tail := pieces[1..];
      forall i | 0 <= i < |tail| ensures NoSpaceIn(tail[i]) {
        assert tail[i] == pieces[i + 1];
      }
      JoinSpaceCount(tail);
      assert multiset(pieces[0] + " " + Join(tail, " ")) == multiset(pieces[0]) + multiset(" ") + multiset(Join(tail, " "));
    }
  }

  lemma NoSpaceNoBlank(p: string)
    requires NoSpaceIn(p)
    ensures multiset(p)[' '] == 0
  {
    assert ' ' !in p;
  }

  /** `split(/\s+/)` gives one more piece than there are whitespace runs. */
  lemma SplitOnSpacesCount(s: string)
    ensures |SplitOnSpaces(s)| == multiset(CollapseSpace(s))[' '] + 1
  {
    SplitOnSpacesJoin(s);
    JoinSpaceCount(SplitOnSpaces(s));
  }

  predicate NoSpaceIn(s: string) {
    forall j :: 0 <= j < |s| ==> !IsSpace(s[j])
  }

  lemma {:induction false} NoSpaceNotContains(s: string)
    requires NoSpaceIn(s)
    ensures !Contains(s, " ")
    decreases |s|
  {
    if |s| > 0 {
      assert s[0] != ' ';
      NoSpaceNotContains(s[1..]);
    }
  }

  /** When `s` does not end in whitespace, every piece after the first is
      non-empty, and the first is non-empty too when `s` does not start with
      whitespace. */
  lemma {:induction false} SplitOnSpacesPiecesNonEmpty(s: string)
    requires s == "" || !IsSpace(s[|s| - 1])
    ensures forall k :: 1 <= k < |SplitOnSpaces(s)| ==> SplitOnSpaces(s)[k] != ""
    ensures |s| > 0 && !IsSpace(s[0]) ==> SplitOnSpaces(s)[0] != ""
    decreases |s|
  {
    if |s| > 0 {
      if IsSpace(s[0]) {
        var d := TrimStart(s);
        assert d != "";
        assert d[|d| - 1] == s[|s| - 1];
        SplitOnSpacesPiecesNonEmpty(d);
      } else {
        var t := s[1..];
        assert t == "" || t[|t| - 1] == s[|s| - 1];
        SplitOnSpacesPiecesNonEmpty(t);
      }
    }
  }

  /** The trimmed text splits on whitespace into non-empty words, except that
      blank text splits into the one empty piece `[""]`. */
  lemma SplitTrimmed(s: string)
    ensures Blank(s) ==> SplitOnSpaces(Trim(s)) == [""]
    ensures !Blank(s) ==> forall k :: 0 <= k < |SplitOnSpaces(Trim(s))| ==> SplitOnSpaces(Trim(s))[k] != ""
  {
    if Blank(s) {
      SplitBlank(s);
    } else {
      SplitNonBlank(s);
    }
  }

  lemma SplitBlank(s: string)
    requires Blank(s)
    ensures SplitOnSpaces(Trim(s)) == [""]
  {
    assert Trim(s) == "";
    assert SplitOnSpaces("") == [""];
  }

  lemma SplitNonBlank(s: string)
    requires !Blank(s)
    ensures forall k :: 0 <= k < |SplitOnSpaces(Trim(s))| ==> SplitOnSpaces(Trim(s))[k] != ""
  {
    SplitWords(Trim(s));
  }

  /** Text that neither starts nor ends with whitespace splits into
      non-empty words only. */
  lemma SplitWords(t: string)
    requires t != "" && !IsSpace(t[0]) && !IsSpace(t[|t| - 1])
    ensures forall k :: 0 <= k < |SplitOnSpaces(t)| ==> SplitOnSpaces(t)[k] != ""
  {
    SplitOnSpacesPiecesNonEmpty(t);
    var pieces := SplitOnSpaces(t);
    forall k | 0 <= k < |pieces| ensures pieces[k] != "" {
      if k > 0 {
        assert 1 <= k < |pieces|;
      }
    }
  }

  /** `s.replace(pat, rep)` with a string pattern: only the first occurrence
      of `pat` is replaced; without an occurrence `s` is returned as is. */
  function ReplaceFirst(s: string, pat: string, rep: string): (r: string)
    ensures !Contains(s, pat) ==> r == s
    ensures StartsWith(s, pat) ==> r == rep + s[|pat|..]
    decreases |s|
  {
    if StartsWith(s, pat) then rep + s[|pat|..]
    else if |s| == 0 then s
    else [s[0]] + ReplaceFirst(s[1..], pat, rep)
  }

  /** The occurrence replaced is the first one: when an occurrence starts at
      `i` and none starts earlier, exactly that occurrence is replaced and
      nothing else changes. */
  lemma {:induction false} ReplaceFirstAt(s: string, pat: string, rep: string, i: nat)
    requires i + |pat| <= |s| && s[i..i + |pat|] == pat
    requires forall j :: 0 <= j < i ==> !StartsWith(s[j..], pat)
    ensures ReplaceFirst(s, pat, rep) == s[..i] + rep + s[i + |pat|..]
    decreases i
  {
    if i == 0 {
      assert StartsWith(s, pat);
    } else {
      NoEarlierMatchInTail(s, pat, i);
      ReplaceFirstStep(s, pat, rep);
      ReplaceFirstAt(s[1..], pat, rep, i - 1);
      ConsSplit(s, i, i + |pat|, rep);
    }
  }

  /** Without a match at the front, the first character is kept and the
      search goes on in the rest. */
  lemma ReplaceFirstStep(s: string, pat: string, rep: string)
    requires |s| > 0 && !StartsWith(s, pat)
    ensures ReplaceFirst(s, pat, rep) == [s[0]] + ReplaceFirst(s[1..], pat, rep)
  {
  }

  /** A match at `i > 0` with none earlier is, in the tail, a match at
      `i - 1` with none earlier. */
  lemma NoEarlierMatchInTail(s: string, pat: string, i: nat)
    requires 0 < i && i + |pat| <= |s| && s[i..i + |pat|] == pat
    requires forall j :: 0 <= j < i ==> !StartsWith(s[j..], pat)
    ensures !StartsWith(s, pat)
    ensures s[1..][i - 1..i - 1 + |pat|] == pat
    ensures forall j :: 0 <= j < i - 1 ==> !StartsWith(s[1..][j..], pat)
  {
    assert s[0..] == s;
    forall j | 0 <= j < i - 1 ensures !StartsWith(s[1..][j..], pat) {
      assert s[1..][j..] == s[j + 1..];
    }
  }

  /** Splitting off the first character commutes with cutting at `i` and
      `k`: the one-step form of the replacement equals the cut form. */
  lemma ConsSplit(s: string, i: nat, k: nat, rep: string)
    requires 0 < i <= k <= |s|
    ensures [s[0]] + (s[1..][..i - 1] + rep + s[1..][k - 1..]) == s[..i] + rep + s[k..]
  {
    assert s[..i] == [s[0]] + s[1..][..i - 1];
    assert s[1..][k - 1..] == s[k..];
    ConcatAssoc([s[0]], s[1..][..i - 1], rep, s[k..]);
  }

  lemma ConcatAssoc(a: string, b: string, c: string, d: string)
    ensures a + (b + c + d) == (a + b) + c + d
  {
  }
}

=== FILE: website_grid.dfy ===
/** The card view of the website list: each card's border colour and status
    icon from the health value, its platform badge, the address shown
    without its scheme, and the error count. */
module WebsiteGrid {
  import opened Wrappers
  import opened Text
  import opened WebsiteTypes
  import HealthMonitoring

  function CardColour(health: string): (cls: string)
    ensures HealthFromName(health) == Some(Healthy) <==> cls == "border-green-200 bg-green-50"
    ensures HealthFromName(health) == Some(Warning) <==> cls == "border-yellow-200 bg-yellow-50"
    ensures HealthFromName(health) == Some(Critical) <==> cls == "border-red-200 bg-red-50"
    ensures HealthFromName(health).None? <==> cls == "border-gray-200 bg-gray-50"
  {
    match health
    case "healthy" => "border-green-200 bg-green-50"
    case "warning" => "border-yellow-200 bg-yellow-50"
    case "critical" => "border-red-200 bg-red-50"
    case _ => "border-gray-200 bg-gray-50"
  }

  /** The card's status icon, written out again in the grid. */
  function StatusIcon(health: string): (icon: string)
    ensures HealthFromName(health).None? <==> icon == "⚫"
    ensures HealthFromName(health) == Some(Healthy) <==> icon == "🟢"
  {
    match health
    case "healthy" => "🟢"
    case "warning" => "🟡"
    case "critical" => "🔴"
    case _ => "⚫"
  }

  /** The grid and the monitoring page show the same icon for every value. */
  lemma IconMatchesMonitoring(health: string)
    ensures StatusIcon(health) == HealthMonitoring.StatusIcon(health)
  {
  }

  /** The card colour and the icon fall back together. */
  lemma FallbacksAgree(health: string)
    ensures CardColour(health) == "border-gray-200 bg-gray-50" <==> StatusIcon(health) == "⚫"
  {
  }

  datatype PlatformBadge = PlatformBadge(text: string, colour: string)

  const FallbackColour := "bg-gray-100 text-gray-800"

  function KnownBadge(p: Platform): PlatformBadge {
    match p
    case WordPress => PlatformBadge("🔧 WordPress", "bg-blue-100 text-blue-800")
    case Blogger => PlatformBadge("📝 Blogger", "bg-orange-100 text-orange-800")
    case Joomla => PlatformBadge("🌟 Joomla", "bg-purple-100 text-purple-800")
    case Custom => PlatformBadge("⚙️ Custom", FallbackColour)
  }

  /** A known platform gets its fixed badge; any other string is shown after
      the wrench, in grey. */
  function Badge(platform: string): (b: PlatformBadge)
    ensures PlatformFromName(platform).Some? ==> b == KnownBadge(PlatformFromName(platform).value)
    ensures PlatformFromName(platform).None? ==> b == PlatformBadge("🔧 " + platform, FallbackColour)
  {
    match platform
    case "wordpress" => KnownBadge(WordPress)
    case "blogger" => KnownBadge(Blogger)
    case "joomla" => KnownBadge(Joomla)
    case "custom" => KnownBadge(Custom)
    case _ => PlatformBadge("🔧 " + platform, FallbackColour)
  }

  lemma KnownBadgesDistinct(p: Platform, q: Platform)
    ensures KnownBadge(p).text == KnownBadge(q).text <==> p == q
  {
  }

  /** The fallback label can coincide with a known one: a platform string
      "WordPress" is labelled exactly like "wordpress", only in grey. */
  lemma FallbackCanMimicKnownLabel()
    ensures Badge("WordPress").text == Badge("wordpress").text
    ensures Badge("WordPress").colour != Badge("wordpress").colour
  {
    assert PlatformFromName("WordPress").None?;
  }

  /** The address as the card shows it: the first "https://" anywhere in the
      URL is removed, then the first "http://" anywhere in what is left. */
  function DisplayUrl(url: string): (shown: string)
    ensures StartsWith(url, "https://") ==> shown == ReplaceFirst(url[8..], "http://", "")
    ensures !Contains(url, "https://") && StartsWith(url, "http://") ==> shown == url[7..]
    ensures !Contains(url, "https://") && !Contains(url, "http://") ==> shown == url
  {
    var once := ReplaceFirst(url, "https://", "");
    assert StartsWith(url, "https://") ==> once == "" + url[8..] == url[8..];
    ReplaceFirst(once, "http://", "")
  }

  /** The scheme removal the card evidently intends: a leading "https://" or
      "http://" is dropped and nothing else is touched. */
  function StripScheme(url: string): (shown: string)
    ensures StartsWith(url, "https://") ==> url == "https://" + shown
    ensures !StartsWith(url, "https://") && StartsWith(url, "http://") ==> url == "http://" + shown
    ensures !StartsWith(url, "https://") && !StartsWith(url, "http://") ==> shown == url
  {
    if StartsWith(url, "https://") then url[8..]
    else if StartsWith(url, "http://") then url[7..]
    else url
  }

  /** The intended reading keeps everything after the scheme: the shown text
      is always a suffix of the URL, and putting the scheme back gives the
      URL again. */
  lemma StripSchemeKeepsRest(scheme: string, rest: string)
    requires scheme == "https://" || scheme == "http://"
    ensures StripScheme(scheme + rest) == rest
    ensures EndsWith(scheme + rest, StripScheme(scheme + rest))
  {
    var url := scheme + rest;
    assert url[..|scheme|] == scheme;
    if scheme == "http://" {
      assert !StartsWith(url, "https://") by {
        if |url| >= 8 {
          assert url[..8][4] == url[4] == ':';
        }
      }
    }
    assert url[|url| - |rest|..] == rest;
  }

  /** As written, a second address inside the URL loses its scheme too: a
      link whose query carries "http://" is shown altered, where the
      intended reading keeps it. */
  lemma DisplayUrlAltersQuery(host: string, query: string)
    requires 'h' !in host
    ensures DisplayUrl("https://" + host + "http://" + query) == host + query
    ensures StripScheme("https://" + host + "http://" + query) == host + "http://" + query
  {
    var url := "https://" + host + "http://" + query;
    assert url[..8] == "https://";
    assert url[8..] == host + "http://" + query;
    RemoveFirstAfter(host, query);
  }

  /** Illustration of `DisplayUrlAltersQuery`: "https://a?u=http://b" is
      shown as "a?u=b". */
  lemma DisplayUrlAltersQueryExample()
    ensures DisplayUrl("https://a?u=http://b") == "a?u=b"
  {
    assert "https://a?u=http://b" == "https://" + "a?u=" + "http://" + "b";
    DisplayUrlAltersQuery("a?u=", "b");
  }

  /** The first "http://" after a stretch without any `h` is the one removed. */
  lemma RemoveFirstAfter(p: string, q: string)
    requires 'h' !in p
    ensures ReplaceFirst(p + "http://" + q, "http://", "") == p + q
  {
    var pat := "http://";
    var s := p + pat + q;
    assert s[|p|..|p| + |pat|] == pat;
    forall j | 0 <= j < |p| ensures !StartsWith(s[j..], pat) {
      assert s[j..][0] == p[j] && p[j] in p && pat[0] == 'h';
    }
    ReplaceFirstAt(s, pat, "", |p|);
    assert s[..|p|] == p && s[|p| + |pat|..] == q;
  }

  /** The error line of a card: the failed-post count, shown only when there
      are failed posts. */
  function ErrorLine(w: Website): (errors: Option<int>)
    ensures errors.Some? <==> w.failedPosts > 0
    ensures errors.Some? ==> errors.value == w.failedPosts
  {
    if w.failedPosts > 0 then Some(w.failedPosts) else None
  }

  /** The error line appears exactly for the sites the monitoring page lists
      in its error summary. */
  lemma ErrorLineMatchesSummary(websites: seq<Website>, w: Website)
    requires w in websites
    ensures ErrorLine(w).Some? <==> w in HealthMonitoring.ErrorSummary(websites)
  {
  }
}

=== FILE: website_table.dfy ===
/** The website list view (`components/websites/WebsiteTable.tsx`): a search
    over name or URL AND-combined with three selects (group, platform,
    status) that each use "all", a selection whose select-all takes only the
    visible ids, the bulk-action menu, and the option lists derived from the
    data. */
module WebsiteTable {
  import opened Wrappers
  import opened Seqs
  import opened Text
  import opened WebsiteTypes
  import Selection

  const ALL := "all"

  /** The three selects of the filter bar. */
  datatype Dim = GroupDim | PlatformDim | StatusDim

  datatype Filters = Filters(search: string, group: string, platform: string, status: string)

  const Unfiltered := Filters("", ALL, ALL, ALL)

  function Field(w: Website, d: Dim): string {
    match d
    case GroupDim => w.groupId
    case PlatformDim => w.platform.Name()
    case StatusDim => w.status.Name()
  }

  function Selected(f: Filters, d: Dim): string {
    match d
    case GroupDim => f.group
    case PlatformDim => f.platform
    case StatusDim => f.status
  }

  function WithDim(f: Filters, d: Dim, v: string): (r: Filters)
    ensures Selected(r, d) == v
    ensures forall e :: e != d ==> Selected(r, e) == Selected(f, e)
    ensures r.search == f.search
  {
    match d
    case GroupDim => f.(group := v)
    case PlatformDim => f.(platform := v)
    case StatusDim => f.(status := v)
  }

  /** The filter callback: four flags computed and AND-ed. The search is
      not guarded by emptiness; the empty term matches anyway. */
  predicate Keep(f: Filters, w: Website) {
    var matchesSearch := Contains(Lower(w.name), Lower(f.search)) || Contains(Lower(w.url), Lower(f.search));
    var matchesGroup := f.group == ALL || w.groupId == f.group;
    var matchesPlatform := f.platform == ALL || w.platform.Name() == f.platform;
    var matchesStatus := f.status == ALL || w.status.Name() == f.status;
    matchesSearch && matchesGroup && matchesPlatform && matchesStatus
  }

  /** A website passes when the name or URL contains the term (an empty term
      always does) and every select is "all" or equal to its field. */
  predicate Shown(f: Filters, w: Website) {
    (f.search == "" || Contains(Lower(w.name), Lower(f.search)) || Contains(Lower(w.url), Lower(f.search)))
    && forall d: Dim :: Selected(f, d) == ALL || Field(w, d) == Selected(f, d)
  }

  lemma KeepMeansShown(f: Filters)
    ensures forall w :: Keep(f, w) <==> Shown(f, w)
  {
    forall w ensures Keep(f, w) <==> Shown(f, w) {
      if f.search == "" {
        ContainsEmpty(Lower(w.name));
      }
      if Shown(f, w) {
        assert Selected(f, GroupDim) == ALL || Field(w, GroupDim) == Selected(f, GroupDim);
        assert Selected(f, PlatformDim) == ALL || Field(w, PlatformDim) == Selected(f, PlatformDim);
        assert Selected(f, StatusDim) == ALL || Field(w, StatusDim) == Selected(f, StatusDim);
      }
    }
  }

  /** The visible websites: an order-preserving subsequence holding exactly
      the websites that pass the filters. */
  function Visible(websites: seq<Website>, f: Filters): (r: seq<Website>)
    ensures IsSubseq(r, websites)
    ensures |r| <= |websites|
    ensures forall w :: w in r <==> w in websites && Shown(f, w)
  {
    KeepMeansShown(f);
    Filter(w => Keep(f, w), websites)
  }

  /** Default filters show every website, in order. */
  lemma {:induction false} UnfilteredShowsEverything(websites: seq<Website>)
    ensures Visible(websites, Unfiltered) == websites
  {
    KeepMeansShown(Unfiltered);
    FilterKeepsAll(w => Keep(Unfiltered, w), websites);
  }

  /** Moving a select from "all" to a value never shows more websites. */
  lemma {:induction false} NarrowingNeverGrows(websites: seq<Website>, f: Filters, d: Dim, v: string)
    requires Selected(f, d) == ALL
    ensures IsSubseq(Visible(websites, WithDim(f, d, v)), Visible(websites, f))
    ensures |Visible(websites, WithDim(f, d, v))| <= |Visible(websites, f)|
  {
    var g := WithDim(f, d, v);
    KeepMeansShown(f);
    KeepMeansShown(g);
    FilterMonotone(w => Keep(g, w), w => Keep(f, w), websites);
  }

  /** The ids of a list of websites, in order. */
  function Ids(ws: seq<Website>): (r: seq<Selection.Id>)
    ensures |r| == |ws| && forall i :: 0 <= i < |ws| ==> r[i] == ws[i].id
  {
    seq(|ws|, i requires 0 <= i < |ws| => ws[i].id)
  }

  /** Select-all: checking selects exactly the visible ids in visible order;
      unchecking clears the selection. */
  function SelectAll(websites: seq<Website>, f: Filters, checked: bool): (r: seq<Selection.Id>)
    ensures checked ==> |r| == |Visible(websites, f)|
    ensures checked ==> forall i :: 0 <= i < |r| ==> r[i] == Visible(websites, f)[i].id
    ensures !checked ==> r == []
  {
    if checked then Ids(Visible(websites, f)) else []
  }

  predicate HeaderChecked(selected: seq<Selection.Id>, websites: seq<Website>, f: Filters) {
    Selection.HeaderChecked(selected, Ids(Visible(websites, f)))
  }

  /** Select-all followed by the header checkbox: checked exactly when some
      website is visible. */
  lemma SelectAllChecksHeader(websites: seq<Website>, f: Filters)
    ensures HeaderChecked(SelectAll(websites, f, true), websites, f) <==> |Visible(websites, f)| > 0
  {
  }

  /** The "nothing matches" message under the table. */
  predicate EmptyMessageShown(websites: seq<Website>, f: Filters) {
    |Visible(websites, f)| == 0
  }

  lemma EmptyMessageIffNoneShown(websites: seq<Website>, f: Filters)
    ensures EmptyMessageShown(websites, f) <==> forall w :: w in websites ==> !Shown(f, w)
  {
    var v := Visible(websites, f);
    if |v| > 0 {
      assert v[0] in v;
    }
  }

  /** The six entries of the bulk-action menu, with the action string each
      hands to the parent. */
  datatype BulkAction = Activate | Deactivate | HealthCheck | Sync | ExportConfig | Remove {
    function Name(): string {
      match this
      case Activate => "activate"
      case Deactivate => "deactivate"
      case HealthCheck => "health-check"
      case Sync => "sync"
      case ExportConfig => "export"
      case Remove => "delete"
    }
  }

  datatype BulkCall = BulkCall(action: string, ids: seq<Selection.Id>)

  datatype BulkOutcome = BulkOutcome(selected: seq<Selection.Id>, call: Option<BulkCall>)

  /** A bulk-menu click: the parent's handler, when one is given, receives
      the action and the current selection; the table keeps the selection
      as it was. */
  function Bulk(selected: seq<Selection.Id>, action: BulkAction, hasHandler: bool): (o: BulkOutcome)
    ensures o.selected == selected
    ensures o.call.Some? <==> hasHandler
    ensures o.call.Some? ==> o.call.value.ids == selected && o.call.value.action == action.Name()
  {
    BulkOutcome(selected, if hasHandler then Some(BulkCall(action.Name(), selected)) else None)
  }

  /** The bulk bar stays up after a bulk action, since the table keeps its
      selection, and the parent is only ever handed a non-empty selection
      while the bar is shown. */
  lemma BulkKeepsBar(selected: seq<Selection.Id>, action: BulkAction, hasHandler: bool)
    ensures Selection.BulkBarShown(Bulk(selected, action, hasHandler).selected) == Selection.BulkBarShown(selected)
    ensures Bulk(selected, action, hasHandler).call.Some? ==>
      (Selection.BulkBarShown(selected) <==> |Bulk(selected, action, hasHandler).call.value.ids| > 0)
  {
  }

  /** The six action strings are distinct, so the parent can tell the menu
      entries apart. */
  lemma BulkActionNamesDistinct(a: BulkAction, b: BulkAction)
    ensures a.Name() == b.Name() ==> a == b
  {
  }

  /** The platform select's options: one per platform present in the data,
      without repeats. */
  function PlatformOptions(websites: seq<Website>): (r: seq<string>)
    ensures NoDups(r)
    ensures forall p :: p in r <==> exists i :: 0 <= i < |websites| && websites[i].platform.Name() == p
  {
    var names := seq(|websites|, i requires 0 <= i < |websites| => websites[i].platform.Name());
    assert forall p :: p in names <==> exists i :: 0 <= i < |websites| && websites[i].platform.Name() == p by {
      forall p | p in names ensures exists i :: 0 <= i < |websites| && websites[i].platform.Name() == p {
        var i :| 0 <= i < |names| && names[i] == p;
      }
      forall p | exists i :: 0 <= i < |websites| && websites[i].platform.Name() == p ensures p in names {
        var i :| 0 <= i < |websites| && websites[i].platform.Name() == p;
        assert names[i] == p;
      }
    }
    Dedup(names)
  }

  /** An entry of the group select. */
  datatype GroupOption = GroupOption(id: string, name: string)

  /** The group options as written: the Set is built from freshly created
      objects, which never compare equal, so every website contributes its
      own entry and a group shared by two websites appears twice. */
  function GroupOptionsAsWritten(websites: seq<Website>): (r: seq<GroupOption>)
    ensures |r| == |websites|
    ensures forall i :: 0 <= i < |r| ==> r[i].id == websites[i].groupId && r[i].name == websites[i].groupName
  {
    seq(|websites|, i requires 0 <= i < |websites| => GroupOption(websites[i].groupId, websites[i].groupName))
  }

  /** Two websites of one group give the same option twice. */
  lemma GroupOptionsAsWrittenRepeat(a: Website, b: Website)
    requires a.groupId == b.groupId && a.groupName == b.groupName
    ensures !NoDups(GroupOptionsAsWritten([a, b]))
  {
    var r := GroupOptionsAsWritten([a, b]);
    assert r[0] == r[1];
  }

  function OptionIds(gs: seq<GroupOption>): (r: seq<string>)
    ensures |r| == |gs| && forall i :: 0 <= i < |gs| ==> r[i] == gs[i].id
  {
    seq(|gs|, i requires 0 <= i < |gs| => gs[i].id)
  }

  /** The group options as intended: one per group id present in the data,
      each taken, in order, from the as-written list. */
  function GroupOptions(websites: seq<Website>): (r: seq<GroupOption>)
    ensures NoDups(OptionIds(r))
    ensures forall g :: g in OptionIds(r) <==> exists i :: 0 <= i < |websites| && websites[i].groupId == g
    ensures IsSubseq(r, GroupOptionsAsWritten(websites))
    decreases |websites|
  {
    if |websites| == 0 then []
    else
      var w := websites[0];
      var rest := Filter((x: Website) => x.groupId != w.groupId, websites[1..]);
      var tail := GroupOptions(rest);
      GroupOptionsStep(websites, rest, tail);
      [GroupOption(w.groupId, w.groupName)] + tail
  }

  lemma GroupOptionsStep(websites: seq<Website>, rest: seq<Website>, tail: seq<GroupOption>)
    requires |websites| > 0
    requires rest == Filter((x: Website) => x.groupId != websites[0].groupId, websites[1..])
    requires NoDups(OptionIds(tail))
    requires forall g :: g in OptionIds(tail) <==> exists i :: 0 <= i < |rest| && rest[i].groupId == g
    requires IsSubseq(tail, GroupOptionsAsWritten(rest))
    ensures var r := [GroupOption(websites[0].groupId, websites[0].groupName)] + tail;
      NoDups(OptionIds(r)) &&
      (forall g :: g in OptionIds(r) <==> exists i :: 0 <= i < |websites| && websites[i].groupId == g) &&
      IsSubseq(r, GroupOptionsAsWritten(websites))
  {
    var w := websites[0];
    var head := GroupOption(w.groupId, w.groupName);
    forall k | 0 <= k < |tail| ensures tail[k].id != w.groupId {
      assert OptionIds(tail)[k] in OptionIds(tail);
      var i :| 0 <= i < |rest| && rest[i].groupId == tail[k].id;
      assert rest[i] in rest;
    }
    ConsIdsDistinct(head, tail);
    ConsIdsMembership(websites, rest, head, tail);
    WrittenFilterSubseq(rest, websites[1..]);
    SubseqTrans(tail, GroupOptionsAsWritten(rest), GroupOptionsAsWritten(websites[1..]));
    assert GroupOptionsAsWritten(websites) == [head] + GroupOptionsAsWritten(websites[1..]);
    ConsSubseq(head, tail, GroupOptionsAsWritten(websites[1..]));
  }

  lemma ConsIdsDistinct(head: GroupOption, tail: seq<GroupOption>)
    requires NoDups(OptionIds(tail))
    requires forall k :: 0 <= k < |tail| ==> tail[k].id != head.id
    ensures NoDups(OptionIds([head] + tail))
  {
    var ids := OptionIds([head] + tail);
    forall i, j | 0 <= i < j < |ids| ensures ids[i] != ids[j] {
      if i > 0 {
        assert ids[i] == OptionIds(tail)[i - 1] && ids[j] == OptionIds(tail)[j - 1];
      } else {
        assert ids[j] == tail[j - 1].id;
      }
    }
  }

  lemma ConsIdsMembership(websites: seq<Website>, rest: seq<Website>, head: GroupOption, tail: seq<GroupOption>)
    requires |websites| > 0 && head.id == websites[0].groupId
    requires rest == Filter((x: Website) => x.groupId != websites[0].groupId, websites[1..])
    requires forall g :: g in OptionIds(tail) <==> exists i :: 0 <= i < |rest| && rest[i].groupId == g
    ensures forall g :: g in OptionIds([head] + tail) <==> exists i :: 0 <= i < |websites| && websites[i].groupId == g
  {
    ConsIdsPresent(websites, rest, head, tail);
    ConsIdsComplete(websites, rest, head, tail);
  }

  /** Every option id belongs to some website. */
  lemma ConsIdsPresent(websites: seq<Website>, rest: seq<Website>, head: GroupOption, tail: seq<GroupOption>)
    requires |websites| > 0 && head.id == websites[0].groupId
    requires rest == Filter((x: Website) => x.groupId != websites[0].groupId, websites[1..])
    requires forall g :: g in OptionIds(tail) <==> exists i :: 0 <= i < |rest| && rest[i].groupId == g
    ensures forall g :: g in OptionIds([head] + tail) ==> exists i :: 0 <= i < |websites| && websites[i].groupId == g
  {
    var ids := OptionIds([head] + tail);
    forall g | g in ids ensures exists i :: 0 <= i < |websites| && websites[i].groupId == g {
      var k :| 0 <= k < |ids| && ids[k] == g;
      if k == 0 {
        assert websites[0].groupId == g;
      } else {
        assert OptionIds(tail)[k - 1] == g;
        assert g in OptionIds(tail);
        var i :| 0 <= i < |rest| && rest[i].groupId == g;
        var j := KeptComesFromTail(websites, rest, i);
      }
    }
  }

  /** Every website's group has an option. */
  lemma ConsIdsComplete(websites: seq<Website>, rest: seq<Website>, head: GroupOption, tail: seq<GroupOption>)
    requires |websites| > 0 && head.id == websites[0].groupId
    requires rest == Filter((x: Website) => x.groupId != websites[0].groupId, websites[1..])
    requires forall g :: g in OptionIds(tail) <==> exists i :: 0 <= i < |rest| && rest[i].groupId == g
    ensures forall g :: (exists i :: 0 <= i < |websites| && websites[i].groupId == g) ==> g in OptionIds([head] + tail)
  {
    forall g | exists i :: 0 <= i < |websites| && websites[i].groupId == g ensures g in OptionIds([head] + tail) {
      var i :| 0 <= i < |websites| && websites[i].groupId == g;
      if g == head.id {
        assert OptionIds([head] + tail)[0] == g;
      } else {
        var j := OtherGroupKept(websites, rest, i);
        assert g in OptionIds(tail);
        IdsOfCons(head, tail, g);
      }
    }
  }

  /** A website that survived the filter is one of the websites. */
  lemma KeptComesFromTail(websites: seq<Website>, rest: seq<Website>, i: nat) returns (j: nat)
    requires |websites| > 0 && i < |rest|
    requires rest == Filter((x: Website) => x.groupId != websites[0].groupId, websites[1..])
    ensures 0 < j < |websites| && websites[j] == rest[i]
  {
    assert rest[i] in websites[1..];
    var k :| 0 <= k < |websites[1..]| && websites[1..][k] == rest[i];
    j := k + 1;
  }

  /** A website of another group than the first survives the filter. */
  lemma OtherGroupKept(websites: seq<Website>, rest: seq<Website>, i: nat) returns (j: nat)
    requires 0 < i < |websites| && websites[i].groupId != websites[0].groupId
    requires rest == Filter((x: Website) => x.groupId != websites[0].groupId, websites[1..])
    ensures j < |rest| && rest[j] == websites[i]
  {
    assert websites[1..][i - 1] == websites[i];
    assert websites[i] in rest;
    j :| 0 <= j < |rest| && rest[j] == websites[i];
  }

  /** An id of the tail is an id of the consed list. */
  lemma IdsOfCons(head: GroupOption, tail: seq<GroupOption>, g: string)
    requires g in OptionIds(tail)
    ensures g in OptionIds([head] + tail)
  {
    var k :| 0 <= k < |OptionIds(tail)| && OptionIds(tail)[k] == g;
    assert OptionIds([head] + tail)[k + 1] == g;
  }

  /** Taking the options of a subsequence of websites gives a subsequence of
      the options. */
  lemma {:induction false} WrittenFilterSubseq(a: seq<Website>, b: seq<Website>)
    requires IsSubseq(a, b)
    ensures IsSubseq(GroupOptionsAsWritten(a), GroupOptionsAsWritten(b))
    decreases |b|
  {
    var oa, ob := GroupOptionsAsWritten(a), GroupOptionsAsWritten(b);
    if |a| == 0 {
    } else if |b| == 0 {
    } else {
      assert GroupOptionsAsWritten(b[1..]) == ob[1..];
      if a[0] == b[0] && IsSubseq(a[1..], b[1..]) {
        assert GroupOptionsAsWritten(a[1..]) == oa[1..];
        WrittenFilterSubseq(a[1..], b[1..]);
      } else {
        WrittenFilterSubseq(a, b[1..]);
      }
    }
  }

  lemma ConsSubseq(x: GroupOption, a: seq<GroupOption>, b: seq<GroupOption>)
    requires IsSubseq(a, b)
    ensures IsSubseq([x] + a, [x] + b)
  {
    assert ([x] + a)[1..] == a;
    assert ([x] + b)[1..] == b;
  }

  /** When no two websites share a group, the intended options are exactly
      the as-written ones. */
  lemma {:induction false} GroupOptionsAgreeWhenGroupsDistinct(websites: seq<Website>)
    requires forall i, j :: 0 <= i < j < |websites| ==> websites[i].groupId != websites[j].groupId
    ensures GroupOptions(websites) == GroupOptionsAsWritten(websites)
    decreases |websites|
  {
    if |websites| > 0 {
      var w := websites[0];
      var tl := websites[1..];
      forall i, j | 0 <= i < j < |tl| ensures tl[i].groupId != tl[j].groupId {
        assert tl[i] == websites[i + 1] && tl[j] == websites[j + 1];
      }
      forall x | x in tl ensures x.groupId != w.groupId {
        var j :| 0 <= j < |tl| && tl[j] == x;
        assert websites[j + 1] == x;
      }
      FilterKeepsAll((x: Website) => x.groupId != w.groupId, tl);
      GroupOptionsAgreeWhenGroupsDistinct(tl);
      assert GroupOptions(websites) == [GroupOption(w.groupId, w.groupName)] + GroupOptions(tl);
      assert GroupOptionsAsWritten(websites) == [GroupOption(w.groupId, w.groupName)] + GroupOptionsAsWritten(tl);
    }
  }

  /** A platform badge: its label and its variant. */
  datatype Badge = Badge(text: string, variant: string)

  /** The fixed badge of each known platform. */
  function KnownBadge(p: Platform): Badge {
    match p
    case WordPress => Badge("WordPress", "default")
    case Blogger => Badge("Blogger", "secondary")
    case Joomla => Badge("Joomla", "outline")
    case Custom => Badge("Custom", "destructive")
  }

  /** The platform badge: known platforms get their fixed badge, anything
      else is shown under its own name with the secondary variant. */
  function PlatformBadge(platform: string): (b: Badge)
    ensures PlatformFromName(platform).Some? ==> b == KnownBadge(PlatformFromName(platform).value)
    ensures PlatformFromName(platform).None? ==> b == Badge(platform, "secondary")
  {
    if platform == "wordpress" then Badge("WordPress", "default")
    else if platform == "blogger" then Badge("Blogger", "secondary")
    else if platform == "joomla" then Badge("Joomla", "outline")
    else if platform == "custom" then Badge("Custom", "destructive")
    else Badge(platform, "secondary")
  }

  /** The four known platforms get four different labels. */
  lemma KnownBadgesDistinct(p: Platform, q: Platform)
    ensures KnownBadge(p).text == KnownBadge(q).text ==> p == q
  {
  }

  /** The status dot's colour class for a health string; unknown values get
      the grey dot. */
  function StatusDot(health: string): (cls: string)
    ensures HealthFromName(health) == Some(Healthy) <==> cls == "bg-green-500"
    ensures HealthFromName(health) == Some(Warning) <==> cls == "bg-yellow-500"
    ensures HealthFromName(health) == Some(Critical) <==> cls == "bg-red-500"
    ensures HealthFromName(health).None? <==> cls == "bg-gray-400"
  {
    if health == "healthy" then "bg-green-500"
    else if health == "warning" then "bg-yellow-500"
    else if health == "critical" then "bg-red-500"
    else "bg-gray-400"
  }
}

=== FILE: website_types.dfy ===
/** The record types and string enumerations of `types/website.ts`, plus the
    two enumerations the connection forms share (the six connector platforms
    and the connection-test status). Each enumeration carries the string the
    application stores, and a parser that recovers the value from it. */
module WebsiteTypes {
  import opened Wrappers

  /** `Website.platform`. */
  datatype Platform = WordPress | Blogger | Joomla | Custom {
    function Name(): string {
      match this
      case WordPress => "wordpress"
      case Blogger => "blogger"
      case Joomla => "joomla"
      case Custom => "custom"
    }
  }

  function PlatformFromName(s: string): (r: Option<Platform>)
    ensures r.Some? ==> r.value.Name() == s
    ensures forall p: Platform :: p.Name() == s ==> r == Some(p)
  {
    if s == "wordpress" then Some(WordPress)
    else if s == "blogger" then Some(Blogger)
    else if s == "joomla" then Some(Joomla)
    else if s == "custom" then Some(Custom)
    else None
  }

  /** `Website.status`. */
  datatype SiteStatus = Active | Inactive | Error {
    function Name(): string {
      match this
      case Active => "active"
      case Inactive => "inactive"
      case Error => "error"
    }
  }

  function SiteStatusFromName(s: string): (r: Option<SiteStatus>)
    ensures r.Some? ==> r.value.Name() == s
    ensures forall t: SiteStatus :: t.Name() == s ==> r == Some(t)
  {
    if s == "active" then Some(Active)
    else if s == "inactive" then Some(Inactive)
    else if s == "error" then Some(Error)
    else None
  }

  /** `Website.health_status`. */
  datatype Health = Healthy | Warning | Critical {
    function Name(): string {
      match this
      case Healthy => "healthy"
      case Warning => "warning"
      case Critical => "critical"
    }
  }

  function HealthFromName(s: string): (r: Option<Health>)
    ensures r.Some? ==> r.value.Name() == s
    ensures forall h: Health :: h.Name() == s ==> r == Some(h)
  {
    if s == "healthy" then Some(Healthy)
    else if s == "warning" then Some(Warning)
    else if s == "critical" then Some(Critical)
    else None
  }

  /** `WebsiteSettings.auth_type`. */
  datatype AuthType = AppPassword | OAuth | BasicAuth {
    function Name(): string {
      match this
      case AppPassword => "app_password"
      case OAuth => "oauth"
      case BasicAuth => "basic_auth"
    }
  }

  function AuthTypeFromName(s: string): (r: Option<AuthType>)
    ensures r.Some? ==> r.value.Name() == s
    ensures forall a: AuthType :: a.Name() == s ==> r == Some(a)
  {
    if s == "app_password" then Some(AppPassword)
    else if s == "oauth" then Some(OAuth)
    else if s == "basic_auth" then Some(BasicAuth)
    else None
  }

  /** `WebsiteSettings.defaults.post_status`. */
  datatype PostStatus = DraftPost | PublishPost | PendingPost {
    function Name(): string {
      match this
      case DraftPost => "draft"
      case PublishPost => "publish"
      case PendingPost => "pending"
    }
  }

  function PostStatusFromName(s: string): (r: Option<PostStatus>)
    ensures r.Some? ==> r.value.Name() == s
    ensures forall p: PostStatus :: p.Name() == s ==> r == Some(p)
  {
    if s == "draft" then Some(DraftPost)
    else if s == "publish" then Some(PublishPost)
    else if s == "pending" then Some(PendingPost)
    else None
  }

  datatype Credentials = Credentials(username: Option<string>, password: Option<string>, token: Option<string>)

  datatype Defaults = Defaults(category: Option<string>, tags: seq<string>, author: Option<string>, postStatus: PostStatus)

  datatype Seo = Seo(autoCanonical: bool, noindexDrafts: bool, nofollowExternal: bool)

  datatype Customization = Customization(
    titlePrefix: Option<string>, titleSuffix: Option<string>, contentFooter: Option<string>,
    customFields: map<string, string>)

  datatype Notifications = Notifications(webhookUrl: Option<string>, events: seq<string>)

  datatype WebsiteSettings = WebsiteSettings(
    apiEndpoint: Option<string>,
    authType: AuthType,
    credentials: Credentials,
    defaults: Defaults,
    seo: Seo,
    customization: Customization,
    notifications: Notifications,
    timezone: string)

  /** A connected publishing site. The numeric fields are documented as a
      0-100 score, a percentage and a duration in milliseconds. */
  datatype Website = Website(
    id: string,
    name: string,
    url: string,
    favicon: Option<string>,
    groupId: string,
    groupName: string,
    platform: Platform,
    platformVersion: Option<string>,
    status: SiteStatus,
    health: Health,
    healthScore: int,
    uptime: int,
    responseTime: int,
    lastCheck: string,
    lastSuccessfulPost: Option<string>,
    totalPosts: int,
    failedPosts: int,
    createdAt: string,
    updatedAt: string,
    settings: WebsiteSettings)

  /** The ranges `types/website.ts` documents for the numeric fields (they
      are comments there, not checked anywhere). */
  predicate InDocumentedRanges(w: Website) {
    0 <= w.healthScore <= 100 && 0 <= w.uptime <= 100 && w.responseTime >= 0
  }

  /** Group-level overrides: any subset of the website settings fields. */
  datatype GroupSettings = GroupSettings(
    apiEndpoint: Option<string>,
    authType: Option<AuthType>,
    credentials: Option<Credentials>,
    defaults: Option<Defaults>,
    seo: Option<Seo>,
    customization: Option<Customization>,
    notifications: Option<Notifications>,
    timezone: Option<string>)

  datatype SiteGroup = SiteGroup(
    id: string, name: string, description: Option<string>, color: string, websiteCount: int,
    settings: Option<GroupSettings>)

  datatype HealthStats = HealthStats(total: int, healthy: int, warning: int, critical: int)

  /** A platform entry of the platform overview (the `Platform` interface,
      not the `Website.platform` enumeration above). */
  datatype PlatformInfo = PlatformInfo(
    id: string, name: string, icon: string, connected: bool, siteCount: int,
    supportedFeatures: seq<string>)

  /** The six platforms the connection forms offer: the four of `Platform`
      plus Medium and Drupal, which `Website.platform` cannot hold. */
  datatype ConnectorPlatform = WordPressSite | BloggerSite | JoomlaSite | MediumSite | DrupalSite | CustomApi {
    function Name(): string {
      match this
      case WordPressSite => "wordpress"
      case BloggerSite => "blogger"
      case JoomlaSite => "joomla"
      case MediumSite => "medium"
      case DrupalSite => "drupal"
      case CustomApi => "custom"
    }
  }

  /** The connection-test status shared by the three website forms. */
  datatype Connection = Idle | Testing | Success | Failed(message: string)
}

=== FILE: wordpress_modal.dfy ===
/** The WordPress-only website form (`components/websites/WordPressModal.tsx`):
    the endpoint is derived from the URL's origin, or from the URL itself
    when the URL cannot be parsed; the connection test always succeeds once
    the credentials and endpoint are filled in. */
module WordPressModal {
  import opened Wrappers
  import opened Text
  import opened WebsiteTypes
  import Connector

  datatype Form = Form(name: string, url: string, groupId: string, apiEndpoint: string, username: string, password: string)

  datatype State = State(form: Form, connection: Connection)

  const EmptyForm := Form("", "", "", "", "", "")

  function Open(website: Option<Website>): (s: State)
    ensures s.connection == Idle
    ensures website.None? ==> s.form == EmptyForm
    ensures website.Some? ==> s.form.name == website.value.name && s.form.url == website.value.url
    ensures website.Some? ==> s.form.groupId == website.value.groupId
    ensures website.Some? ==> s.form.apiEndpoint == website.value.settings.apiEndpoint.GetOr("")
    ensures website.Some? ==> s.form.username == website.value.settings.credentials.username.GetOr("")
    ensures website.Some? ==> s.form.password == website.value.settings.credentials.password.GetOr("")
  {
    match website
    case None => State(EmptyForm, Idle)
    case Some(w) =>
      var creds := w.settings.credentials;
      State(Form(w.name, w.url, w.groupId, w.settings.apiEndpoint.GetOr(""),
                 creds.username.GetOr(""), creds.password.GetOr("")), Idle)
  }

  /** The fallback derivation used when the URL does not parse: the URL,
      one slash, then "wp-json/"; a trailing slash of the URL serves as that
      slash. */
  function FallbackEndpoint(url: string): (e: string)
    ensures e == Connector.StripTrailingSlash(url) + "/wp-json/"
  {
    if EndsWith(url, "/") then url + "wp-json/" else url + "/wp-json/"
  }

  /** Typing in the URL field. `origin` is what parsing the URL yields, or
      `None` when parsing throws. A non-empty URL always yields an endpoint
      ending in "/wp-json/"; an empty one leaves the endpoint alone. */
  function UrlChange(s: State, url: string, origin: Option<string>): (r: State)
    ensures r.form.url == url && r.connection == s.connection
    ensures r.form.(url := s.form.url, apiEndpoint := s.form.apiEndpoint) == s.form
    ensures url == "" ==> r.form.apiEndpoint == s.form.apiEndpoint
    ensures url != "" ==> EndsWith(r.form.apiEndpoint, "/wp-json/")
    ensures url != "" && origin.Some? ==> r.form.apiEndpoint == origin.value + "/wp-json/"
    ensures url != "" && origin.None? ==> r.form.apiEndpoint == Connector.StripTrailingSlash(url) + "/wp-json/"
  {
    var f := s.form.(url := url);
    if url == "" then State(f, s.connection)
    else
      var endpoint := match origin case Some(o) => o + "/wp-json/" case None => FallbackEndpoint(url);
      assert EndsWith(endpoint, "/wp-json/") by {
        var base := if origin.Some? then origin.value else Connector.StripTrailingSlash(url);
        assert endpoint == base + "/wp-json/";
        assert endpoint[|endpoint| - 9..] == "/wp-json/";
      }
      State(f.(apiEndpoint := endpoint), s.connection)
  }

  datatype PlainField = NameField | GroupField | EndpointField | UsernameField | PasswordField

  /** `handleInputChange`: writes the one field. */
  function SetField(s: State, field: PlainField, v: string): (r: State)
    ensures r.connection == s.connection && r.form.url == s.form.url
    ensures field == NameField ==> r.form == s.form.(name := v)
    ensures field == GroupField ==> r.form == s.form.(groupId := v)
    ensures field == EndpointField ==> r.form == s.form.(apiEndpoint := v)
    ensures field == UsernameField ==> r.form == s.form.(username := v)
    ensures field == PasswordField ==> r.form == s.form.(password := v)
  {
    match field
    case NameField => s.(form := s.form.(name := v))
    case GroupField => s.(form := s.form.(groupId := v))
    case EndpointField => s.(form := s.form.(apiEndpoint := v))
    case UsernameField => s.(form := s.form.(username := v))
    case PasswordField => s.(form := s.form.(password := v))
  }

  predicate ReadyToTest(f: Form) {
    f.username != "" && f.password != "" && f.apiEndpoint != ""
  }

  /** The test button is enabled when both credentials and the endpoint
      are filled in and no test is running. */
  predicate TestEnabled(s: State) {
    ReadyToTest(s.form) && s.connection != Testing
  }

  /** Pressing "test": with a credential or the endpoint missing nothing
      happens; otherwise the status becomes testing, which disables the
      button until the test ends. */
  function StartTest(s: State): (r: State)
    ensures !ReadyToTest(s.form) ==> r == s
    ensures ReadyToTest(s.form) ==> r.connection == Testing && r.form == s.form
    ensures !TestEnabled(r)
  {
    if !ReadyToTest(s.form) then s else s.(connection := Testing)
  }

  /** The simulated call's completion: it always reports success and leaves
      the form as it is. */
  function FinishTest(s: State): (r: State)
    ensures r.form == s.form && r.connection == Success
  {
    s.(connection := Success)
  }

  /** A whole test run, from the press to the completion. */
  function TestConnection(s: State): (r: State)
    ensures !ReadyToTest(s.form) ==> r == s
    ensures ReadyToTest(s.form) ==> r.connection == Success && r.form == s.form
  {
    if !ReadyToTest(s.form) then s else FinishTest(StartTest(s))
  }

  /** A completed test enables the button again exactly when the form is
      still ready, so a test can be repeated but never overlaps another. */
  lemma TestCanBeRepeated(s: State)
    requires ReadyToTest(s.form)
    ensures !TestEnabled(StartTest(s))
    ensures TestEnabled(FinishTest(StartTest(s)))
    ensures StartTest(FinishTest(StartTest(s))).connection == Testing
  {
  }

  /** Name, URL and credentials filled in, and a passed test. The endpoint
      is not part of the condition. */
  predicate CanSubmit(s: State) {
    s.form.name != "" && s.form.url != "" && s.form.username != "" && s.form.password != ""
    && s.connection == Success
  }

  /** Clearing the endpoint after a passed test still allows submitting. */
  lemma SubmitWithoutEndpoint(s: State)
    requires CanSubmit(s)
    ensures CanSubmit(SetField(s, EndpointField, ""))
    ensures SetField(s, EndpointField, "").form.apiEndpoint == ""
  {
  }

  /** A filled-in form that is tested becomes submittable. */
  lemma TestEnablesSubmit(s: State)
    requires ReadyToTest(s.form) && s.form.name != "" && s.form.url != ""
    ensures CanSubmit(TestConnection(s))
  {
  }

  /** `resetForm`: all six fields empty, status idle. */
  function Reset(s: State): (r: State)
    ensures r.form.name == "" && r.form.url == "" && r.form.groupId == ""
    ensures r.form.apiEndpoint == "" && r.form.username == "" && r.form.password == ""
    ensures r.connection == Idle
    ensures !CanSubmit(r) && !ReadyToTest(r.form)
  {
    State(EmptyForm, Idle)
  }

  /** The submitted record: always WordPress with an application password
      and draft posts, with the typed credentials and endpoint. */
  function Submit(f: Form): (d: Connector.Draft)
    ensures PlatformFromName(d.platform) == Some(WordPress)
    ensures AuthTypeFromName(d.settings.authType) == Some(AppPassword)
    ensures PostStatusFromName(d.settings.postStatus) == Some(DraftPost)
    ensures d.name == f.name && d.url == f.url && d.groupId == f.groupId
    ensures d.groupName == Some(Connector.GroupName(Connector.Groups, f.groupId))
    ensures d.settings.apiEndpoint == Some(f.apiEndpoint)
    ensures d.settings.credentials == Credentials(Some(f.username), Some(f.password), None)
    ensures d.settings.tags == [] && d.settings.seo == Seo(true, true, false)
  {
    Connector.Draft(
      f.name, f.url, f.groupId, Some(Connector.GroupName(Connector.Groups, f.groupId)), "wordpress", None, None,
      Connector.DraftSettings(
        Some(f.apiEndpoint), "app_password", Credentials(Some(f.username), Some(f.password), None),
        [], "draft", Seo(true, true, false),
        Customization(None, None, None, map[]),
        Notifications(None, []),
        Connector.DefaultTimezone))
  }
}

=== FILE: wrappers.dfy ===
/** The optional values the components use for JavaScript's `undefined`,
    `null` and `?.` lookups. */
module Wrappers {

  datatype Option<+T> = None | Some(value: T) {

    /** The value, or `default` when there is none (JavaScript's `x || d` on
        an optional value). */
    function GetOr(default: T): T {
      match this
      case Some(v) => v
      case None => default
    }
  }
}
